=== FILE: README.md ===
# Manga translation pipeline: a Dafny model

This project models the request-handling core of a manga translation service
made of several small FastAPI services:

- **API gateway** (`POST /translate`, `GET /translate/{job_id}`). It creates a
  job in an in-memory job table and records the job's stage before each
  downstream call. It feeds earlier replies into the two join stages (container
  fusion and MT) and into typesetting. It stops at the first exception, writing
  the error into the job record and answering 500. Otherwise it answers "done"
  with the OCR, MT and layout outputs.
- **MT gateway** (`POST /mt/translate`).
  - Validates the request and builds one prompt from the panel summaries and
    balloon texts.
  - Asks the chat model for a JSON answer, with up to two sampling settings.
  - Keeps only translations of requested balloons, and fails with 502 when any
    balloon is left untranslated.
- **Inpaint service** (`POST /run`).
  - Refuses empty uploads and decodes the `masks` form field.
  - Posts to the inpainting sidecar at most `INPAINT_MAX_RETRIES` times, with
    a multiplicative delay between attempts.
  - Stamps the answer with `sidecar_url`.
- **OCR/typeset stub** (`POST /ocr/run`, `POST /typeset/layout`). OCR answers
  one fixed span. Typesetting lays out one line per container, with the
  translation of balloon `b1`.
- **Panel-description stub** (`POST /describe`). It answers one fixed summary
  per panel, labelled with the panel's id.

Everything the services do over the network, and `json.loads` itself, is a
parameter:

- `Gateway.Services` maps a stage and its request to the reply.
- `MtGateway.Chat` maps a model tag, prompt and sampling options to the chat
  reply.
- `Inpaint.Sidecar` maps an upload and attempt number to the sidecar reply.
- `Json.Loads` maps a text to its decoding outcome.

Python's behaviour is written out where the services rely on it:
- `str.strip`, `str.split` and `str.join`, `str(int)`, `sorted` on strings
  and `repr` of a list of strings (module `Text`);
- `dict.get`, truthiness, and the messages of `AttributeError` and
  `TypeError` (module `Json`);
- FastAPI's rendering of `HTTPException` and of other exceptions (module
  `Http`).

`Scenario` composes the gateway with the two stub services, as deployed
together.

Modules:

| file | module | models |
|---|---|---|
| common.dfy | Common | `Option`, `Result` |
| json.dfy | Json | decoded JSON values, `dict.get`, truthiness, error texts, list validation |
| http.dfy | Http | `HTTPException`, FastAPI responses, request-validation complaints |
| text.dfy | Text | Python string operations |
| mt_prompt.dfy | MtPrompt | the validated MT request and `_build_prompt` |
| mt_gateway.dfy | MtGateway | `services/mt_gateway/main.py` |
| gateway.dfy | Gateway | `services/api_gateway/app/main.py` |
| inpaint.dfy | Inpaint | `services/inpaint/main.py` |
| ocr_trans.dfy | OcrTrans | `services/ai_ocr_trans/main.py` |
| vl_panels.dfy | VlPanels | `services/vl_panels/main.py` |
| scenario.dfy | Scenario | the gateway running against the stubs |

Where the code departs from the behaviour the services' names and messages
suggest (a status-checked, retrying pipeline with an error state), the model
follows the code:

- The gateway calls every stage once, with no retry and no status check. Only
  the inpaint service retries, and only its call to the sidecar.
- The inpaint loop retries every non-2xx status, not only 429 and 5xx. The
  explicit `{429, 500, 502, 503, 504}` test only changes the message, because
  `raise_for_status()` raises the same exception class for any other error
  status.
- A missing key in an earlier reply is not an error. The gateway reads it with
  `.get(key, [])` and sends `[]`. Only a reply that is not a dict stops the
  job, with `AttributeError`.
- The job record has no `status` field and no `ERROR` stage. A failed job keeps
  the stage it failed at and gains an `error` entry. Polling an unknown id
  answers `{"status": "unknown"}`.
- `POST /translate` runs synchronously and answers with the final outputs.

## Model

| member | source | states |
|---|---|---|
| Json.Get | services/api_gateway/app/main.py:47-48 | `v.get(key, default)` succeeds exactly on a dict, giving the stored value or the default, and otherwise raises the `AttributeError` that names the value's type |
| Json.DecodeAll | services/mt_gateway/main.py:37-38 | a list validates exactly when every item does; the result lists each item's decoded value at the same position |
| Http.Render | services/mt_gateway/main.py:149-165 | an endpoint answers plain-text 500 exactly when a non-HTTP exception escapes it; a handler's result answers 200 with that body; an `HTTPException` answers its own status with `{"detail": detail}` |
| Text.Strip | services/mt_gateway/main.py:25-26 | the result has no surrounding whitespace, is no longer than the input, and is empty exactly when the input is all whitespace |
| Text.StripSpec | services/mt_gateway/main.py:25 | whatever bounds satisfy the definition of stripping, `Strip` returns exactly that infix |
| Text.StripIdempotent | services/mt_gateway/main.py:160 | stripping twice is stripping once |
| Text.StripKeepsStripped | services/mt_gateway/main.py:106 | a text without surrounding whitespace is left unchanged |
| Text.StripWithin | services/mt_gateway/main.py:55 | stripping adds no character |
| Text.JoinSplit | services/mt_gateway/main.py:101 | joining the pieces of `split(sep)` on `sep` gives back the text |
| Text.SplitFirstPiece | services/mt_gateway/main.py:101-103 | when the first occurrence of the separator starts at `n`, the first piece is the text before it and the remaining pieces split what follows it |
| Text.FirstAt | services/mt_gateway/main.py:101-103 | the index where the separator first occurs, or the length when it does not occur: no occurrence starts before it |
| Text.SplitCharAgrees | services/mt_gateway/main.py:101 | splitting on one character agrees with the general split |
| Text.SplitJoin | services/mt_gateway/main.py:56-61 | lines joined with a character that none of them contains split back into the same lines |
| Text.SplitJoinEach | services/mt_gateway/main.py:63-73 | splitting a join splits each joined piece |
| Text.JoinAppend | services/mt_gateway/main.py:56-61 | joining two non-empty lists is joining each with the separator between them |
| Text.NatToString | services/mt_gateway/main.py:59-60 | the decimal text of a natural number has only digits and no leading zero |
| Text.NatToStringRoundTrip | services/mt_gateway/main.py:59-60 | reading back the decimal text of `n` gives `n` |
| Text.IntToString | services/mt_gateway/main.py:54 | `str(i)` is the digits of `abs(i)`, with a minus sign for a negative integer |
| Text.IntToStringChars | services/mt_gateway/main.py:54 | the text of an integer holds only digits and a leading minus sign |
| Text.BelowIrreflexive | services/mt_gateway/main.py:163 | string `<` is irreflexive |
| Text.BelowTransitive | services/mt_gateway/main.py:163 | string `<` is transitive |
| Text.BelowTotal | services/mt_gateway/main.py:163 | any two distinct strings are ordered one way or the other |
| Text.Insert | services/mt_gateway/main.py:163 | inserting into an ascending duplicate-free list keeps it ascending and adds exactly the element |
| Text.SortedDistinct | services/mt_gateway/main.py:163 | `sorted(set(xs))` is ascending and holds exactly the elements of `xs` |
| Text.AscendingUnique | services/mt_gateway/main.py:163 | an ascending list is determined by its elements, so the sorted missing list is unique |
| Text.PyRepr | services/mt_gateway/main.py:163 | `repr` of a string is enclosed in a matching pair of quotes, double exactly when the text holds a single quote and no double quote; unescaping the body gives back the text; a text without backslash, quote or control character appears as it is between single quotes |
| Text.UnescapeBody | services/mt_gateway/main.py:163 | reading back the escapes of a `repr` body gives the original text, whichever quote was chosen |
| MtPrompt.PanelLine | services/mt_gateway/main.py:54-55 | a context line reads `- Panel: <text>` without a panel id and `- Panel <id>: <text>` with one, the text stripped |
| MtPrompt.ContextLines | services/mt_gateway/main.py:52-56 | one context line per panel summary, in order, or the single placeholder line when there are none |
| MtPrompt.BalloonLines | services/mt_gateway/main.py:58-61 | line i, counting from 1, reads `i. (id=<id>) <text>` for the i-th balloon |
| MtPrompt.BuildPrompt | services/mt_gateway/main.py:51-73 | the prompt ends with the numbered balloon lines followed by the line asking for the JSON object only; `MtPrompt.PromptOpens` states its opening and `MtPrompt.PromptLayout` every line |
| MtPrompt.PromptOpens | services/mt_gateway/main.py:64-67 | for every request, the prompt opens with the instructions followed by a line break |
| MtPrompt.PromptLayout | services/mt_gateway/main.py:51-73 | when no field holds a line break, the prompt's lines are exactly: the instructions, the target line, the context heading, one line per panel summary (or the placeholder), a blank line, the balloon heading, one line per balloon numbered from 1 in request order, and the closing line |
| MtPrompt.PreambleOneLine | services/mt_gateway/main.py:64-66 | the fixed instructions are a single line |
| MtGateway.DecodeBalloon | services/mt_gateway/main.py:18-28 | a balloon validates exactly when it is a dict with string `id` and `text` whose text is not blank; the result keeps the id, and its text is the input text stripped |
| MtGateway.DecodePanel | services/mt_gateway/main.py:31-33 | a panel summary validates exactly when it is a dict whose `panel_id`, if present, is null, a string, an integer, a boolean or a float without fractional part, and whose `text`, if present, is a string; a missing or null id is no id, a string is kept as a name, an integer as a number, a boolean as 0 or 1 and an integral float as its integer; a missing text is "" and a present one is kept |
| MtGateway.DecodeExtras | services/mt_gateway/main.py:38-41 | the optional fields take their defaults: no context, "en", "premium", no model override |
| MtGateway.DecodeRequest | services/mt_gateway/main.py:36-48 | a validated request has at least one balloon, every one good, with the same ids in the same order as the body's list and each text the stripped text of that item; every rejection is a 422 |
| MtGateway.DecodeRequestRoundTrip | services/mt_gateway/main.py:18-48 | validation accepts the JSON encoding of every good request and gives the request back |
| MtGateway.BalloonsRoundTrip | services/mt_gateway/main.py:18-28 | a list of good balloons, encoded, validates back to itself |
| MtGateway.PanelsRoundTrip | services/mt_gateway/main.py:31-33 | any list of panel summaries, encoded, validates back to itself |
| MtGateway.PanelRoundTrip | services/mt_gateway/main.py:31-33 | every panel summary, encoded, validates back to itself |
| MtGateway.ExtrasRoundTrip | services/mt_gateway/main.py:36-41 | the optional fields of an encoded request validate back to themselves |
| MtGateway.ModelName | services/mt_gateway/main.py:116 | the model tag is the override unless it is absent or empty, else the configured default tag (from `DEFAULT_MODEL`), and it is never empty when that default is not |
| MtGateway.CallOllama | services/mt_gateway/main.py:76-95 | an error status or transport error aborts with that status (502 for transport); a successful call gives a truthy `message.content`, and a falsy one aborts with 502 "Ollama returned empty response"; a body that does not decode is retried with the decoder's message, and a body or `message` that is not an object is retried with the `AttributeError` of `.get` |
| MtGateway.Snippet | services/mt_gateway/main.py:98-106 | the text to decode is stripped; it is the stripped answer itself when the answer does not open with a fence, and otherwise the stripped text from after the opening fence up to the first fence that follows (or to the end when none does), without a leading `json` tag |
| MtGateway.Untag | services/mt_gateway/main.py:103-104 | a piece that starts with `json` loses exactly those four letters; any other piece is kept |
| MtGateway.FenceSplits | services/mt_gateway/main.py:100-102 | after a leading fence, `len(parts) > 1` always holds |
| MtGateway.SnippetFenced | services/mt_gateway/main.py:98-106 | an answer fenced and tagged `json` yields exactly its stripped contents |
| MtGateway.SnippetPlain | services/mt_gateway/main.py:98-107 | an unfenced stripped answer is decoded as it is |
| MtGateway.ExtractJsonMaybe | services/mt_gateway/main.py:98-112 | succeeds exactly when the snippet decodes to an object with `translations`, returning that object; a decoding failure reports the decoder's message, a non-object "Response must be a JSON object", and an object without the key "Missing 'translations' key" |
| MtGateway.Attempt | services/mt_gateway/main.py:126-139 | an attempt succeeds with the `translations` value of the decoded answer, and aborts exactly when the chat call aborts; a failed chat call passes its failure on, a non-string content is retried with the `AttributeError` of `.strip`, and a failed extraction is retried with the extraction's message |
| MtGateway.AttemptAccepted | services/mt_gateway/main.py:126-129 | a 200 answer whose content decodes to an object with `translations` is accepted at once, with that value |
| MtGateway.RetryLoop | services/mt_gateway/main.py:125-141 | the loop stops at the first success or abort; every earlier outcome was retried; after a retried last attempt it answers 502 with that attempt's error, or "Translation failed" when there was no attempt |
| MtGateway.TranslateWithRetries | services/mt_gateway/main.py:115-141 | one or two calls, with a second only after a retried first; a success is the answering attempt's translations; a first abort ends the loop; two retried attempts give 502 with the second's error |
| MtGateway.KeptOf | services/mt_gateway/main.py:155-160 | an item contributes one translation exactly when it is a dict with a requested string id and a string text |
| MtGateway.Kept | services/mt_gateway/main.py:160 | a kept translation's text is stripped |
| MtGateway.Iterated | services/mt_gateway/main.py:154 | iterating `translations` succeeds exactly on a list, dict or string; only a list contributes items; anything else raises "object is not iterable" |
| MtGateway.Clean | services/mt_gateway/main.py:153-160 | the cleaning fails exactly when some dict item has a list or dict id, and keeps at most one translation per item |
| MtGateway.CleanFirstBad | services/mt_gateway/main.py:157-159 | the cleaning fails on the first item with an unhashable id, naming its type |
| MtGateway.CleanSound | services/mt_gateway/main.py:153-160 | every kept translation is the id and stripped text of an item the loop accepts |
| MtGateway.CleanComplete | services/mt_gateway/main.py:153-160 | every accepted item has its translation kept |
| MtGateway.CleanSnoc | services/mt_gateway/main.py:153-160 | the cleaning keeps the model's order: one more item appends at most its own translation |
| MtGateway.CleanIdentity | services/mt_gateway/main.py:153-160 | cleaning an answer that is already clean gives back its translations unchanged |
| MtGateway.BalloonIds | services/mt_gateway/main.py:152 | every requested balloon's id is in the id set |
| MtGateway.BalloonIdsWitness | services/mt_gateway/main.py:152 | every id in the set is some requested balloon's id, so with `MtGateway.BalloonIds` the set is exactly the balloons' ids |
| MtGateway.KeptIdsWitness | services/mt_gateway/main.py:161 | every kept id comes from some kept translation |
| MtGateway.MissingIds | services/mt_gateway/main.py:161 | exactly the requested ids without a kept translation are missing |
| MtGateway.Complete | services/mt_gateway/main.py:161-163 | passes exactly when every requested id is kept; otherwise a 502 whose detail lists the missing ids once each, ascending, as Python prints a list |
| MtGateway.CompleteWhenCovered | services/mt_gateway/main.py:161-163 | nothing is missing when the kept ids cover the balloons |
| MtGateway.CleanAndComplete | services/mt_gateway/main.py:153-164 | clean translations covering every balloon pass cleaning and the completeness check unchanged |
| MtGateway.Finish | services/mt_gateway/main.py:152-165 | a successful answer names the model tag used; its translations are stripped, each of a requested balloon, and cover every balloon; a non-iterable `translations` is a plain 500 |
| MtGateway.FinishCleaned | services/mt_gateway/main.py:154-165 | on translations that clean to `ts`, the endpoint succeeds exactly when `ts` covers every balloon, answering the model tag and exactly `ts`; otherwise it answers the completeness check's 502 naming the missing ids |
| MtGateway.FinishUnclean | services/mt_gateway/main.py:154-159 | when cleaning meets an unhashable id, the endpoint fails with that `TypeError`, a plain 500 |
| MtGateway.Translated | services/mt_gateway/main.py:149-165 | a successful answer satisfies `Answers` for the request |
| MtGateway.TranslatedFinishes | services/mt_gateway/main.py:150-165 | when the retry loop succeeds, the answer is cleaning and the completeness check applied to the `translations` it accepted |
| MtGateway.RetriesFailed | services/mt_gateway/main.py:130-141 | when the retry loop fails, its error is the endpoint's answer |
| MtGateway.MtTranslate | services/mt_gateway/main.py:149-165 | a body that fails validation gets validation's 422 and never reaches the model; a success answers a validated request |
| MtGateway.MtTranslateValidated | services/mt_gateway/main.py:149-150 | a body that validates is answered by translating the validated request |
| Gateway.RecordJson | services/api_gateway/app/main.py:31-82 | a job record is the dict of its stage's name, target language and tier, plus `error` with the exception text exactly when the job failed, and nothing else (so no `status`) |
| Gateway.Received | services/api_gateway/app/main.py:37 | `.json()` on a reply raises exactly for the plain-text 500, and otherwise yields the status and body |
| Gateway.JoinsReadEarlier | services/api_gateway/app/main.py:45-72 | every join reads only replies of stages that run strictly earlier |
| Gateway.Blocker | services/api_gateway/app/main.py:46-48 | the first reply read by a join that is not a dict, present exactly when some such reply exists |
| Gateway.Gather | services/api_gateway/app/main.py:46-48 | a join's fields are built exactly when every reply it reads is a dict; each field holds `reply.get(key, [])`; otherwise the `AttributeError` of the first blocking reply |
| Gateway.StageRequest | services/api_gateway/app/main.py:36-72 | an upload stage sends the job's image; a join sends a dict body and fails before its call exactly when an earlier reply it reads is not a dict |
| Gateway.RequestCarries | services/api_gateway/app/main.py:45-72 | a join's request carries, under each field, that field's key of the earlier reply |
| Gateway.RequestMtExtras | services/api_gateway/app/main.py:59-62 | MT's request carries the job's target language and tier |
| Gateway.CoversGrow | services/api_gateway/app/main.py:36-72 | recording a stage's reply makes the replies available to every later stage |
| Gateway.RunCompleteKeys | services/api_gateway/app/main.py:74-75 | a run without error holds the OCR, MT and typeset replies that the "done" answer reports |
| Gateway.Run | services/api_gateway/app/main.py:35-78 | the try block writes at least the stage it starts at; its order, halting stage and payloads are the contracts of `Gateway.RunSummary`, `Gateway.RunHalts` and `Gateway.TranslateWiring` |
| Gateway.Translate | services/api_gateway/app/main.py:28-78 | `/translate` writes only its own job, with the request's language and tier and the last stage written; a new id grows the table by one; a failure answers 500 with the error |
| Gateway.Settle | services/api_gateway/app/main.py:74-78 | the job keeps the last stage written and the run's error; a failed run answers 500 with the error; a complete run answers 200 "done" with the OCR, MT and layout replies |
| Gateway.TranslateStages | services/api_gateway/app/main.py:31-75 | the job's stage runs through the enum in order from QUEUED, skipping and repeating nothing; it reaches COMPOSITE exactly when there is no error; a complete run made the nine calls in stage order, all answered, and answers "done" with their OCR, MT and typeset bodies |
| Gateway.RunSummary | services/api_gateway/app/main.py:36-75 | `TranslateStages` for the run itself, before the job table is written |
| Gateway.TranslateHalts | services/api_gateway/app/main.py:76-78 | a failed job stopped at its recorded stage: every earlier call answered, and either that stage's call raised the recorded error, or one of its join's earlier replies was not a dict and the error is the `.get` complaint about it |
| Gateway.RunHalts | services/api_gateway/app/main.py:76-78 | `TranslateHalts` for the run itself |
| Gateway.TranslateWiring | services/api_gateway/app/main.py:36-72 | every call sends the image or the fields its joins read from the earlier dict replies; MT also sends language and tier |
| Gateway.JobStatus | services/api_gateway/app/main.py:80-82 | polling a known job answers its stored record; polling an unknown id answers `{"status": "unknown"}` |
| Gateway.StatusAfterTranslate | services/api_gateway/app/main.py:28-82 | after `/translate`, polling shows the stage reached, the request's language and tier, and no `status`; it carries `error` exactly when the POST answered 500, with the message of that answer; it shows COMPOSITE exactly when the POST answered 200, and other jobs poll as before |
| Gateway.DoneDespiteStatus | services/api_gateway/app/main.py:36-75 | if every service answers some dict, whatever its status, the job completes and answers 200 |
| Gateway.BadGatewayDone | services/api_gateway/app/main.py:36-75 | with every service answering 502 and an error body, `/translate` still answers 200 "done" |
| Gateway.Checked | services/api_gateway/app/main.py:37 | with the status checked, a reply is decoded exactly when it answered 2xx, and then unchanged |
| Gateway.CheckedDoneMeansSuccess | services/api_gateway/app/main.py:36-75 | with statuses checked, a "done" job means every one of the nine stages answered 2xx |
| Inpaint.ParseMasks | services/inpaint/main.py:19-28 | an empty field means no masks; a JSON list is taken as it is; undecodable text is a 400 "Invalid masks payload: <msg>"; any other value is a 400 "Masks payload must be a list" |
| Inpaint.SetDefault | services/inpaint/main.py:57 | `setdefault` adds the key only when it is absent and changes nothing else |
| Inpaint.StepOf | services/inpaint/main.py:51-67 | a post is retried exactly on a transport error or a non-2xx status; a 429, 500, 502, 503 or 504 carries the retryable-status message; an unreachable sidecar carries the transport error's text and any other non-2xx status the `raise_for_status` message; a 2xx JSON object is returned with `sidecar_url` set by default; a non-JSON body is a 502 at once; a non-object body raises `AttributeError` |
| Inpaint.Loop | services/inpaint/main.py:45-70 | the loop makes at most the remaining budget of posts and none when it is spent, sleeping between consecutive posts only; with no post it fails 502 "Sidecar request failed" |
| Inpaint.LoopDelays | services/inpaint/main.py:46-65 | the i-th sleep is the first delay times the backoff factor to the power i |
| Inpaint.LoopRetriedBefore | services/inpaint/main.py:50-63 | every post before the last ended in a caught error |
| Inpaint.LoopLast | services/inpaint/main.py:50-70 | the outcome is the last post's payload or uncaught exception; if the last post too was caught, the budget is used up and the loop fails 502 naming that error |
| Inpaint.DelayShift | services/inpaint/main.py:65 | starting one multiplication later is one step further along |
| Inpaint.CallSidecar | services/inpaint/main.py:36-70 | at most `MAX_RETRIES` posts, none when it is not positive (a plain 502); sleeps of 1, b, b², ... seconds only between consecutive posts; every post but the last ended in a caught error |
| Inpaint.CallSidecarLast | services/inpaint/main.py:50-70 | the last post decides the outcome: its payload, its uncaught exception, or, after `MAX_RETRIES` caught failures, 502 "Sidecar request failed: <last error>" |
| Inpaint.LoopAgrees | services/inpaint/main.py:50-63 | the loop depends only on the posts it makes |
| Inpaint.OnlyPostsMadeMatter | services/inpaint/main.py:50-63 | two sidecars that answer the posts made alike give the same outcome |
| Inpaint.Settles | services/inpaint/main.py:50-67 | the first post that is not caught ends the loop, after exactly that many posts, with its payload or exception |
| Inpaint.Exhausts | services/inpaint/main.py:59-70 | when every post fails with a caught error, all `MAX_RETRIES` posts are made with a sleep between each two, and the 502 names the last error |
| Inpaint.OrDefault | services/inpaint/main.py:79 | an upload attribute is used when present and non-empty, and the default replaces it otherwise |
| Inpaint.Sent | services/inpaint/main.py:37-43 | the upload carries the file's own name and type, or `page.png` and `image/png`, so the sidecar call's defaults never apply |
| Inpaint.Run | services/inpaint/main.py:73-79 | an empty image is a 400 before the masks are read; bad masks are refused with no post; otherwise the sidecar call is made with the parsed masks |
| OcrTrans.OcrRun | services/ai_ocr_trans/main.py:10-13 | the OCR stub answers engine `manga_ocr@stub` and one span with id `b1`, whatever the upload |
| OcrTrans.Records | services/ai_ocr_trans/main.py:18-20 | a comprehension over a list goes through its items; an empty dict or string gives nothing; a non-empty one fails on its first element; other values cannot be iterated |
| OcrTrans.IdError | services/ai_ocr_trans/main.py:18-19 | `item["id"]` fails exactly when the item is not a dict, lacks `id`, or has an unhashable id used as a key |
| OcrTrans.FirstIdError | services/ai_ocr_trans/main.py:18-20 | a comprehension finishes exactly when every item's id can be read |
| OcrTrans.Table | services/ai_ocr_trans/main.py:18 | every entry of the translation dict comes from an item with that id |
| OcrTrans.TableLastWins | services/ai_ocr_trans/main.py:18 | the last item with a given id decides its entry, and a missing text is "" |
| OcrTrans.TableAbsent | services/ai_ocr_trans/main.py:18 | an id that no item carries has no entry |
| OcrTrans.Lines | services/ai_ocr_trans/main.py:19-20 | one line per container, in order, each with the container's id and the same text |
| OcrTrans.TypesetLayout | services/ai_ocr_trans/main.py:15-20 | layout succeeds exactly when both lists can be iterated and their ids read; every failure is a plain 500; a success lists one line per container with the translation of `b1` or "Hello!" |
| OcrTrans.Typeset | services/ai_ocr_trans/main.py:15-16 | a body that is not a JSON object is a 422 |
| OcrTrans.NoContainersNoLines | services/ai_ocr_trans/main.py:19-20 | without containers there are no lines |
| OcrTrans.TypesetOcrSpans | services/ai_ocr_trans/main.py:13-20 | laying out the OCR stub's own spans as translations writes its text on every line |
| VlPanels.DecodePanelDict | services/vl_panels/main.py:8 | a panel validates exactly when it is a dict |
| VlPanels.DecodeDescribe | services/vl_panels/main.py:7-8 | the body validates exactly when it is a dict whose `panels`, if present, is a list of dicts; a missing list means no panels; a rejection is a 422 |
| VlPanels.PanelLabel | services/vl_panels/main.py:17 | a summary is labelled with the panel's `id`, whatever its type, or `p?` |
| VlPanels.Summaries | services/vl_panels/main.py:17 | one summary per panel, in order, labelled by that panel |
| VlPanels.SummariesAppend | services/vl_panels/main.py:17 | the summaries of two lists of panels are the summaries of each, one after the other |
| VlPanels.DescribeJson | services/vl_panels/main.py:17-18 | the answer holds the summaries and the model `qwen3-vl-8b@stub` |
| VlPanels.Describe | services/vl_panels/main.py:14-18 | succeeds exactly when the body validates; a body without panels gets no summaries; a failure is a 422 |
| VlPanels.DescribeLabels | services/vl_panels/main.py:17 | the summary at each position is labelled with that panel's id, or `p?`, and carries the fixed sentence |
| Scenario.ViaDict | services/api_gateway/app/main.py:37 | an endpoint that raises only `HTTPException` reaches the gateway as a dict |
| Scenario.StubAnswers | services/api_gateway/app/main.py:50-56 | the OCR and panel-description stubs always answer the gateway with a dict |
| Scenario.TypesetAnswers | services/api_gateway/app/main.py:69-72 | the typeset stub answers a dict whenever the containers and translations it gets are lists of items with ids |
| Scenario.StubsComplete | services/api_gateway/app/main.py:36-75 | with the stubs in place, a job completes whenever the other stages answer dicts and fusion and MT answer lists of items with ids |
| Scenario.NeverStopped | services/api_gateway/app/main.py:76-78 | no stage stops such a run |
| Scenario.StubsRun | services/api_gateway/app/main.py:36-75 | such a run makes all nine calls, wired as the gateway wires them, and answers 200 "done" |
| Scenario.OcrOutput | services/api_gateway/app/main.py:50-52 | the "done" answer's `ocr` output is the OCR stub's answer for the job's image |
| Scenario.LayoutOutput | services/api_gateway/app/main.py:69-75 | the `layout` output has one line per container that fusion answered, in order, each with the text MT gave balloon `b1` (or "Hello!") |

## Left out

- Network I/O, timeouts and environment lookup.
  - Every downstream call is a function parameter.
  - The service URLs, `INPAINT_MAX_RETRIES` and `INPAINT_RETRY_BACKOFF` are
    fields of `Inpaint.Config`.
  - `DEFAULT_MODEL` (default "qwen3:latest") is the `defaultModel` parameter
    of the MT endpoint.
  - `REQUEST_TIMEOUT` appears only as the transport errors it can cause.
- `asyncio.sleep` is not performed. The loop records the delays it would sleep.
- Concurrency between requests is not modelled. Each request is modelled as
  running to completion on its own.
- `uuid4` is not modelled. The job id is a parameter, and the lemmas state what
  happens whether or not it is fresh.
- The `/health` endpoints are not modelled. They answer constants and touch no
  state.
- JSON text is neither parsed nor printed.
  - `json.loads` and `response.json()` outcomes come from a parse oracle
    (`Json.Loads`).
  - The masks encoded by `json.dumps` travel as the parsed list.
  - Floats are modelled as reals.
- httpx error texts are not modelled. The text of `HTTPStatusError` is a field
  of the reply (`statusError`), and transport errors carry their `str(exc)`.
- Gateway.StatusComplaint: a placeholder text for the corrected gateway's `raise_for_status` complaint, not httpx's exact message.
- Gateway.Run: its own contract states only that a stage is written. The
  stage order, the halting stage and the payloads of a whole run are stated by
  `Gateway.RunSummary`, `Gateway.RunHalts` and `Gateway.TranslateWiring`,
  which keeps the recursive function cheap to check.
- MtGateway.CallOllama: the HTTPStatusError branch of `_translate_with_retries`
  reads `exc.response.text`; the model uses the reply's text field for it.
- Request validation keeps only the first complaint. FastAPI's 422 body is a
  list of structured errors; the model keeps the first one's message.
- MtGateway.DecodeRequest: states the 422 status, not the exact error list.
- MtGateway.DecodePanel: its contract states which values validate and what
  each becomes, not the complaint text of a rejection.
- OcrTrans.Table: keeps only string ids. Only the string key `b1` is ever
  looked up, so other hashable ids cannot change the answer.
- Text.PyRepr: escapes only the backslash, the chosen quote, `\n`, `\r` and `\t`.
  Python also escapes other non-printable characters.
- Text.IsSpace: covers Python's whitespace set. No Unicode case or
  normalisation is modelled.
- The `masks` form field of the inpaint service defaults to `"[]"` when absent.
  The model takes the field's text as given, including the empty text the
  gateway sends.
- The exact `KeyError` and `TypeError` texts follow CPython 3.11.
  `Unhandled` faults render as a plain 500 whatever their text, so these texts
  matter only to the model's bookkeeping.
- `services/ai_vision/main.py` (detection, segmentation, fusion) and
  `services/search/main.py` are not part of this model. The gateway sees them
  only through `Gateway.Services`, and `Scenario` assumes only that they answer
  dicts.

## Findings

| source | as written | input that shows it | evidently intended | confidence | as-written member | corrected member |
|---|---|---|---|---|---|---|
| services/api_gateway/app/main.py:37-72 | each stage's reply is read with `.json()` and used whatever its status; no `raise_for_status()` is called | every service answers 502 with FastAPI's `{"detail": "Bad Gateway"}` body: the job reaches COMPOSITE and `/translate` answers 200 "done" | a stage that answers an error status fails the job, as the inpaint service does for its sidecar | medium, not executed | Gateway.BadGatewayDone | Gateway.CheckedDoneMeansSuccess |

=== FILE: common.dfy ===
/** Failure-compatible wrappers shared by every service model. */
module Common {

  /** Python `bytes`. */
  type Bytes = seq<bv8>

  /** A value that may be absent (Python's `None`). */
  datatype Option<+T> = None | Some(value: T)
  {
    /** `x or default` for an optional value. */
    function GetOr(default: T): T
    {
      match this
      case Some(v) => v
      case None => default
    }
  }

  /** Either a value or the error that a Python `raise` would have carried. */
  datatype Result<+T, +E> = Success(value: T) | Failure(error: E)
  {
    predicate IsFailure()
    {
      Failure?
    }

    function PropagateFailure<U>(): Result<U, E>
      requires Failure?
    {
      Failure(error)
    }

    function Extract(): T
      requires Success?
    {
      value
    }
  }
}

=== FILE: gateway.dfy ===
/**
  The API gateway's `/translate` endpoint: a job table keyed by job id, and a
  pipeline that records the job's stage before each downstream call, feeds
  earlier replies into the join stages, and stops at the first exception,
  leaving the error in the job record.  `/translate/{job_id}` reads the table.

  Every downstream call is abstracted as a `Services` function from the stage
  and the request it sends to the reply it gets back.
 */
module Gateway {
  import opened Common
  import opened Json
  import opened Http
  import opened Text

  /**
    The `Stage` enum, numbered in declaration order: the pipeline writes the
    stages in increasing order, so a stage is identified with its position.
   */
  newtype Stage = x: int | 0 <= x <= 10

  const Queued: Stage := 0
  const DetectDbnet: Stage := 1
  const SegBalloons: Stage := 2
  const SegPanels: Stage := 3
  const FuseContainers: Stage := 4
  const Ocr: Stage := 5
  const Vl: Stage := 6
  const Mt: Stage := 7
  const Inpaint: Stage := 8
  const Typeset: Stage := 9
  const Composite: Stage := 10

  /** The enum's string values, in declaration order. */
  const StageNames: seq<string> :=
    ["QUEUED", "DETECT_DBNET", "SEG_BALLOONS", "SEG_PANELS", "FUSE_CONTAINERS",
     "OCR", "VL", "MT", "INPAINT", "TYPESET", "COMPOSITE"]

  /** The enum's string value, which is what the job record serialises to. */
  function StageName(s: Stage): string
  {
    StageNames[s]
  }

  /** One entry of `JOBS`. */
  datatype JobRecord = JobRecord(stage: Stage, targetLang: string, tier: string, error: Option<string>)

  type Jobs = map<string, JobRecord>

  /** The record as the dict that `job_status` returns. */
  function RecordJson(r: JobRecord): (j: Json)
    ensures j.JObj? && "status" !in j.fields
    ensures j.fields.Keys == {"stage", "target_lang", "tier"} + (if r.error.Some? then {"error"} else {})
    ensures j.fields["stage"] == JStr(StageName(r.stage))
    ensures j.fields["target_lang"] == JStr(r.targetLang) && j.fields["tier"] == JStr(r.tier)
    ensures "error" in j.fields <==> r.error.Some?
    ensures r.error.Some? ==> j.fields["error"] == JStr(r.error.value)
  {
    var base := map["stage" := JStr(StageName(r.stage)), "target_lang" := JStr(r.targetLang), "tier" := JStr(r.tier)];
    match r.error
    case None => JObj(base)
    case Some(e) => JObj(base["error" := JStr(e)])
  }

  /** What the gateway sends: a multipart upload of the image (plus form fields), or a JSON body. */
  datatype Payload =
    | Upload(image: Bytes, form: map<string, string>)
    | Body(json: Json)

  /**
    What `(await http.post(...)).json()` yields: an exception (transport
    failure or an undecodable body), or the status and decoded body.
   */
  datatype Reply = Raised(msg: string) | Responded(status: int, body: Json)

  type Services = (Stage, Payload) -> Reply

  datatype Call = Call(stage: Stage, payload: Payload)

  function ReplyTo(svc: Services, c: Call): Reply
  {
    svc(c.stage, c.payload)
  }

  /**
    Reading a downstream service's response with `.json()`: a JSON response
    decodes whatever its status, and the plain-text body of an unhandled
    error does not decode.
   */
  function Received(resp: Response): (r: Reply)
    ensures r.Raised? <==> resp.ServerError?
    ensures resp.JsonResponse? ==> r == Responded(resp.status, resp.body)
  {
    match resp
    case JsonResponse(status, body) => Responded(status, body)
    case ServerError => Raised(NotJsonBody)
  }

  // ---------------------------------------------------------------------------
  // Join wiring

  /** The request field `field` carries `key` of the reply of stage `from`. */
  datatype Wire = Wire(field: string, from: Stage, key: string)

  /** Which earlier replies a stage's request is built from, in evaluation order. */
  function Joins(s: Stage): seq<Wire>
  {
    if s == FuseContainers then [Wire("polygons_dbnet", DetectDbnet, "polygons"), Wire("masks_balloons", SegBalloons, "masks")]
    else if s == Vl then [Wire("panels", SegPanels, "masks")]
    else if s == Mt then [Wire("balloons", Ocr, "spans"), Wire("panel_context", Vl, "summaries")]
    else if s == Typeset then [Wire("containers", FuseContainers, "containers"), Wire("translations", Mt, "translations")]
    else []
  }

  /** Every wire reads a stage that runs strictly earlier. */
  lemma JoinsReadEarlier(s: Stage)
    ensures forall w | w in Joins(s) :: Queued < w.from < s
  {
  }

  /** `reply.get(key, [])` on a reply known to be a dict. */
  function Lookup(v: Json, key: string): Json
    requires v.JObj?
  {
    if key in v.fields then v.fields[key] else EmptyList
  }

  /** The first reply read by `wires` that is not a dict, if any. */
  function Blocker(wires: seq<Wire>, out: map<Stage, Json>): (b: Option<Json>)
    requires forall w | w in wires :: w.from in out
    ensures b.None? <==> forall w | w in wires :: out[w.from].JObj?
    ensures b.Some? ==> !b.value.JObj?
  {
    if wires == [] then None
    else if !out[wires[0].from].JObj? then Some(out[wires[0].from])
    else Blocker(wires[1..], out)
  }

  /** The fields of a join's request, read with `.get(key, [])` wire by wire. */
  function Gather(wires: seq<Wire>, out: map<Stage, Json>): (r: Result<map<string, Json>, string>)
    requires forall w | w in wires :: w.from in out
    requires forall i, j | 0 <= i < j < |wires| :: wires[i].field != wires[j].field
    ensures r.Success? <==> Blocker(wires, out).None?
    ensures r.Success? ==> forall w | w in wires :: w.field in r.value && r.value[w.field] == Lookup(out[w.from], w.key)
    ensures r.Failure? ==> r.error == NoAttribute(Blocker(wires, out).value, "get")
  {
    if wires == [] then Success(map[])
    else
      var w := wires[0];
      var v :- Get(out[w.from], w.key, EmptyList);
      var rest :- Gather(wires[1..], out);
      assert forall u | u in wires :: u == w || u in wires[1..];
      Success(rest[w.field := v])
  }

  /** The form fields sent next to the image by an upload stage. */
  function UploadForm(s: Stage): map<string, string>
  {
    if s == Ocr then map["polygons" := ""]
    else if s == Inpaint then map["masks" := ""]
    else map[]
  }

  /**
    The request the gateway sends for stage `s`, given the replies of the
    stages before it: the image for the upload stages, and for a join the
    fields its wires read, with `.get(key, [])`, from earlier replies (a
    reply that is not a dict raises `AttributeError` there, before the call).
    MT's request also carries the target language and tier.
   */
  function StageRequest(s: Stage, image: Bytes, lang: string, tier: string, out: map<Stage, Json>): (r: Result<Payload, string>)
    requires s != Queued && s != Composite
    requires forall w | w in Joins(s) :: w.from in out
    ensures r.Success? <==> forall w | w in Joins(s) :: out[w.from].JObj?
    ensures r.Success? ==> (r.value.Upload? <==> Joins(s) == [])
    ensures r.Success? && r.value.Upload? ==> r.value.image == image
    ensures r.Success? && r.value.Body? ==> r.value.json.JObj?
    ensures r.Failure? ==> Blocker(Joins(s), out).Some? && r.error == NoAttribute(Blocker(Joins(s), out).value, "get")
  {
    if Joins(s) == [] then Success(Upload(image, UploadForm(s)))
    else
      var fields :- Gather(Joins(s), out);
      if s == Mt then Success(Body(JObj(fields + map["lang" := JStr(lang), "tier" := JStr(tier)])))
      else Success(Body(JObj(fields)))
  }

  /** A join's request carries, under each wire's field, that wire's key of the earlier reply. */
  lemma RequestCarries(s: Stage, image: Bytes, lang: string, tier: string, out: map<Stage, Json>)
    requires s != Queued && s != Composite
    requires forall w | w in Joins(s) :: w.from in out
    requires StageRequest(s, image, lang, tier, out).Success?
    ensures var p := StageRequest(s, image, lang, tier, out).value;
      Joins(s) != [] ==>
        && p.Body? && p.json.JObj?
        && forall w | w in Joins(s) :: w.field in p.json.fields && p.json.fields[w.field] == Lookup(out[w.from], w.key)
  {
    var fields := Gather(Joins(s), out).value;
    if s == Mt {
      var extra := map["lang" := JStr(lang), "tier" := JStr(tier)];
      MtFieldsApart();
      assert forall w | w in Joins(s) :: w.field !in extra.Keys;
    }
  }

  /** MT's request also carries the job's target language and tier. */
  lemma RequestMtExtras(image: Bytes, lang: string, tier: string, out: map<Stage, Json>)
    requires forall w | w in Joins(Mt) :: w.from in out
    requires StageRequest(Mt, image, lang, tier, out).Success?
    ensures var p := StageRequest(Mt, image, lang, tier, out).value;
      && p.Body? && p.json.JObj?
      && "lang" in p.json.fields && p.json.fields["lang"] == JStr(lang)
      && "tier" in p.json.fields && p.json.fields["tier"] == JStr(tier)
  {
  }

  /** MT's wired fields are not the language and tier fields. */
  lemma MtFieldsApart()
    ensures forall w | w in Joins(Mt) :: w.field != "lang" && w.field != "tier"
  {
  }

  // ---------------------------------------------------------------------------
  // The pipeline

  /**
    The pipeline so far: the stages written to the job record, the calls
    made, the decoded replies by stage, and the exception that stopped it.
   */
  datatype Progress = Progress(writes: seq<Stage>, calls: seq<Call>, out: map<Stage, Json>, error: Option<string>)

  /** `out` holds a reply for every stage before `s`. */
  predicate Covers(out: map<Stage, Json>, s: Stage)
  {
    forall t: Stage | Queued < t < s :: t in out
  }

  lemma CoversGrow(out: map<Stage, Json>, s: Stage, v: Json)
    requires s < Composite && Covers(out, s)
    ensures Covers(out[s := v], s + 1)
  {
  }

  /**
    Run the pipeline from stage `s` on; it always writes at least stage `s`.
    `RunSummary`, `RunHalts` and `TranslateWiring` state what a whole run does.
   */
  function Run(s: Stage, image: Bytes, lang: string, tier: string, svc: Services, p: Progress): (q: Progress)
    requires s != Queued && Covers(p.out, s)
    ensures |q.writes| > |p.writes|
    decreases Composite - s
  {
    var written := p.(writes := p.writes + [s]);
    if s == Composite then written
    else
      JoinsReadEarlier(s);
      match StageRequest(s, image, lang, tier, p.out)
      case Failure(msg) => written.(error := Some(msg))
      case Success(payload) =>
        var called := written.(calls := written.calls + [Call(s, payload)]);
        match svc(s, payload)
        case Raised(msg) => called.(error := Some(msg))
        case Responded(_, body) =>
          CoversGrow(p.out, s, body);
          Run(s + 1, image, lang, tier, svc, called.(out := p.out[s := body]))
  }

  /** The job has just been inserted as QUEUED. */
  const Start := Progress([Queued], [], map[], None)

  /** A run that completes holds the replies the "done" answer reports. */
  lemma RunCompleteKeys(image: Bytes, lang: string, tier: string, svc: Services)
    ensures var q := Run(DetectDbnet, image, lang, tier, svc, Start);
      && q.writes != []
      && (q.error.None? ==> Ocr in q.out && Mt in q.out && Typeset in q.out)
  {
    RunFacts(DetectDbnet, image, lang, tier, svc, Start);
  }

  /** The result of one `/translate` request. */
  datatype Outcome = Outcome(jobs: Jobs, response: Response, writes: seq<Stage>, calls: seq<Call>)

  /** The body of a successful `/translate`. */
  function DoneBody(jobId: string, ocr: Json, mt: Json, layout: Json): Json
  {
    JObj(map[
      "job_id" := JStr(jobId), "status" := JStr("done"),
      "outputs" := JObj(map["ocr" := ocr, "mt" := mt, "layout" := layout])])
  }

  /** The body of a failed `/translate`. */
  function ErrorReply(jobId: string, msg: string): Json
  {
    JObj(map["job_id" := JStr(jobId), "status" := JStr("error"), "error" := JStr(msg)])
  }

  /** The decoded reply of the call for stage `t`. */
  function BodyOf(svc: Services, calls: seq<Call>, t: Stage): Json
    requires Queued < t && t as int <= |calls|
    requires ReplyTo(svc, calls[t - 1]).Responded?
  {
    ReplyTo(svc, calls[t - 1]).body
  }

  /**
    `POST /translate` under job id `jobId` (the fresh `uuid4`): insert the job
    as `QUEUED`, run the stages, and either answer "done" with the OCR, MT
    and typeset replies or record the exception and answer 500.
   */
  function Translate(jobs: Jobs, jobId: string, image: Bytes, lang: string, tier: string, svc: Services): (o: Outcome)
    ensures jobId in o.jobs && o.jobs == jobs[jobId := o.jobs[jobId]]
    ensures o.jobs[jobId].targetLang == lang && o.jobs[jobId].tier == tier
    ensures jobId !in jobs ==> |o.jobs| == |jobs| + 1
    ensures o.writes != [] && o.jobs[jobId].stage == o.writes[|o.writes| - 1]
    ensures o.jobs[jobId].error.Some? ==> o.response == JsonResponse(500, ErrorReply(jobId, o.jobs[jobId].error.value))
  {
    RunCompleteKeys(image, lang, tier, svc);
    Settle(jobs, jobId, lang, tier, Run(DetectDbnet, image, lang, tier, svc, Start))
  }

  /** Store the finished run's last stage and error under the job, and answer. */
  function Settle(jobs: Jobs, jobId: string, lang: string, tier: string, p: Progress): (o: Outcome)
    requires p.writes != []
    requires p.error.None? ==> Ocr in p.out && Mt in p.out && Typeset in p.out
    ensures jobId in o.jobs && o.jobs == jobs[jobId := o.jobs[jobId]]
    ensures o.jobs[jobId].targetLang == lang && o.jobs[jobId].tier == tier
    ensures jobId !in jobs ==> |o.jobs| == |jobs| + 1
    ensures o.writes == p.writes && o.calls == p.calls
    ensures o.jobs[jobId].stage == o.writes[|o.writes| - 1] && o.jobs[jobId].error == p.error
    ensures o.jobs[jobId].error.Some? ==> o.response == JsonResponse(500, ErrorReply(jobId, o.jobs[jobId].error.value))
    ensures o.jobs[jobId].error.None? ==> o.response == JsonResponse(200, DoneBody(jobId, p.out[Ocr], p.out[Mt], p.out[Typeset]))
  {
    var record := JobRecord(p.writes[|p.writes| - 1], lang, tier, p.error);
    if p.error.Some? then
      Outcome(jobs[jobId := record], JsonResponse(500, ErrorReply(jobId, p.error.value)), p.writes, p.calls)
    else
      Outcome(jobs[jobId := record], JsonResponse(200, DoneBody(jobId, p.out[Ocr], p.out[Mt], p.out[Typeset])), p.writes, p.calls)
  }

  /**
    The job's stage moves through the enum in order from QUEUED, skipping and
    repeating nothing, and stops at the stage that failed; only a complete run
    reaches COMPOSITE, has no error, and answers "done" with the decoded
    replies of the OCR, MT and typeset calls.
   */
  lemma TranslateStages(jobs: Jobs, jobId: string, image: Bytes, lang: string, tier: string, svc: Services)
    ensures var o := Translate(jobs, jobId, image, lang, tier, svc);
      && 2 <= |o.writes| <= Composite as int + 1
      && (forall k | 0 <= k < |o.writes| :: o.writes[k] as int == k)
      && (o.jobs[jobId].error.None? <==> o.jobs[jobId].stage == Composite)
      && (o.jobs[jobId].error.None? ==>
        && |o.calls| == Composite as int - 1
        && (forall k | 0 <= k < |o.calls| :: o.calls[k].stage as int == k + 1 && ReplyTo(svc, o.calls[k]).Responded?)
        && o.response == JsonResponse(200, DoneBody(jobId, BodyOf(svc, o.calls, Ocr), BodyOf(svc, o.calls, Mt), BodyOf(svc, o.calls, Typeset))))
  {
    RunSummary(image, lang, tier, svc);
  }

  /** `TranslateStages` for the run itself. */
  lemma RunSummary(image: Bytes, lang: string, tier: string, svc: Services)
    ensures var q := Run(DetectDbnet, image, lang, tier, svc, Start);
      && 2 <= |q.writes| <= Composite as int + 1
      && (forall k | 0 <= k < |q.writes| :: q.writes[k] as int == k)
      && (q.error.None? <==> q.writes[|q.writes| - 1] == Composite)
      && (q.error.None? ==>
        && |q.calls| == Composite as int - 1
        && (forall k | 0 <= k < |q.calls| :: q.calls[k].stage as int == k + 1 && ReplyTo(svc, q.calls[k]).Responded?)
        && Ocr in q.out && q.out[Ocr] == BodyOf(svc, q.calls, Ocr)
        && Mt in q.out && q.out[Mt] == BodyOf(svc, q.calls, Mt)
        && Typeset in q.out && q.out[Typeset] == BodyOf(svc, q.calls, Typeset))
  {
    RunFacts(DetectDbnet, image, lang, tier, svc, Start);
    var q := Run(DetectDbnet, image, lang, tier, svc, Start);
    if q.error.None? {
      forall k | 0 <= k < |q.calls| ensures ReplyTo(svc, q.calls[k]).Responded? {
        assert (k + 1) as Stage in q.out;
      }
    }
  }

  /**
    A run that failed at stage `s` with error `err`: every call before `s`
    answered, and either the call of `s` raised `err`, or `s` is a join and
    `err` is the `AttributeError` of `.get` on an earlier reply that is not a
    dict, in which case no call was made for `s`.
   */
  ghost predicate Stopped(svc: Services, calls: seq<Call>, s: Stage, err: string)
  {
    && Queued < s < Composite
    && s as int - 1 <= |calls| <= s as int
    && (forall k | 0 <= k < s as int - 1 :: calls[k].stage as int == k + 1 && ReplyTo(svc, calls[k]).Responded?)
    && (|calls| == s as int ==> calls[s - 1].stage == s && ReplyTo(svc, calls[s - 1]) == Raised(err))
    && (|calls| == s as int - 1 ==> exists w | w in Joins(s) :: StoppedBlocked(svc, calls, s, err, w))
  }

  /** Wire `w` of stage `s` read an earlier reply that is not a dict, and `err` is `.get`'s complaint about it. */
  ghost predicate StoppedBlocked(svc: Services, calls: seq<Call>, s: Stage, err: string, w: Wire)
  {
    && Queued < w.from < s
    && w.from as int <= |calls|
    && ReplyTo(svc, calls[w.from - 1]).Responded?
    && !BodyOf(svc, calls, w.from).JObj?
    && err == NoAttribute(BodyOf(svc, calls, w.from), "get")
  }

  /** A failed job stopped at its recorded stage, as `Stopped` describes. */
  lemma TranslateHalts(jobs: Jobs, jobId: string, image: Bytes, lang: string, tier: string, svc: Services)
    ensures var o := Translate(jobs, jobId, image, lang, tier, svc);
      o.jobs[jobId].error.Some? ==> Stopped(svc, o.calls, o.jobs[jobId].stage, o.jobs[jobId].error.value)
  {
    RunHalts(image, lang, tier, svc);
    TranslateRecordsRun(jobs, jobId, image, lang, tier, svc);
  }

  /** `/translate` records the run's calls, last stage and error. */
  lemma TranslateRecordsRun(jobs: Jobs, jobId: string, image: Bytes, lang: string, tier: string, svc: Services)
    ensures var q := Run(DetectDbnet, image, lang, tier, svc, Start);
      var o := Translate(jobs, jobId, image, lang, tier, svc);
      && q.writes != []
      && o.calls == q.calls && o.jobs[jobId].stage == q.writes[|q.writes| - 1] && o.jobs[jobId].error == q.error
  {
    RunCompleteKeys(image, lang, tier, svc);
  }

  /** `TranslateHalts` for the run itself. */
  lemma RunHalts(image: Bytes, lang: string, tier: string, svc: Services)
    ensures var q := Run(DetectDbnet, image, lang, tier, svc, Start);
      q.writes != [] && (q.error.Some? ==> Stopped(svc, q.calls, q.writes[|q.writes| - 1], q.error.value))
  {
    RunFacts(DetectDbnet, image, lang, tier, svc, Start);
    var q := Run(DetectDbnet, image, lang, tier, svc, Start);
    if q.error.Some? {
      FinishedStopped(image, lang, tier, svc, q);
    }
  }

  lemma FinishedStopped(image: Bytes, lang: string, tier: string, svc: Services, q: Progress)
    requires Finished(image, lang, tier, svc, q) && q.error.Some?
    ensures Stopped(svc, q.calls, q.writes[|q.writes| - 1], q.error.value)
  {
    var s := q.writes[|q.writes| - 1];
    assert s as int == |q.writes| - 1;
    StoppedFrom(svc, q, s);
  }

  lemma StoppedFrom(svc: Services, q: Progress, s: Stage)
    requires Queued < s < Composite && q.error.Some?
    requires InOrder(q.calls) && s as int - 1 <= |q.calls| <= s as int
    requires Outputs(svc, q.calls, q.out, s as int - 1)
    requires Halted(svc, q, s)
    ensures Stopped(svc, q.calls, s, q.error.value)
  {
    forall k | 0 <= k < s as int - 1 ensures ReplyTo(svc, q.calls[k]).Responded? {
      assert (k + 1) as Stage in q.out;
    }
    if |q.calls| == s as int - 1 {
      var w :| w in Joins(s) && w.from in q.out && !q.out[w.from].JObj? && q.error.value == NoAttribute(q.out[w.from], "get");
      JoinsReadEarlier(s);
      assert StoppedBlocked(svc, q.calls, s, q.error.value, w);
    }
  }

  /**
    Call `k`'s request carries the image, or the fields that its join wires
    take, with `.get(key, [])`, from the dict replies of the earlier calls they
    name; MT's request also carries the job's target language and tier.
   */
  ghost predicate WiredCall(svc: Services, calls: seq<Call>, k: nat, image: Bytes, lang: string, tier: string)
    requires k < |calls|
  {
    var s := calls[k].stage;
    var payload := calls[k].payload;
    && (Joins(s) == [] ==> payload.Upload? && payload.image == image)
    && (Joins(s) != [] ==>
      && payload.Body? && payload.json.JObj?
      && (forall w | w in Joins(s) ::
        && Queued < w.from && w.from as int <= k
        && ReplyTo(svc, calls[w.from - 1]).Responded?
        && BodyOf(svc, calls, w.from).JObj?
        && w.field in payload.json.fields
        && payload.json.fields[w.field] == Lookup(BodyOf(svc, calls, w.from), w.key)))
    && (s == Mt ==>
      && payload.Body? && payload.json.JObj?
      && "lang" in payload.json.fields && payload.json.fields["lang"] == JStr(lang)
      && "tier" in payload.json.fields && payload.json.fields["tier"] == JStr(tier))
  }

  ghost predicate AllWired(svc: Services, calls: seq<Call>, image: Bytes, lang: string, tier: string)
  {
    forall k | 0 <= k < |calls| :: WiredCall(svc, calls, k, image, lang, tier)
  }

  /** Every call the gateway makes is wired to the earlier replies as `Joins` says. */
  lemma TranslateWiring(jobs: Jobs, jobId: string, image: Bytes, lang: string, tier: string, svc: Services)
    ensures AllWired(svc, Translate(jobs, jobId, image, lang, tier, svc).calls, image, lang, tier)
  {
    RunFacts(DetectDbnet, image, lang, tier, svc, Start);
    FinishedWired(image, lang, tier, svc, Run(DetectDbnet, image, lang, tier, svc, Start));
  }

  lemma FinishedWired(image: Bytes, lang: string, tier: string, svc: Services, q: Progress)
    requires Finished(image, lang, tier, svc, q)
    ensures AllWired(svc, q.calls, image, lang, tier)
  {
    var n := if q.error.None? then |q.calls| else q.writes[|q.writes| - 1] as int - 1;
    assert n <= |q.calls|;
    assert Outputs(svc, q.calls, q.out, n);
    forall k | 0 <= k < |q.calls| ensures WiredCall(svc, q.calls, k, image, lang, tier) {
      WiredFrom(svc, q.calls, k, q.out, n, image, lang, tier);
    }
  }

  /** A call whose request was built from recorded replies is wired. */
  lemma WiredFrom(svc: Services, calls: seq<Call>, k: nat, out: map<Stage, Json>, n: nat,
                  image: Bytes, lang: string, tier: string)
    requires k < |calls| && n <= |calls| && InOrder(calls)
    requires Outputs(svc, calls, out, n)
    requires Requested(calls, out, image, lang, tier)
    ensures WiredCall(svc, calls, k, image, lang, tier)
  {
    var s := calls[k].stage;
    JoinsReadEarlier(s);
    RequestCarries(s, image, lang, tier, out);
    if s == Mt {
      RequestMtExtras(image, lang, tier, out);
    }
  }

  /** `GET /translate/{job_id}`. */
  function JobStatus(jobs: Jobs, jobId: string): (j: Json)
    ensures j.JObj?
    ensures jobId !in jobs <==> "status" in j.fields
    ensures jobId !in jobs ==> j == JObj(map["status" := JStr("unknown")])
    ensures jobId in jobs ==> j == RecordJson(jobs[jobId])
  {
    if jobId in jobs then RecordJson(jobs[jobId]) else JObj(map["status" := JStr("unknown")])
  }

  /**
    After `/translate`, polling the job shows the stage it stopped at, the
    language and tier of the request, and never a "status"; the poll carries an
    error exactly when the POST answered 500, with the same message as that
    answer, and shows COMPOSITE exactly when the POST answered 200.  Other jobs
    poll as before.
   */
  lemma StatusAfterTranslate(jobs: Jobs, jobId: string, image: Bytes, lang: string, tier: string, svc: Services, other: string)
    ensures var o := Translate(jobs, jobId, image, lang, tier, svc);
      var j := JobStatus(o.jobs, jobId);
      && "status" !in j.fields
      && j.fields["stage"] == JStr(StageName(o.jobs[jobId].stage))
      && j.fields["target_lang"] == JStr(lang) && j.fields["tier"] == JStr(tier)
      && ("error" in j.fields <==> o.response.JsonResponse? && o.response.status == 500)
      && ("error" in j.fields ==> o.response == JsonResponse(500, ErrorReply(jobId, j.fields["error"].s)))
      && (o.jobs[jobId].stage == Composite <==> o.response.JsonResponse? && o.response.status == 200)
      && (other != jobId ==> JobStatus(o.jobs, other) == JobStatus(jobs, other))
  {
    TranslateStages(jobs, jobId, image, lang, tier, svc);
  }

  // ---------------------------------------------------------------------------
  // Replies with an error status

  /**
    The pipeline as written never looks at a reply's status: a stage that
    answers with an error status and a JSON object (FastAPI's `{"detail": ...}`)
    counts as a result.  If every service answers with some dict, whatever the
    status, the job completes and `/translate` answers 200 "done".
   */
  lemma DoneDespiteStatus(jobs: Jobs, jobId: string, image: Bytes, lang: string, tier: string, svc: Services)
    requires forall s, p :: svc(s, p).Responded? && svc(s, p).body.JObj?
    ensures var o := Translate(jobs, jobId, image, lang, tier, svc);
      && o.jobs[jobId].stage == Composite && o.jobs[jobId].error.None?
      && o.response.JsonResponse? && o.response.status == 200
  {
    TranslateStages(jobs, jobId, image, lang, tier, svc);
    TranslateHalts(jobs, jobId, image, lang, tier, svc);
  }

  /** A service that answers every call with 502 and a FastAPI error body. */
  const BadGateway: Services := (s: Stage, p: Payload) => Responded(502, ErrorBody(HttpError(502, "Bad Gateway")))

  /** Every stage failing with 502 still yields a "done" job. */
  lemma BadGatewayDone(jobs: Jobs, jobId: string, image: Bytes, lang: string, tier: string)
    ensures var o := Translate(jobs, jobId, image, lang, tier, BadGateway);
      o.response.JsonResponse? && o.response.status == 200 && o.response.body.fields["status"] == JStr("done")
  {
    DoneDespiteStatus(jobs, jobId, image, lang, tier, BadGateway);
    TranslateStages(jobs, jobId, image, lang, tier, BadGateway);
  }

  /**
    What `raise_for_status()` after each call would add: a reply whose status
    is not 2xx raises instead of being decoded.
   */
  function Checked(svc: Services): (c: Services)
    ensures forall s, p :: c(s, p).Responded? <==> svc(s, p).Responded? && IsSuccess(svc(s, p).status)
    ensures forall s, p :: c(s, p).Responded? ==> c(s, p) == svc(s, p)
  {
    (s: Stage, p: Payload) =>
      var r := svc(s, p);
      if r.Responded? && !IsSuccess(r.status) then Raised(StatusComplaint(r.status)) else r
  }

  /** The complaint raised for an error status (the reason phrase and URL are not modelled). */
  function StatusComplaint(status: int): string
  {
    "HTTP status " + IntToString(status)
  }

  /** `/translate` with every reply's status checked. */
  function TranslateChecked(jobs: Jobs, jobId: string, image: Bytes, lang: string, tier: string, svc: Services): Outcome
  {
    Translate(jobs, jobId, image, lang, tier, Checked(svc))
  }

  /** With statuses checked, a "done" job means every one of the nine stages answered 2xx. */
  lemma CheckedDoneMeansSuccess(jobs: Jobs, jobId: string, image: Bytes, lang: string, tier: string, svc: Services)
    ensures var o := TranslateChecked(jobs, jobId, image, lang, tier, svc);
      o.jobs[jobId].error.None? ==>
        && |o.calls| == Composite as int - 1
        && forall k | 0 <= k < |o.calls| :: svc(o.calls[k].stage, o.calls[k].payload).Responded?
             && IsSuccess(svc(o.calls[k].stage, o.calls[k].payload).status)
  {
    TranslateStages(jobs, jobId, image, lang, tier, Checked(svc));
  }

  // ---------------------------------------------------------------------------
  // Invariants of the pipeline

  /** `ws` lists the enum from its start, one stage after the other. */
  ghost predicate Ordered(ws: seq<Stage>)
  {
    forall k | 0 <= k < |ws| :: ws[k] as int == k
  }

  /** Call `k` is the call of stage `k + 1`; Composite makes no call. */
  ghost predicate InOrder(calls: seq<Call>)
  {
    && |calls| < Composite as int
    && forall k | 0 <= k < |calls| :: calls[k].stage as int == k + 1
  }

  /** `out` holds exactly the decoded replies of the first `n` calls, under their stages. */
  ghost predicate Outputs(svc: Services, calls: seq<Call>, out: map<Stage, Json>, n: nat)
    requires n <= |calls|
  {
    && (forall t: Stage :: t in out <==> Queued < t && t as int <= n)
    && (forall t | t in out :: ReplyTo(svc, calls[t - 1]).Responded? && ReplyTo(svc, calls[t - 1]).body == out[t])
  }

  /** Every call sent the request built from the replies in `out`. */
  ghost predicate Requested(calls: seq<Call>, out: map<Stage, Json>, image: Bytes, lang: string, tier: string)
  {
    forall k | 0 <= k < |calls| ::
      && calls[k].stage != Queued && calls[k].stage != Composite
      && (forall w | w in Joins(calls[k].stage) :: w.from in out)
      && StageRequest(calls[k].stage, image, lang, tier, out) == Success(calls[k].payload)
  }

  /** The state of the pipeline just before it runs stage `s`. */
  ghost predicate Before(s: Stage, image: Bytes, lang: string, tier: string, svc: Services, p: Progress)
  {
    && s != Queued
    && |p.writes| == s as int && Ordered(p.writes)
    && p.error.None?
    && |p.calls| == s as int - 1
    && InOrder(p.calls)
    && Outputs(svc, p.calls, p.out, |p.calls|)
    && Requested(p.calls, p.out, image, lang, tier)
  }

  /**
    How the pipeline stopped at stage `s`: either its call raised, or building
    its request read a reply that is not a dict.
   */
  ghost predicate Halted(svc: Services, q: Progress, s: Stage)
    requires q.error.Some?
  {
    || (&& |q.calls| == s as int > 0
        && ReplyTo(svc, q.calls[|q.calls| - 1]) == Raised(q.error.value))
    || (&& |q.calls| == s as int - 1
        && exists w | w in Joins(s) ::
          && w.from in q.out
          && !q.out[w.from].JObj?
          && q.error.value == NoAttribute(q.out[w.from], "get"))
  }

  /** The state of the pipeline once it has stopped. */
  ghost predicate Finished(image: Bytes, lang: string, tier: string, svc: Services, q: Progress)
  {
    && 2 <= |q.writes| <= Composite as int + 1
    && Ordered(q.writes)
    && InOrder(q.calls)
    && (|q.calls| == |q.writes| - 2 || |q.calls| == |q.writes| - 1)
    && Requested(q.calls, q.out, image, lang, tier)
    && (q.error.None? <==> |q.writes| == Composite as int + 1)
    && (q.error.None? ==> |q.calls| == Composite as int - 1 && Outputs(svc, q.calls, q.out, |q.calls|))
    && (q.error.Some? ==> Outputs(svc, q.calls, q.out, q.writes[|q.writes| - 1] as int - 1)
                          && Halted(svc, q, q.writes[|q.writes| - 1]))
  }

  lemma {:induction false} RunFacts(s: Stage, image: Bytes, lang: string, tier: string, svc: Services, p: Progress)
    requires Before(s, image, lang, tier, svc, p)
    ensures Covers(p.out, s)
    ensures Finished(image, lang, tier, svc, Run(s, image, lang, tier, svc, p))
    decreases Composite - s
  {
    var written := p.(writes := p.writes + [s]);
    if s == Composite {
      FinishDone(s, image, lang, tier, svc, p);
    } else {
      JoinsReadEarlier(s);
      var req := StageRequest(s, image, lang, tier, p.out);
      if req.Failure? {
        FinishBlocked(s, image, lang, tier, svc, p);
      } else {
        var c := Call(s, req.value);
        match svc(s, req.value)
        case Raised(msg) =>
          FinishRaised(s, image, lang, tier, svc, p, req.value);
        case Responded(st, body) =>
          var next := written.(calls := p.calls + [c], out := p.out[s := body]);
          BeforeNext(s, image, lang, tier, svc, p);
          RunFacts(s + 1, image, lang, tier, svc, next);
      }
    }
  }

  /** Reaching Composite completes the run. */
  lemma FinishDone(s: Stage, image: Bytes, lang: string, tier: string, svc: Services, p: Progress)
    requires Before(s, image, lang, tier, svc, p) && s == Composite
    ensures Finished(image, lang, tier, svc, Run(s, image, lang, tier, svc, p))
  {
    var q := Run(s, image, lang, tier, svc, p);
    assert q == p.(writes := p.writes + [s]);
    assert Ordered(q.writes);
  }

  /** A stage whose request cannot be built stops the run before its call. */
  lemma FinishBlocked(s: Stage, image: Bytes, lang: string, tier: string, svc: Services, p: Progress)
    requires Before(s, image, lang, tier, svc, p) && s != Composite
    requires Covers(p.out, s)
    requires StageRequest(s, image, lang, tier, p.out).Failure?
    ensures Finished(image, lang, tier, svc, Run(s, image, lang, tier, svc, p))
  {
    RunBlocked(s, image, lang, tier, svc, p);
    BlockedFinished(s, image, lang, tier, svc, p);
  }

  /** A stage whose request cannot be built ends the run. */
  lemma RunBlocked(s: Stage, image: Bytes, lang: string, tier: string, svc: Services, p: Progress)
    requires s != Queued && s != Composite && Covers(p.out, s)
    requires StageRequest(s, image, lang, tier, p.out).Failure?
    ensures Run(s, image, lang, tier, svc, p)
         == p.(writes := p.writes + [s], error := Some(StageRequest(s, image, lang, tier, p.out).error))
  {
  }

  lemma BlockedFinished(s: Stage, image: Bytes, lang: string, tier: string, svc: Services, p: Progress)
    requires Before(s, image, lang, tier, svc, p) && s != Composite
    requires Covers(p.out, s)
    requires StageRequest(s, image, lang, tier, p.out).Failure?
    ensures Finished(image, lang, tier, svc, p.(writes := p.writes + [s], error := Some(StageRequest(s, image, lang, tier, p.out).error)))
  {
    JoinsReadEarlier(s);
    var q := p.(writes := p.writes + [s], error := Some(StageRequest(s, image, lang, tier, p.out).error));
    assert Ordered(q.writes);
    BlockerFound(Joins(s), p.out);
  }

  /** A call that raises stops the run with its message. */
  lemma FinishRaised(s: Stage, image: Bytes, lang: string, tier: string, svc: Services, p: Progress, payload: Payload)
    requires Before(s, image, lang, tier, svc, p) && s != Composite
    requires Covers(p.out, s)
    requires StageRequest(s, image, lang, tier, p.out) == Success(payload)
    requires svc(s, payload).Raised?
    ensures Finished(image, lang, tier, svc, Run(s, image, lang, tier, svc, p))
  {
    RunRaised(s, image, lang, tier, svc, p, payload);
    RaisedFinished(s, image, lang, tier, svc, p, payload);
  }

  /** A call that raises ends the run. */
  lemma RunRaised(s: Stage, image: Bytes, lang: string, tier: string, svc: Services, p: Progress, payload: Payload)
    requires s != Queued && s != Composite && Covers(p.out, s)
    requires StageRequest(s, image, lang, tier, p.out) == Success(payload)
    requires svc(s, payload).Raised?
    ensures Run(s, image, lang, tier, svc, p)
         == p.(writes := p.writes + [s], calls := p.calls + [Call(s, payload)], error := Some(svc(s, payload).msg))
  {
  }

  lemma RaisedFinished(s: Stage, image: Bytes, lang: string, tier: string, svc: Services, p: Progress, payload: Payload)
    requires Before(s, image, lang, tier, svc, p) && s != Composite
    requires Covers(p.out, s)
    requires StageRequest(s, image, lang, tier, p.out) == Success(payload)
    requires svc(s, payload).Raised?
    ensures Finished(image, lang, tier, svc, p.(writes := p.writes + [s], calls := p.calls + [Call(s, payload)], error := Some(svc(s, payload).msg)))
  {
    JoinsReadEarlier(s);
    var c := Call(s, payload);
    var q := p.(writes := p.writes + [s], calls := p.calls + [c], error := Some(svc(s, payload).msg));
    assert Ordered(q.writes);
    RequestedAppend(p.calls, c, p.out, image, lang, tier);
    OutputsAppend(svc, p.calls, c, p.out, |p.calls|);
  }

  /** A call that answers leads to the state before the next stage. */
  lemma BeforeNext(s: Stage, image: Bytes, lang: string, tier: string, svc: Services, p: Progress)
    requires Before(s, image, lang, tier, svc, p) && s != Composite
    requires Covers(p.out, s)
    requires StageRequest(s, image, lang, tier, p.out).Success?
    requires svc(s, StageRequest(s, image, lang, tier, p.out).value).Responded?
    ensures
      var payload := StageRequest(s, image, lang, tier, p.out).value;
      var body := svc(s, payload).body;
      Before(s + 1, image, lang, tier, svc,
        p.(writes := p.writes + [s], calls := p.calls + [Call(s, payload)], out := p.out[s := body]))
  {
    JoinsReadEarlier(s);
    var payload := StageRequest(s, image, lang, tier, p.out).value;
    var body := svc(s, payload).body;
    var c := Call(s, payload);
    var next := p.(writes := p.writes + [s], calls := p.calls + [c], out := p.out[s := body]);
    assert Ordered(next.writes);
    RequestedAppend(p.calls, c, p.out, image, lang, tier);
    RequestedGrow(next.calls, p.out, s, body, image, lang, tier);
    OutputsAppend(svc, p.calls, c, p.out, |p.calls|);
    OutputsGrow(svc, next.calls, p.out, |p.calls|);
  }

  lemma RequestedAppend(calls: seq<Call>, c: Call, out: map<Stage, Json>, image: Bytes, lang: string, tier: string)
    requires Requested(calls, out, image, lang, tier)
    requires c.stage != Queued && c.stage != Composite
    requires forall w | w in Joins(c.stage) :: w.from in out
    requires StageRequest(c.stage, image, lang, tier, out) == Success(c.payload)
    ensures Requested(calls + [c], out, image, lang, tier)
  {
    var cs := calls + [c];
    forall k | 0 <= k < |cs|
      ensures cs[k].stage != Queued && cs[k].stage != Composite
      ensures forall w | w in Joins(cs[k].stage) :: w.from in out
      ensures StageRequest(cs[k].stage, image, lang, tier, out) == Success(cs[k].payload)
    {
      if k < |calls| { assert cs[k] == calls[k]; }
    }
  }

  /** Appending a call keeps the replies recorded for the earlier ones. */
  lemma OutputsAppend(svc: Services, calls: seq<Call>, c: Call, out: map<Stage, Json>, n: nat)
    requires n <= |calls| && Outputs(svc, calls, out, n)
    ensures Outputs(svc, calls + [c], out, n)
  {
    var cs := calls + [c];
    forall t | t in out ensures cs[t - 1] == calls[t - 1] {
    }
  }

  /** Recording the reply of call `n` under its stage. */
  lemma OutputsGrow(svc: Services, calls: seq<Call>, out: map<Stage, Json>, n: nat)
    requires n < |calls| && Outputs(svc, calls, out, n)
    requires n + 1 <= Composite as int && calls[n].stage as int == n + 1
    requires ReplyTo(svc, calls[n]).Responded?
    ensures Outputs(svc, calls, out[calls[n].stage := ReplyTo(svc, calls[n]).body], n + 1)
  {
  }

  /** Adding the reply of a later stage changes no request already sent. */
  lemma RequestedGrow(calls: seq<Call>, out: map<Stage, Json>, s: Stage, v: Json, image: Bytes, lang: string, tier: string)
    requires Requested(calls, out, image, lang, tier)
    requires forall k | 0 <= k < |calls| :: calls[k].stage <= s
    ensures Requested(calls, out[s := v], image, lang, tier)
  {
    forall k | 0 <= k < |calls|
      ensures StageRequest(calls[k].stage, image, lang, tier, out[s := v]) == Success(calls[k].payload)
    {
      JoinsReadEarlier(calls[k].stage);
      RequestFrame(calls[k].stage, image, lang, tier, out, s, v);
    }
  }

  /** A request depends only on the replies its wires read. */
  lemma RequestFrame(st: Stage, image: Bytes, lang: string, tier: string, out: map<Stage, Json>, s: Stage, v: Json)
    requires st != Queued && st != Composite
    requires forall w | w in Joins(st) :: w.from in out && w.from != s
    ensures StageRequest(st, image, lang, tier, out[s := v]) == StageRequest(st, image, lang, tier, out)
  {
    GatherFrame(Joins(st), out, s, v);
  }

  lemma {:induction false} GatherFrame(wires: seq<Wire>, out: map<Stage, Json>, s: Stage, v: Json)
    requires forall w | w in wires :: w.from in out && w.from != s
    requires forall i, j | 0 <= i < j < |wires| :: wires[i].field != wires[j].field
    ensures Gather(wires, out[s := v]) == Gather(wires, out)
  {
    if wires != [] {
      GatherFrame(wires[1..], out, s, v);
    }
  }

  /** The blocking reply is one of the replies the wires read. */
  lemma {:induction false} BlockerFound(wires: seq<Wire>, out: map<Stage, Json>)
    requires forall w | w in wires :: w.from in out
    requires Blocker(wires, out).Some?
    ensures exists w | w in wires :: out[w.from] == Blocker(wires, out).value
  {
    if out[wires[0].from].JObj? {
      BlockerFound(wires[1..], out);
    }
  }
}

=== FILE: http.dfy ===
/**
  How a FastAPI endpoint's outcome becomes an HTTP response: an
  `HTTPException` turns into a JSON error body, any other exception into a
  plain-text 500.
 */
module Http {
  import opened Common
  import opened Json

  /** `HTTPException(status_code, detail)`. */
  datatype HttpError = HttpError(status: int, detail: string)

  /** Why an endpoint did not produce its normal body. */
  datatype Fault =
    | Raise(error: HttpError)   // an HTTPException (or a request-validation error)
    | Unhandled(msg: string)    // any other exception escaping the handler

  /** What goes back over the wire. */
  datatype Response =
    | JsonResponse(status: int, body: Json)
    | ServerError                     // Starlette's plain-text "Internal Server Error"

  /** The decoder's complaint when a plain-text 500 body is read with `.json()`. */
  const NotJsonBody := DecodeErrorText(DecodeError("Expecting value", 1, 1, 0))

  /** A 2xx status code. */
  predicate IsSuccess(status: int)
  {
    200 <= status < 300
  }

  /** The body FastAPI renders for an `HTTPException`. */
  function ErrorBody(e: HttpError): Json
  {
    JObj(map["detail" := JStr(e.detail)])
  }

  /** The 422 answer of request validation, with the first complaint. */
  function Invalid<T>(msg: string): Result<T, Fault>
  {
    Failure(Raise(HttpError(422, msg)))
  }

  // The complaints of request validation.
  const BodyNotADict := "Input should be a valid dictionary or object to extract fields from"
  const FieldRequired := "Field required"
  const NotAString := "Input should be a valid string"
  const NotAList := "Input should be a valid list"
  const NotADict := "Input should be a valid dictionary"

  /** Render an endpoint's outcome; a successful handler answers 200. */
  function Render(r: Result<Json, Fault>): (resp: Response)
    ensures resp.ServerError? <==> r.Failure? && r.error.Unhandled?
    ensures r.Success? ==> resp == JsonResponse(200, r.value)
    ensures r.Failure? && r.error.Raise? ==> resp == JsonResponse(r.error.error.status, ErrorBody(r.error.error))
  {
    match r
    case Success(body) => JsonResponse(200, body)
    case Failure(Raise(e)) => JsonResponse(e.status, ErrorBody(e))
    case Failure(Unhandled(_)) => ServerError
  }
}

=== FILE: inpaint.dfy ===
/**
  The inpaint service's `/run` endpoint: an empty upload is refused, the
  `masks` form field is decoded, and the image is posted to the inpainting
  sidecar with a bounded number of attempts and a multiplicative delay
  between them.

  The sidecar is abstracted as a `Sidecar` function from the upload and the
  attempt number to what that post produced; the delays are recorded rather
  than slept.
 */
module Inpaint {
  import opened Common
  import opened Json
  import opened Http

  /** `INPAINT_SIDECAR_URL`, `INPAINT_MAX_RETRIES` and `INPAINT_RETRY_BACKOFF`. */
  datatype Config = Config(sidecarUrl: string, maxRetries: int, backoff: real)

  // ---------------------------------------------------------------------------
  // The masks form field

  /**
    `_parse_masks`: an empty field means no masks, a JSON list is taken as
    it is, and anything else is a 400.
   */
  function ParseMasks(raw: string, loads: Loads): (r: Result<seq<Json>, HttpError>)
    ensures r.Success? <==> raw == [] || (loads(raw).Parsed? && loads(raw).value.JArr?)
    ensures raw == [] ==> r == Success([])
    ensures raw != [] && r.Success? ==> JArr(r.value) == loads(raw).value
    ensures r.Failure? ==> r.error.status == 400
    ensures raw != [] && loads(raw).Malformed? ==>
      r == Failure(HttpError(400, "Invalid masks payload: " + loads(raw).error.msg))
    ensures raw != [] && loads(raw).Parsed? && !loads(raw).value.JArr? ==>
      r == Failure(HttpError(400, "Masks payload must be a list"))
  {
    if raw == [] then Success([])
    else
      match loads(raw)
      case Malformed(e) => Failure(HttpError(400, "Invalid masks payload: " + e.msg))
      case Parsed(JArr(items)) => Success(items)
      case Parsed(_) => Failure(HttpError(400, "Masks payload must be a list"))
  }

  // ---------------------------------------------------------------------------
  // One post to the sidecar

  /** The multipart request: the `image` file part and the `masks` form field. */
  datatype Upload = Upload(filename: string, image: Bytes, contentType: string, masks: seq<Json>)

  /** What one post to `/run` of the sidecar produced. */
  datatype SidecarReply =
    | Replied(status: int, statusError: string, body: Parse)
      // an answer; `statusError` is what `raise_for_status` would report for it,
      // `body` the decoding of its text
    | Unreachable(msg: string)
      // a transport error or timeout, as `str(exc)`

  /** The sidecar: the reply to the upload's attempt with the given number. */
  type Sidecar = (Upload, nat) -> SidecarReply

  /** The statuses the loop treats as retryable before asking `raise_for_status`. */
  const RetryableStatuses: set<int> := {429, 500, 502, 503, 504}

  const RetryableStatusText := "Sidecar returned retryable status"
  const NonJsonPrefix := "Sidecar returned non-JSON response: "
  const FailedText := "Sidecar request failed"

  /** How one attempt ended. */
  datatype Step =
    | Done(payload: Json)   // the answer, returned at once
    | Fatal(fault: Fault)   // an exception the loop does not catch
    | Retryable(msg: string) // an exception the loop catches, as `str(exc)`

  /** `payload.setdefault(key, value)` on a dict. */
  function SetDefault(fields: map<string, Json>, key: string, value: Json): (r: map<string, Json>)
    ensures key in r && r[key] == (if key in fields then fields[key] else value)
    ensures forall k | k in fields :: k in r && r[k] == fields[k]
    ensures forall k | k in r :: k in fields || k == key
  {
    if key in fields then fields else fields[key := value]
  }

  /**
    The body of one iteration of the `_call_sidecar` loop: every non-2xx
    status and every transport error is caught for another attempt, an
    answer whose text is not JSON is a 502 at once, and a JSON object gains
    `sidecar_url` unless it already has it.
   */
  function StepOf(cfg: Config, reply: SidecarReply): (s: Step)
    ensures s.Retryable? <==> reply.Unreachable? || !IsSuccess(reply.status)
    ensures reply.Replied? && reply.status in RetryableStatuses ==> s == Retryable(RetryableStatusText)
    ensures reply.Unreachable? ==> s == Retryable(reply.msg)
    ensures reply.Replied? && reply.status !in RetryableStatuses && !IsSuccess(reply.status) ==> s == Retryable(reply.statusError)
    ensures s.Done? <==> reply.Replied? && IsSuccess(reply.status) && reply.body.Parsed? && reply.body.value.JObj?
    ensures s.Done? ==> s.payload == JObj(SetDefault(reply.body.value.fields, "sidecar_url", JStr(cfg.sidecarUrl)))
    ensures s.Fatal? && reply.body.Malformed? ==> s.fault == Raise(HttpError(502, NonJsonPrefix + reply.body.error.msg))
    ensures s.Fatal? && reply.body.Parsed? ==> s.fault == Unhandled(NoAttribute(reply.body.value, "setdefault"))
  {
    match reply
    case Unreachable(msg) => Retryable(msg)
    case Replied(status, statusError, body) =>
      if status in RetryableStatuses then Retryable(RetryableStatusText)
      else if !IsSuccess(status) then Retryable(statusError)
      else
        match body
        case Malformed(e) => Fatal(Raise(HttpError(502, NonJsonPrefix + e.msg)))
        case Parsed(v) =>
          if v.JObj? then Done(JObj(SetDefault(v.fields, "sidecar_url", JStr(cfg.sidecarUrl))))
          else Fatal(Unhandled(NoAttribute(v, "setdefault")))
  }

  // ---------------------------------------------------------------------------
  // The retry loop

  /** What the loop did: how many posts it made, the delays it slept, and its outcome. */
  datatype Called = Called(calls: nat, sleeps: seq<real>, result: Result<Json, Fault>)

  /** The delay `d` after `n` multiplications by the backoff factor `b`. */
  function Delay(d: real, b: real, n: nat): real
  {
    if n == 0 then d else Delay(d, b, n - 1) * b
  }

  /** How many attempts are left from attempt number `a`. */
  function Budget(maxRetries: int, a: nat): nat
  {
    if maxRetries > a then maxRetries - a else 0
  }

  /** The 502 detail after the loop: with the last caught error, if any. */
  function FailedDetail(last: Option<string>): string
  {
    match last
    case None => FailedText
    case Some(msg) => FailedText + ": " + msg
  }

  /** How each attempt of the loop ends, by attempt number. */
  type Steps = nat -> Step

  /**
    The loop from attempt number `a` with the current `delay` and last
    caught error: a sleep separates consecutive attempts, never follows the
    last one, and the loop ends on the first answer, the first uncaught
    exception, or when the attempts run out.
   */
  function Loop(steps: Steps, maxRetries: int, backoff: real, a: nat, delay: real, last: Option<string>): (r: Called)
    ensures r.calls <= Budget(maxRetries, a)
    ensures r.calls == 0 <==> a >= maxRetries
    ensures r.calls == 0 ==> r.sleeps == [] && r.result == Failure(Raise(HttpError(502, FailedDetail(last))))
    ensures r.calls > 0 ==> |r.sleeps| == r.calls - 1
    decreases Budget(maxRetries, a)
  {
    if a >= maxRetries then Called(0, [], Failure(Raise(HttpError(502, FailedDetail(last)))))
    else
      match steps(a)
      case Done(payload) => Called(1, [], Success(payload))
      case Fatal(f) => Called(1, [], Failure(f))
      case Retryable(msg) =>
        if a + 1 >= maxRetries then Called(1, [], Failure(Raise(HttpError(502, FailedDetail(Some(msg))))))
        else
          var rest := Loop(steps, maxRetries, backoff, a + 1, delay * backoff, Some(msg));
          Called(1 + rest.calls, [delay] + rest.sleeps, rest.result)
  }

  /** The loop sleeps `delay`, then `delay * backoff`, and so on. */
  lemma {:induction false} LoopDelays(steps: Steps, maxRetries: int, backoff: real, a: nat, delay: real, last: Option<string>)
    ensures var r := Loop(steps, maxRetries, backoff, a, delay, last);
      forall i | 0 <= i < |r.sleeps| :: r.sleeps[i] == Delay(delay, backoff, i)
    decreases Budget(maxRetries, a)
  {
    if a < maxRetries && steps(a).Retryable? && a + 1 < maxRetries {
      LoopDelays(steps, maxRetries, backoff, a + 1, delay * backoff, Some(steps(a).msg));
      DelaysShift(delay, backoff, Loop(steps, maxRetries, backoff, a + 1, delay * backoff, Some(steps(a).msg)).sleeps);
    }
  }

  /** Every attempt before the last one ended in a caught exception. */
  lemma {:induction false} LoopRetriedBefore(steps: Steps, maxRetries: int, backoff: real, a: nat, delay: real, last: Option<string>)
    ensures var r := Loop(steps, maxRetries, backoff, a, delay, last);
      forall k | a <= k < a + r.calls - 1 :: steps(k).Retryable?
    decreases Budget(maxRetries, a)
  {
    if a < maxRetries && steps(a).Retryable? && a + 1 < maxRetries {
      LoopRetriedBefore(steps, maxRetries, backoff, a + 1, delay * backoff, Some(steps(a).msg));
    }
  }

  /**
    The loop's outcome is the last attempt's: its answer, its uncaught
    exception, or, when it too was caught, the 502 of exhausted attempts.
   */
  lemma {:induction false} LoopLast(steps: Steps, maxRetries: int, backoff: real, a: nat, delay: real, last: Option<string>)
    requires a < maxRetries
    ensures var r := Loop(steps, maxRetries, backoff, a, delay, last);
      var s := steps(a + r.calls - 1);
      && (s.Done? ==> r.result == Success(s.payload))
      && (s.Fatal? ==> r.result == Failure(s.fault))
      && (s.Retryable? ==>
            r.calls == Budget(maxRetries, a) && r.result == Failure(Raise(HttpError(502, FailedDetail(Some(s.msg))))))
    decreases Budget(maxRetries, a)
  {
    if steps(a).Retryable? && a + 1 < maxRetries {
      LoopLast(steps, maxRetries, backoff, a + 1, delay * backoff, Some(steps(a).msg));
    }
  }

  /** Sleeping `delay` first, then the delays of a loop that started from `delay * b`. */
  lemma DelaysShift(delay: real, b: real, rest: seq<real>)
    requires forall i | 0 <= i < |rest| :: rest[i] == Delay(delay * b, b, i)
    ensures forall i | 0 <= i < |rest| + 1 :: ([delay] + rest)[i] == Delay(delay, b, i)
  {
    forall i | 0 <= i < |rest| + 1 ensures ([delay] + rest)[i] == Delay(delay, b, i) {
      if i > 0 {
        DelayShift(delay, b, i - 1);
      }
    }
  }

  /** Starting one multiplication later is one step further along. */
  lemma {:induction false} DelayShift(d: real, b: real, n: nat)
    ensures Delay(d * b, b, n) == Delay(d, b, n + 1)
  {
    if n > 0 {
      DelayShift(d, b, n - 1);
    }
  }

  /**
    `_call_sidecar`: at most `MAX_RETRIES` posts, none at all when it is not
    positive, sleeping 1, b, b², ... seconds between consecutive posts and
    never after the last; every post but the last ended in a caught error.
   */
  function CallSidecar(cfg: Config, up: Upload, post: Sidecar): (r: Called)
    ensures r.calls <= Budget(cfg.maxRetries, 0)
    ensures cfg.maxRetries <= 0 ==> r == Called(0, [], Failure(Raise(HttpError(502, FailedText))))
    ensures cfg.maxRetries > 0 ==> r.calls > 0 && |r.sleeps| == r.calls - 1
    ensures forall i | 0 <= i < |r.sleeps| :: r.sleeps[i] == Delay(1.0, cfg.backoff, i)
    ensures forall k | 0 <= k < r.calls - 1 :: StepOf(cfg, post(up, k)).Retryable?
  {
    var steps := StepsOf(cfg, up, post);
    LoopDelays(steps, cfg.maxRetries, cfg.backoff, 0, 1.0, None);
    LoopRetriedBefore(steps, cfg.maxRetries, cfg.backoff, 0, 1.0, None);
    Loop(steps, cfg.maxRetries, cfg.backoff, 0, 1.0, None)
  }

  /**
    How the last post ended decides the outcome: its payload, its uncaught
    exception, or the 502 naming its error once `MAX_RETRIES` posts failed.
   */
  lemma CallSidecarLast(cfg: Config, up: Upload, post: Sidecar)
    requires cfg.maxRetries > 0
    ensures var r := CallSidecar(cfg, up, post);
      var s := StepOf(cfg, post(up, r.calls - 1));
      && (s.Done? ==> r.result == Success(s.payload))
      && (s.Fatal? ==> r.result == Failure(s.fault))
      && (s.Retryable? ==>
            r.calls == cfg.maxRetries && r.result == Failure(Raise(HttpError(502, FailedText + ": " + s.msg))))
  {
    LoopLast(StepsOf(cfg, up, post), cfg.maxRetries, cfg.backoff, 0, 1.0, None);
  }

  /** How each post of the upload ends. */
  function StepsOf(cfg: Config, up: Upload, post: Sidecar): (steps: Steps)
    ensures forall k: nat :: steps(k) == StepOf(cfg, post(up, k))
  {
    (k: nat) => StepOf(cfg, post(up, k))
  }

  /** The loop reads the attempts it makes and no others. */
  lemma {:induction false} LoopAgrees(s1: Steps, s2: Steps, maxRetries: int, backoff: real, a: nat, delay: real, last: Option<string>)
    requires forall k | a <= k < a + Loop(s1, maxRetries, backoff, a, delay, last).calls :: s1(k) == s2(k)
    ensures Loop(s1, maxRetries, backoff, a, delay, last) == Loop(s2, maxRetries, backoff, a, delay, last)
    decreases Budget(maxRetries, a)
  {
    if a < maxRetries {
      assert s1(a) == s2(a);
      if s1(a).Retryable? && a + 1 < maxRetries {
        LoopAgrees(s1, s2, maxRetries, backoff, a + 1, delay * backoff, Some(s1(a).msg));
      }
    }
  }

  /** Two sidecars that answer the posts made alike are indistinguishable: no post is made after the loop ends. */
  lemma OnlyPostsMadeMatter(cfg: Config, up: Upload, p1: Sidecar, p2: Sidecar)
    requires forall k | 0 <= k < CallSidecar(cfg, up, p1).calls :: p1(up, k) == p2(up, k)
    ensures CallSidecar(cfg, up, p1) == CallSidecar(cfg, up, p2)
  {
    LoopAgrees(StepsOf(cfg, up, p1), StepsOf(cfg, up, p2), cfg.maxRetries, cfg.backoff, 0, 1.0, None);
  }

  /**
    The first post that is not caught ends the loop: a payload is returned
    and an uncaught exception (a non-JSON answer, say) propagates, with no
    further post.
   */
  lemma Settles(cfg: Config, up: Upload, post: Sidecar, k: nat)
    requires k < cfg.maxRetries
    requires forall j | 0 <= j < k :: StepOf(cfg, post(up, j)).Retryable?
    requires !StepOf(cfg, post(up, k)).Retryable?
    ensures CallSidecar(cfg, up, post).calls == k + 1
    ensures var s := StepOf(cfg, post(up, k));
      CallSidecar(cfg, up, post).result == if s.Done? then Success(s.payload) else Failure(s.fault)
  {
    CallSidecarLast(cfg, up, post);
  }

  /** When every post fails with a caught error, all `MAX_RETRIES` are made, with a sleep between each two. */
  lemma Exhausts(cfg: Config, up: Upload, post: Sidecar)
    requires cfg.maxRetries > 0
    requires forall j | 0 <= j < cfg.maxRetries :: StepOf(cfg, post(up, j)).Retryable?
    ensures CallSidecar(cfg, up, post).calls == cfg.maxRetries
    ensures |CallSidecar(cfg, up, post).sleeps| == cfg.maxRetries - 1
    ensures CallSidecar(cfg, up, post).result
      == Failure(Raise(HttpError(502, FailedText + ": " + StepOf(cfg, post(up, cfg.maxRetries - 1)).msg)))
  {
    CallSidecarLast(cfg, up, post);
  }

  // ---------------------------------------------------------------------------
  // The endpoint

  /** `value or default` for an optional upload attribute. */
  function OrDefault(v: Option<string>, default: string): (r: string)
    ensures v.Some? && v.value != [] ==> r == v.value
    ensures (v.None? || v.value == []) ==> r == default
  {
    if v.Some? && v.value != [] then v.value else default
  }

  /** The file part `_call_sidecar` builds, with its own defaults for a missing name and type. */
  function FilePart(filename: string, image: Bytes, contentType: string, masks: seq<Json>): Upload
  {
    Upload(if filename == [] then "page.png" else filename, image,
           if contentType == [] then "application/octet-stream" else contentType, masks)
  }

  /** What `run` uploads: the upload's own name and type, or `page.png` and `image/png`. */
  function Sent(filename: Option<string>, image: Bytes, contentType: Option<string>, masks: seq<Json>): (up: Upload)
    ensures up.filename == OrDefault(filename, "page.png")
    ensures up.contentType == OrDefault(contentType, "image/png")
    ensures up.image == image && up.masks == masks
    ensures up.filename != [] && up.contentType != []   // so the sidecar defaults never apply
  {
    FilePart(OrDefault(filename, "page.png"), image, OrDefault(contentType, "image/png"), masks)
  }

  const EmptyImage := "Empty image payload"

  /**
    `run`: an empty image is refused before the masks are read or the
    sidecar is posted to, and masks that do not decode to a list are
    refused before any post.
   */
  function Run(cfg: Config, image: Bytes, filename: Option<string>, contentType: Option<string>,
               masks: string, loads: Loads, post: Sidecar): (r: Called)
    ensures image == [] ==> r == Called(0, [], Failure(Raise(HttpError(400, EmptyImage))))
    ensures image != [] && ParseMasks(masks, loads).Failure? ==>
      r == Called(0, [], Failure(Raise(ParseMasks(masks, loads).error)))
    ensures image != [] && ParseMasks(masks, loads).Success? ==>
      r == CallSidecar(cfg, Sent(filename, image, contentType, ParseMasks(masks, loads).value), post)
    ensures r.calls > 0 ==> image != [] && ParseMasks(masks, loads).Success?
  {
    if image == [] then Called(0, [], Failure(Raise(HttpError(400, EmptyImage))))
    else
      match ParseMasks(masks, loads)
      case Failure(e) => Called(0, [], Failure(Raise(e)))
      case Success(ms) => CallSidecar(cfg, Sent(filename, image, contentType, ms), post)
  }
}

=== FILE: json.dfy ===
/**
  JSON values as the Python services see them after `json.loads` / `.json()`,
  together with the few dict and truthiness rules of Python that the services
  rely on.
 */
module Json {
  import opened Common
  import opened Text

  /** A decoded JSON value.  Objects are unordered maps from keys to values. */
  datatype Json =
    | JNull
    | JBool(b: bool)
    | JInt(i: int)
    | JFloat(f: real)
    | JStr(s: string)
    | JArr(items: seq<Json>)
    | JObj(fields: map<string, Json>)

  /** A `json.JSONDecodeError`: the bare message (`exc.msg`) and where decoding stopped. */
  datatype DecodeError = DecodeError(msg: string, line: nat, column: nat, pos: nat)

  /** `str(exc)` of a decode error. */
  function DecodeErrorText(e: DecodeError): (r: string)
    ensures e.msg <= r
  {
    e.msg + ": line " + NatToString(e.line) + " column " + NatToString(e.column)
      + " (char " + NatToString(e.pos) + ")"
  }

  /**
    The outcome of `json.loads` on some text.  Decoding JSON text is not part
    of the model: every service receives this outcome from a parse oracle.
   */
  datatype Parse = Parsed(value: Json) | Malformed(error: DecodeError)

  /** The parse oracle: `json.loads` on a text. */
  type Loads = string -> Parse

  const EmptyList: Json := JArr([])
  const EmptyObject: Json := JObj(map[])

  /** Python's `type(v).__name__` for a decoded JSON value. */
  function TypeName(v: Json): string
  {
    match v
    case JNull => "NoneType"
    case JBool(_) => "bool"
    case JInt(_) => "int"
    case JFloat(_) => "float"
    case JStr(_) => "str"
    case JArr(_) => "list"
    case JObj(_) => "dict"
  }

  /** The text of the `AttributeError` raised by `v.attr` when `v` lacks the attribute. */
  function NoAttribute(v: Json, attr: string): string
  {
    "'" + TypeName(v) + "' object has no attribute '" + attr + "'"
  }

  /** The text of the `TypeError` raised when `v` is used as a dict key or set member. */
  function Unhashable(v: Json): string
  {
    "unhashable type: '" + TypeName(v) + "'"
  }

  /** The text of the `TypeError` raised by iterating over `v`. */
  function NotIterable(v: Json): string
  {
    "'" + TypeName(v) + "' object is not iterable"
  }

  /** Python's truth value of a decoded JSON value (`bool(v)`). */
  predicate Truthy(v: Json)
  {
    match v
    case JNull => false
    case JBool(b) => b
    case JInt(i) => i != 0
    case JFloat(f) => f != 0.0
    case JStr(s) => s != []
    case JArr(xs) => xs != []
    case JObj(m) => m != map[]
  }

  /** Lists and dicts cannot be hashed; every other JSON value can. */
  predicate Hashable(v: Json)
  {
    !v.JArr? && !v.JObj?
  }

  /**
    `v.get(key, default)`: the stored value or the default on a dict, and an
    `AttributeError` on anything else.
   */
  function Get(v: Json, key: string, default: Json): (r: Result<Json, string>)
    ensures r.Success? <==> v.JObj?
    ensures r.Success? && key in v.fields ==> r.value == v.fields[key]
    ensures r.Success? && key !in v.fields ==> r.value == default
    ensures r.Failure? ==> r.error == NoAttribute(v, "get")
  {
    match v
    case JObj(m) => Success(if key in m then m[key] else default)
    case _ => Failure(NoAttribute(v, "get"))
  }

  /**
    Validate every item of a list with `decode`, in order, answering the
    first complaint.
   */
  function DecodeAll<T>(vs: seq<Json>, decode: Json -> Result<T, string>): (r: Result<seq<T>, string>)
    ensures r.Success? <==> forall i | 0 <= i < |vs| :: decode(vs[i]).Success?
    ensures r.Success? ==> |r.value| == |vs|
    ensures r.Success? ==> forall i | 0 <= i < |vs| :: r.value[i] == decode(vs[i]).value
  {
    if vs == [] then Success([])
    else
      var b := decode(vs[0]);
      if b.Failure? then Failure(b.error)
      else
        var rest := DecodeAll(vs[1..], decode);
        assert forall i | 1 <= i < |vs| :: vs[i] == vs[1..][i - 1];
        if rest.Failure? then Failure(rest.error) else Success([b.value] + rest.value)
  }
}

=== FILE: mt_gateway.dfy ===
/**
  The machine-translation gateway's `/mt/translate` endpoint: it validates the
  request, builds one prompt from the panel summaries and the balloon texts,
  asks the chat model for a JSON answer with up to two sampling settings, and
  keeps only translations of the balloons it was asked about, failing when any
  balloon is left without one.

  The chat model (an HTTP call) and `json.loads` on the model's answer are
  parameters: `Chat` maps the model tag, prompt and sampling options to what
  the call produced, and `Loads` maps text to its decoding outcome.
 */
module MtGateway {
  import opened Common
  import opened Json
  import opened Http
  import opened Text
  import opened MtPrompt

  // ---------------------------------------------------------------------------
  // The request

  const EmptyText := "Value error, Balloon text cannot be empty"
  const NoBalloons := "Value error, At least one balloon is required"

  /** The `Balloon` model: string id, string text that is not blank once stripped. */
  function DecodeBalloon(v: Json): (r: Result<Balloon, string>)
    ensures r.Success? <==>
      && v.JObj?
      && "id" in v.fields && v.fields["id"].JStr?
      && "text" in v.fields && v.fields["text"].JStr?
      && !AllSpace(v.fields["text"].s)
    ensures r.Success? ==> GoodBalloon(r.value)
    ensures r.Success? ==> r.value.id == v.fields["id"].s
    ensures r.Success? ==> r.value.text == Strip(v.fields["text"].s)
  {
    if !v.JObj? then Failure("Input should be a valid dictionary or instance of Balloon")
    else if "id" !in v.fields || "text" !in v.fields then Failure(FieldRequired)
    else if !v.fields["id"].JStr? || !v.fields["text"].JStr? then Failure(NotAString)
    else
      var text := Strip(v.fields["text"].s);
      if text == [] then Failure(EmptyText) else Success(Balloon(v.fields["id"].s, text))
  }

  /**
    The `PanelCtx` model: an optional string-or-integer id and a text defaulting
    to "".  The union tries an exact match first (null, string, integer) and
    then the lax integer conversion, which reads a boolean as 0 or 1 and a
    float without fractional part as that integer.
   */
  function DecodePanel(v: Json): (r: Result<PanelCtx, string>)
    ensures r.Success? <==>
      && v.JObj?
      && ("panel_id" in v.fields ==> PanelIdValid(v.fields["panel_id"]))
      && ("text" in v.fields ==> v.fields["text"].JStr?)
    ensures r.Success? && ("panel_id" !in v.fields || v.fields["panel_id"] == JNull) ==> r.value.panelId == Unnamed
    ensures r.Success? && "panel_id" in v.fields && v.fields["panel_id"].JStr? ==>
      r.value.panelId == Named(v.fields["panel_id"].s)
    ensures r.Success? && "panel_id" in v.fields && v.fields["panel_id"].JInt? ==>
      r.value.panelId == Numbered(v.fields["panel_id"].i)
    ensures r.Success? && "panel_id" in v.fields && v.fields["panel_id"].JBool? ==>
      r.value.panelId == Numbered(if v.fields["panel_id"].b then 1 else 0)
    ensures r.Success? && "panel_id" in v.fields && v.fields["panel_id"].JFloat? ==>
      r.value.panelId.Numbered? && r.value.panelId.n as real == v.fields["panel_id"].f
    ensures r.Success? && "text" !in v.fields ==> r.value.text == ""
    ensures r.Success? && "text" in v.fields ==> r.value.text == v.fields["text"].s
  {
    if !v.JObj? then Failure("Input should be a valid dictionary or instance of PanelCtx")
    else
      var id :=
        if "panel_id" !in v.fields then Success(Unnamed)
        else match v.fields["panel_id"]
          case JNull => Success(Unnamed)
          case JStr(s) => Success(Named(s))
          case JInt(n) => Success(Numbered(n))
          case JBool(b) => Success(Numbered(if b then 1 else 0))
          case JFloat(x) =>
            if x.Floor as real == x then Success(Numbered(x.Floor))
            else Failure("Input should be a valid integer, got a number with a fractional part")
          case _ => Failure(NotAString);
      var text :=
        if "text" !in v.fields then Success("")
        else match v.fields["text"]
          case JStr(s) => Success(s)
          case _ => Failure(NotAString);
      if id.Failure? then Failure(id.error)
      else if text.Failure? then Failure(text.error)
      else Success(PanelCtx(id.value, text.value))
  }

  /** A `panel_id` value the `str | int | None` union accepts. */
  predicate PanelIdValid(id: Json)
  {
    match id
    case JNull => true
    case JStr(_) => true
    case JInt(_) => true
    case JBool(_) => true
    case JFloat(x) => x.Floor as real == x
    case _ => false
  }

  /** An optional string field with a default. */
  function StrField(fields: map<string, Json>, key: string, default: string): Result<string, string>
  {
    if key !in fields then Success(default)
    else match fields[key]
      case JStr(s) => Success(s)
      case _ => Failure(NotAString)
  }

  /** The fields of `MTIn` other than `balloons`, with their defaults. */
  datatype Extras = Extras(context: seq<PanelCtx>, lang: string, tier: string, model: Option<string>)

  function DecodeExtras(f: map<string, Json>): (r: Result<Extras, string>)
    ensures r.Success? && "panel_context" !in f ==> r.value.context == []
    ensures r.Success? && "lang" !in f ==> r.value.lang == "en"
    ensures r.Success? && "tier" !in f ==> r.value.tier == "premium"
    ensures r.Success? && ("model" !in f || f["model"] == JNull) ==> r.value.model == None
  {
    var context :=
      if "panel_context" !in f then Success([])
      else if !f["panel_context"].JArr? then Failure(NotAList)
      else DecodeAll(f["panel_context"].items, DecodePanel);
    var lang := StrField(f, "lang", "en");
    var tier := StrField(f, "tier", "premium");
    var model :=
      if "model" !in f then Success(None)
      else match f["model"]
        case JNull => Success(None)
        case JStr(s) => Success(Some(s))
        case _ => Failure(NotAString);
    if context.Failure? then Failure(context.error)
    else if lang.Failure? then Failure(lang.error)
    else if tier.Failure? then Failure(tier.error)
    else if model.Failure? then Failure(model.error)
    else Success(Extras(context.value, lang.value, tier.value, model.value))
  }

  /**
    Validate the body of `/mt/translate` as the `MTIn` model; fields the model
    does not declare are ignored.
   */
  function DecodeRequest(body: Json): (r: Result<MtIn, Fault>)
    ensures r.Success? ==> GoodRequest(r.value)
    ensures r.Success? ==> body.JObj? && "balloons" in body.fields && body.fields["balloons"].JArr?
    ensures r.Success? ==>
      var items := body.fields["balloons"].items;
      && |r.value.balloons| == |items|
      && forall i | 0 <= i < |items| ::
        && items[i].JObj?
        && "id" in items[i].fields && items[i].fields["id"] == JStr(r.value.balloons[i].id)
        && "text" in items[i].fields && items[i].fields["text"].JStr?
        && r.value.balloons[i].text == Strip(items[i].fields["text"].s)
    ensures r.Failure? ==> r.error.Raise? && r.error.error.status == 422
  {
    if !body.JObj? then Invalid(BodyNotADict)
    else if "balloons" !in body.fields then Invalid(FieldRequired)
    else if !body.fields["balloons"].JArr? then Invalid(NotAList)
    else
      var balloons := DecodeAll(body.fields["balloons"].items, DecodeBalloon);
      if balloons.Failure? then Invalid(balloons.error)
      else if balloons.value == [] then Invalid(NoBalloons)
      else
        var extras := DecodeExtras(body.fields);
        if extras.Failure? then Invalid(extras.error)
        else
          var e := extras.value;
          Success(MtIn(balloons.value, e.context, e.lang, e.tier, e.model))
  }

  // ---------------------------------------------------------------------------
  // The request as JSON (what a client sends)

  function BalloonJson(b: Balloon): Json
  {
    JObj(map["id" := JStr(b.id), "text" := JStr(b.text)])
  }

  function PanelIdJson(id: PanelId): Json
  {
    match id
    case Unnamed => JNull
    case Named(s) => JStr(s)
    case Numbered(n) => JInt(n)
  }

  function PanelJson(c: PanelCtx): Json
  {
    JObj(map["panel_id" := PanelIdJson(c.panelId), "text" := JStr(c.text)])
  }

  function BalloonsJson(bs: seq<Balloon>): (j: seq<Json>)
    ensures |j| == |bs| && forall i | 0 <= i < |bs| :: j[i] == BalloonJson(bs[i])
  {
    seq(|bs|, i requires 0 <= i < |bs| => BalloonJson(bs[i]))
  }

  function PanelsJson(cs: seq<PanelCtx>): (j: seq<Json>)
    ensures |j| == |cs| && forall i | 0 <= i < |cs| :: j[i] == PanelJson(cs[i])
  {
    seq(|cs|, i requires 0 <= i < |cs| => PanelJson(cs[i]))
  }

  function ModelJson(model: Option<string>): Json
  {
    match model
    case None => JNull
    case Some(s) => JStr(s)
  }

  /** The JSON body a client sends for a request. */
  function RequestJson(m: MtIn): (j: Json)
    ensures j.JObj?
  {
    JObj(map[
      "balloons" := JArr(BalloonsJson(m.balloons)),
      "panel_context" := JArr(PanelsJson(m.context)),
      "lang" := JStr(m.lang),
      "tier" := JStr(m.tier),
      "model" := ModelJson(m.model)])
  }

  /** Validation accepts exactly what a good request encodes to, and gives the request back. */
  lemma DecodeRequestRoundTrip(m: MtIn)
    requires GoodRequest(m)
    ensures DecodeRequest(RequestJson(m)) == Success(m)
  {
    var j := RequestJson(m);
    BalloonsRoundTrip(m.balloons);
    ExtrasRoundTrip(m);
  }

  lemma BalloonsRoundTrip(bs: seq<Balloon>)
    requires forall i | 0 <= i < |bs| :: GoodBalloon(bs[i])
    ensures DecodeAll(BalloonsJson(bs), DecodeBalloon) == Success(bs)
  {
    var items := BalloonsJson(bs);
    forall i | 0 <= i < |items| ensures DecodeBalloon(items[i]) == Success(bs[i]) {
      StripKeepsStripped(bs[i].text);
    }
    var r := DecodeAll(items, DecodeBalloon);
    assert r.Success?;
    assert r.value == bs;
  }

  lemma PanelsRoundTrip(cs: seq<PanelCtx>)
    ensures DecodeAll(PanelsJson(cs), DecodePanel) == Success(cs)
  {
    var items := PanelsJson(cs);
    forall i | 0 <= i < |items| ensures DecodePanel(items[i]) == Success(cs[i]) {
      PanelRoundTrip(cs[i]);
    }
    var r := DecodeAll(items, DecodePanel);
    assert r.Success?;
    assert r.value == cs;
  }

  lemma PanelRoundTrip(c: PanelCtx)
    ensures DecodePanel(PanelJson(c)) == Success(c)
  {
    var f := PanelJson(c).fields;
    assert "panel_id" in f && "text" in f;
    match c.panelId
    case Unnamed =>
    case Named(_) =>
    case Numbered(_) =>
  }

  lemma ExtrasRoundTrip(m: MtIn)
    ensures DecodeExtras(RequestJson(m).fields) == Success(Extras(m.context, m.lang, m.tier, m.model))
  {
    PanelsRoundTrip(m.context);
    var f := RequestJson(m).fields;
    assert f["panel_context"] == JArr(PanelsJson(m.context));
    assert StrField(f, "lang", "en") == Success(m.lang);
    assert StrField(f, "tier", "premium") == Success(m.tier);
  }

  // ---------------------------------------------------------------------------
  // Asking the chat model

  /** The sampling settings of one attempt. */
  datatype Options = Options(temperature: real, topP: real)

  /** The two attempts; the second samples almost greedily. */
  const Attempts: seq<Options> := [Options(0.7, 0.9), Options(0.0, 0.1)]

  /** What one `/api/chat` call produced. */
  datatype ChatReply =
    | ChatAnswer(status: int, text: string, body: Parse)  // an answer, its text and the decoding of that text
    | ChatTransport(msg: string)                          // a transport error or timeout, as `str(exc)`

  /** The chat model: model tag, prompt and sampling settings to what the call produced. */
  type Chat = (string, string, Options) -> ChatReply

  /** How an attempt went wrong: an abort ends the loop, a retry moves on to the next settings. */
  datatype Failed = Abort(error: HttpError) | Retry(msg: string)

  const EmptyAnswer := "Ollama returned empty response"

  /**
    The model tag: the override unless it is absent or empty, else the default
    tag, which the service reads from the `DEFAULT_MODEL` environment variable
    ("qwen3:latest" when unset) and which is a parameter here.
   */
  function ModelName(m: MtIn, defaultModel: string): (name: string)
    ensures m.model.Some? && m.model.value != [] ==> name == m.model.value
    ensures m.model.None? || m.model.value == [] ==> name == defaultModel
    ensures defaultModel != [] ==> name != []
  {
    if m.model.Some? && m.model.value != [] then m.model.value else defaultModel
  }

  /**
    `_call_ollama`: a non-2xx status or a transport error aborts, a falsy
    `message.content` aborts with 502, and a body that cannot be decoded or
    navigated is an ordinary exception that the loop retries.
   */
  function CallOllama(reply: ChatReply): (r: Result<Json, Failed>)
    ensures r.Success? ==> reply.ChatAnswer? && IsSuccess(reply.status) && Truthy(r.value)
    ensures reply.ChatAnswer? && !IsSuccess(reply.status) ==> r == Failure(Abort(HttpError(reply.status, reply.text)))
    ensures reply.ChatTransport? ==> r == Failure(Abort(HttpError(502, reply.msg)))
    ensures reply.ChatAnswer? && IsSuccess(reply.status) && r.Failure? && r.error.Abort? ==>
      r.error.error == HttpError(502, EmptyAnswer)
    ensures reply.ChatAnswer? && IsSuccess(reply.status) && reply.body.Malformed? ==>
      r == Failure(Retry(DecodeErrorText(reply.body.error)))
    ensures reply.ChatAnswer? && IsSuccess(reply.status) && reply.body.Parsed? && !reply.body.value.JObj? ==>
      r == Failure(Retry(NoAttribute(reply.body.value, "get")))
    ensures reply.ChatAnswer? && IsSuccess(reply.status) && reply.body.Parsed? && reply.body.value.JObj? ==>
      var fields := reply.body.value.fields;
      var message := if "message" in fields then fields["message"] else EmptyObject;
      (!message.JObj? ==> r == Failure(Retry(NoAttribute(message, "get"))))
      && (message.JObj? ==>
            var content := if "content" in message.fields then message.fields["content"] else JNull;
            r == (if Truthy(content) then Success(content) else Failure(Abort(HttpError(502, EmptyAnswer)))))
  {
    match reply
    case ChatTransport(msg) => Failure(Abort(HttpError(502, msg)))
    case ChatAnswer(status, text, body) =>
      if !IsSuccess(status) then Failure(Abort(HttpError(status, text)))
      else match body
        case Malformed(e) => Failure(Retry(DecodeErrorText(e)))
        case Parsed(v) =>
          match Get(v, "message", EmptyObject)
          case Failure(msg) => Failure(Retry(msg))
          case Success(message) =>
            match Get(message, "content", JNull)
            case Failure(msg) => Failure(Retry(msg))
            case Success(content) =>
              if !Truthy(content) then Failure(Abort(HttpError(502, EmptyAnswer)))
              else Success(content)
  }

  /** A code fence. */
  const Fence := "```"

  /** A fenced piece without its leading `json` tag, if it has one. */
  function Untag(c: string): (u: string)
    ensures "json" <= c ==> c == "json" + u
    ensures !("json" <= c) ==> u == c
  {
    if "json" <= c then c[4..] else c
  }

  /**
    The text `_extract_json_maybe` decodes: the stripped answer, or, when it
    opens with a fence, the stripped text up to the next fence (or to the end
    when no fence closes it) without a leading `json` tag.
   */
  function Snippet(text: string): (r: string)
    ensures Stripped(r)
    ensures !(Fence <= Strip(text)) ==> r == Strip(text)
    ensures Fence <= Strip(text) ==>
      var rest := Strip(text)[|Fence|..];
      r == Strip(Untag(rest[..FirstAt(rest, Fence)]))
  {
    var snippet := Strip(text);
    if Fence <= snippet then
      var parts := SplitOn(snippet, Fence);
      FencedFirstPiece(snippet);
      if |parts| > 1 then
        Strip(Untag(parts[1]))
      else snippet
    else snippet
  }

  /** After a leading fence, the second piece runs up to the first fence that follows. */
  lemma FencedFirstPiece(s: string)
    requires Fence <= s
    ensures |SplitOn(s, Fence)| > 1
    ensures SplitOn(s, Fence)[1] == s[|Fence|..][..FirstAt(s[|Fence|..], Fence)]
  {
    var rest := s[|Fence|..];
    SplitCut(s, Fence);
    SplitFirstPiece(rest, Fence, FirstAt(rest, Fence));
  }

  /** The `len(parts) > 1` test after a leading fence always passes. */
  lemma FenceSplits(s: string)
    requires Fence <= s
    ensures |SplitOn(s, Fence)| > 1
  {
    SplitCut(s, Fence);
  }

  /** An answer fenced and tagged `json`. */
  function FencedJson(t: string): string
  {
    "```json\n" + t + "\n```"
  }

  /** A fenced answer tagged `json` gives back exactly its stripped contents. */
  lemma SnippetFenced(t: string)
    requires Stripped(t) && '`' !in t
    ensures Snippet(FencedJson(t)) == t
  {
    var s := FencedJson(t);
    FencedStripped(t);
    StripKeepsStripped(s);
    FencedPiece(t);
    var candidate := SplitOn(s, Fence)[1];
    assert "json" <= candidate;
    assert candidate[4..] == "\n" + t + "\n";
    PaddedStrip(t);
  }

  /** The piece after the opening fence runs up to the closing one. */
  lemma FencedPiece(t: string)
    requires '`' !in t
    ensures |SplitOn(FencedJson(t), Fence)| > 1
    ensures SplitOn(FencedJson(t), Fence)[1] == "json\n" + t + "\n"
  {
    var s := FencedJson(t);
    SplitCut(s, Fence);
    var rest := s[3..];
    assert rest == "json\n" + t + "\n```";
    FencedRest(t, rest);
  }

  lemma FencedRest(t: string, rest: string)
    requires '`' !in t && rest == "json\n" + t + "\n```"
    ensures SplitOn(rest, Fence)[0] == "json\n" + t + "\n"
  {
    var n := 6 + |t|;
    forall k | 0 <= k < n ensures !StartsAt(rest, Fence, k) {
      assert rest[k] != '`';
    }
    assert rest[n..] == Fence;
    SplitFirstPiece(rest, Fence, n);
    assert rest[..n] == "json\n" + t + "\n";
  }

  lemma FencedStripped(t: string)
    ensures Stripped(FencedJson(t))
  {
  }

  /** A stripped text between two line breaks strips back to itself. */
  lemma PaddedStrip(t: string)
    requires Stripped(t)
    ensures Strip("\n" + t + "\n") == t
  {
    var s := "\n" + t + "\n";
    if t == [] {
      assert StripBounds(s, 2, 2);
      StripSpec(s, 2, 2);
    } else {
      assert s[1 + |t|] == '\n';
      assert StripBounds(s, 1, 1 + |t|);
      StripSpec(s, 1, 1 + |t|);
    }
  }

  /** An answer without a fence is decoded as it is, once stripped. */
  lemma SnippetPlain(t: string)
    requires Stripped(t) && !(Fence <= t)
    ensures Snippet(t) == t
  {
    StripKeepsStripped(t);
  }

  const NotAnObject := "Response must be a JSON object"
  const NoTranslationsKey := "Missing 'translations' key"

  /** `_extract_json_maybe`: the decoded object, which must hold `translations`. */
  function ExtractJsonMaybe(text: string, loads: Loads): (r: Result<map<string, Json>, string>)
    ensures r.Success? <==>
      loads(Snippet(text)).Parsed? && loads(Snippet(text)).value.JObj?
      && "translations" in loads(Snippet(text)).value.fields
    ensures r.Success? ==> r.value == loads(Snippet(text)).value.fields
    ensures loads(Snippet(text)).Malformed? ==> r == Failure(DecodeErrorText(loads(Snippet(text)).error))
    ensures loads(Snippet(text)).Parsed? && !loads(Snippet(text)).value.JObj? ==> r == Failure(NotAnObject)
    ensures (loads(Snippet(text)).Parsed? && loads(Snippet(text)).value.JObj?
      && "translations" !in loads(Snippet(text)).value.fields) ==> r == Failure(NoTranslationsKey)
  {
    match loads(Snippet(text))
    case Malformed(e) => Failure(DecodeErrorText(e))
    case Parsed(v) =>
      if !v.JObj? then Failure(NotAnObject)
      else if "translations" !in v.fields then Failure(NoTranslationsKey)
      else Success(v.fields)
  }

  /** One pass of the loop body: call the model, decode its answer, take the translations. */
  function Attempt(reply: ChatReply, loads: Loads): (r: Result<Json, Failed>)
    ensures r.Success? ==> CallOllama(reply).Success? && CallOllama(reply).value.JStr?
    ensures r.Success? ==>
      var fields := ExtractJsonMaybe(CallOllama(reply).value.s, loads);
      fields.Success? && r.value == fields.value["translations"]
    ensures r.Failure? && r.error.Abort? <==> CallOllama(reply).Failure? && CallOllama(reply).error.Abort?
    ensures CallOllama(reply).Failure? ==> r == Failure(CallOllama(reply).error)
    ensures CallOllama(reply).Success? && !CallOllama(reply).value.JStr? ==>
      r == Failure(Retry(NoAttribute(CallOllama(reply).value, "strip")))
    ensures (CallOllama(reply).Success? && CallOllama(reply).value.JStr?
      && ExtractJsonMaybe(CallOllama(reply).value.s, loads).Failure?) ==>
      r == Failure(Retry(ExtractJsonMaybe(CallOllama(reply).value.s, loads).error))
  {
    var called := CallOllama(reply);
    if called.Failure? then Failure(called.error)
    else if !called.value.JStr? then Failure(Retry(NoAttribute(called.value, "strip")))
    else match ExtractJsonMaybe(called.value.s, loads)
      case Failure(msg) => Failure(Retry(msg))
      case Success(parsed) => Success(parsed["translations"])
  }

  /** How many calls the loop made and how it ended. */
  datatype Attempted = Attempted(calls: nat, result: Result<Json, HttpError>)

  /** A failed attempt that the loop moves past. */
  predicate Retried(o: Result<Json, Failed>)
  {
    o.Failure? && o.error.Retry?
  }

  /**
    The loop of `_translate_with_retries` over the outcomes of the remaining
    attempts; `last` is the error of the last retried attempt.
   */
  function RetryLoop(outs: seq<Result<Json, Failed>>, last: Option<string>): (a: Attempted)
    ensures a.calls <= |outs|
    ensures outs != [] ==> a.calls >= 1
    ensures forall i | 0 <= i < a.calls - 1 :: Retried(outs[i])
    ensures 0 < a.calls < |outs| ==> !Retried(outs[a.calls - 1])
    ensures 0 < a.calls && outs[a.calls - 1].Success? ==> a.result == Success(outs[a.calls - 1].value)
    ensures 0 < a.calls && outs[a.calls - 1].Failure? && outs[a.calls - 1].error.Abort? ==>
      a.result == Failure(outs[a.calls - 1].error.error)
    ensures 0 < a.calls && Retried(outs[a.calls - 1]) ==> a.result == Failure(HttpError(502, outs[a.calls - 1].error.msg))
    ensures outs == [] ==> a == Attempted(0, Failure(HttpError(502, if last.Some? then last.value else "Translation failed")))
    decreases |outs|
  {
    if outs == [] then Attempted(0, Failure(HttpError(502, if last.Some? then last.value else "Translation failed")))
    else match outs[0]
      case Success(t) => Attempted(1, Success(t))
      case Failure(Abort(e)) => Attempted(1, Failure(e))
      case Failure(Retry(msg)) =>
        var rest := RetryLoop(outs[1..], Some(msg));
        Attempted(rest.calls + 1, rest.result)
  }

  /** The outcome of the attempt with settings `o`. */
  function Outcome(model: string, prompt: string, chat: Chat, loads: Loads, o: Options): Result<Json, Failed>
  {
    Attempt(chat(model, prompt, o), loads)
  }

  /**
    `_translate_with_retries` once the model tag and the prompt are chosen:
    one or two calls, a second one only after a retried first attempt; the
    answer's translations, the first abort, or a 502 carrying the second
    attempt's error.
   */
  function TranslateWithRetries(model: string, prompt: string, chat: Chat, loads: Loads): (a: Attempted)
    ensures 1 <= a.calls <= 2
    ensures a.calls == 2 <==> Retried(Outcome(model, prompt, chat, loads, Attempts[0]))
    ensures a.result.Success? ==> Outcome(model, prompt, chat, loads, Attempts[a.calls - 1]) == Success(a.result.value)
    ensures Outcome(model, prompt, chat, loads, Attempts[0]).Failure? && Outcome(model, prompt, chat, loads, Attempts[0]).error.Abort? ==>
      a == Attempted(1, Failure(Outcome(model, prompt, chat, loads, Attempts[0]).error.error))
    ensures a.calls == 2 && Retried(Outcome(model, prompt, chat, loads, Attempts[1])) ==>
      a.result == Failure(HttpError(502, Outcome(model, prompt, chat, loads, Attempts[1]).error.msg))
  {
    var outs := [Outcome(model, prompt, chat, loads, Attempts[0]), Outcome(model, prompt, chat, loads, Attempts[1])];
    RetryLoop(outs, None)
  }

  // ---------------------------------------------------------------------------
  // Cleaning the translations

  /** One kept translation. */
  datatype Translation = Translation(id: string, text: string)

  function TranslationJson(t: Translation): Json
  {
    JObj(map["id" := JStr(t.id), "text" := JStr(t.text)])
  }

  function TranslationsJson(ts: seq<Translation>): (j: seq<Json>)
    ensures |j| == |ts| && forall i | 0 <= i < |ts| :: j[i] == TranslationJson(ts[i])
  {
    if ts == [] then [] else [TranslationJson(ts[0])] + TranslationsJson(ts[1..])
  }

  /** `item.get(key)` on a dict item. */
  function Field(item: Json, key: string): Json
    requires item.JObj?
  {
    if key in item.fields then item.fields[key] else JNull
  }

  /** An item the cleaning keeps: a dict whose id is one of `ids` and whose text is a string. */
  predicate Keeps(item: Json, ids: set<string>)
  {
    item.JObj? && Field(item, "id").JStr? && Field(item, "id").s in ids && Field(item, "text").JStr?
  }

  /** What the cleaning keeps of an item: its id and its stripped text. */
  function Kept(item: Json): (t: Translation)
    requires item.JObj? && Field(item, "id").JStr? && Field(item, "text").JStr?
    ensures Stripped(t.text)
  {
    Translation(Field(item, "id").s, Strip(Field(item, "text").s))
  }

  /** What the cleaning keeps of one item: its translation, or nothing. */
  function KeptOf(item: Json, ids: set<string>): (r: seq<Translation>)
    ensures |r| <= 1
    ensures r != [] <==> Keeps(item, ids)
  {
    if Keeps(item, ids) then [Kept(item)] else []
  }

  /** A dict item whose id cannot be looked up in a set. */
  predicate BadId(item: Json)
  {
    item.JObj? && !Hashable(Field(item, "id"))
  }

  /**
    What `for item in translations` goes through, or the `TypeError` of a
    value that cannot be iterated.  A dict yields its keys and a string its
    characters: strings, which the loop skips, so neither contributes an item.
   */
  function Iterated(v: Json): (r: Result<seq<Json>, string>)
    ensures r.Success? <==> v.JArr? || v.JObj? || v.JStr?
    ensures v.JArr? ==> r == Success(v.items)
    ensures r.Failure? ==> r.error == NotIterable(v)
  {
    match v
    case JArr(items) => Success(items)
    case JObj(_) => Success([])
    case JStr(_) => Success([])
    case _ => Failure(NotIterable(v))
  }

  /**
    The cleaning loop of `translate`: keep, in order, what `Keeps` accepts,
    and fail on the first dict item whose id is a list or a dict.
   */
  function Clean(items: seq<Json>, ids: set<string>): (r: Result<seq<Translation>, string>)
    ensures r.Success? <==> forall i | 0 <= i < |items| :: !BadId(items[i])
    ensures r.Success? ==> |r.value| <= |items|
    decreases |items|
  {
    if items == [] then Success([])
    else
      var item := items[0];
      if BadId(item) then Failure(Unhashable(Field(item, "id")))
      else
        var rest := Clean(items[1..], ids);
        if rest.Failure? then rest
        else Success(KeptOf(item, ids) + rest.value)
  }

  /** The cleaning fails on the first dict item with an unhashable id, naming its type. */
  lemma {:induction false} CleanFirstBad(items: seq<Json>, ids: set<string>, i: nat)
    requires i < |items| && BadId(items[i]) && forall k | 0 <= k < i :: !BadId(items[k])
    ensures Clean(items, ids) == Failure(Unhashable(Field(items[i], "id")))
    decreases i
  {
    if i > 0 {
      assert forall k | 0 <= k < i - 1 :: items[1..][k] == items[k + 1];
      CleanFirstBad(items[1..], ids, i - 1);
    }
  }

  /** `t` is what the cleaning keeps of some item of `items`. */
  predicate KeptFrom(t: Translation, items: seq<Json>, ids: set<string>)
  {
    exists i | 0 <= i < |items| :: Keeps(items[i], ids) && t == Kept(items[i])
  }

  /** Every kept translation comes from an item that `Keeps` accepts. */
  lemma {:induction false} CleanSound(items: seq<Json>, ids: set<string>)
    requires Clean(items, ids).Success?
    ensures forall j | 0 <= j < |Clean(items, ids).value| :: KeptFrom(Clean(items, ids).value[j], items, ids)
    decreases |items|
  {
    if items != [] {
      var rest := Clean(items[1..], ids).value;
      CleanSound(items[1..], ids);
      var head := KeptOf(items[0], ids);
      var r := Clean(items, ids).value;
      assert r == head + rest;
      forall j | 0 <= j < |r| ensures KeptFrom(r[j], items, ids) {
        if j < |head| {
          assert Keeps(items[0], ids) && r[j] == Kept(items[0]);
        } else {
          KeptFromTail(rest[j - |head|], items, ids);
        }
      }
    }
  }

  lemma KeptFromTail(t: Translation, items: seq<Json>, ids: set<string>)
    requires items != [] && KeptFrom(t, items[1..], ids)
    ensures KeptFrom(t, items, ids)
  {
    var i :| 0 <= i < |items[1..]| && Keeps(items[1..][i], ids) && t == Kept(items[1..][i]);
    assert items[1..][i] == items[i + 1];
  }

  /** Every item that `Keeps` accepts has its translation kept. */
  lemma {:induction false} CleanComplete(items: seq<Json>, ids: set<string>)
    requires Clean(items, ids).Success?
    ensures forall i | 0 <= i < |items| :: Keeps(items[i], ids) ==> Kept(items[i]) in Clean(items, ids).value
    decreases |items|
  {
    if items != [] {
      var rest := Clean(items[1..], ids).value;
      CleanComplete(items[1..], ids);
      var head := KeptOf(items[0], ids);
      var r := Clean(items, ids).value;
      assert r == head + rest;
      forall i | 0 <= i < |items| && Keeps(items[i], ids) ensures Kept(items[i]) in r {
        if i == 0 {
          assert r[0] == Kept(items[0]);
        } else {
          assert items[i] == items[1..][i - 1];
          assert Kept(items[i]) in rest;
        }
      }
    }
  }

  /** The cleaning keeps the model's order: one more item appends at most its own translation. */
  lemma {:induction false} CleanSnoc(items: seq<Json>, x: Json, ids: set<string>)
    requires Clean(items, ids).Success? && !BadId(x)
    ensures Clean(items + [x], ids) == Success(Clean(items, ids).value + KeptOf(x, ids))
    decreases |items|
  {
    if items == [] {
      CleanSingle(x, ids);
      assert items + [x] == [x];
    } else {
      HeadSnoc(items, x);
      assert !BadId(items[0]);
      CleanSnoc(items[1..], x, ids);
      CleanSnocStep(items[0], items[1..], x, ids);
    }
  }

  lemma CleanSingle(x: Json, ids: set<string>)
    requires !BadId(x)
    ensures Clean([x], ids) == Success([] + KeptOf(x, ids))
  {
    CleanCons(x, [], ids);
    assert [x] + [] == [x] && Clean([], ids).value == [];
    assert KeptOf(x, ids) + [] == [] + KeptOf(x, ids);
  }

  lemma CleanSnocStep(h: Json, t: seq<Json>, x: Json, ids: set<string>)
    requires !BadId(h) && Clean(t, ids).Success?
    requires Clean(t + [x], ids) == Success(Clean(t, ids).value + KeptOf(x, ids))
    ensures Clean([h] + (t + [x]), ids) == Success(Clean([h] + t, ids).value + KeptOf(x, ids))
  {
    CleanCons(h, t + [x], ids);
    CleanCons(h, t, ids);
    var head, mid := KeptOf(h, ids), Clean(t, ids).value;
    assert head + (mid + KeptOf(x, ids)) == (head + mid) + KeptOf(x, ids);
  }

  /** Cleaning an answer that is already clean gives back its translations unchanged. */
  lemma {:induction false} CleanIdentity(ts: seq<Translation>, ids: set<string>)
    requires forall j | 0 <= j < |ts| :: ts[j].id in ids && Stripped(ts[j].text)
    ensures Clean(TranslationsJson(ts), ids) == Success(ts)
    decreases |ts|
  {
    if ts != [] {
      CleanIdentity(ts[1..], ids);
      KeptItem(ts[0], ids);
      CleanCons(TranslationJson(ts[0]), TranslationsJson(ts[1..]), ids);
      assert ts == [ts[0]] + ts[1..];
    }
  }

  /** A clean translation, listed as the answer lists it, is kept as it is. */
  lemma KeptItem(t: Translation, ids: set<string>)
    requires t.id in ids && Stripped(t.text)
    ensures !BadId(TranslationJson(t)) && Keeps(TranslationJson(t), ids) && Kept(TranslationJson(t)) == t
  {
    StripKeepsStripped(t.text);
  }

  /** One step of the cleaning loop. */
  lemma CleanCons(item: Json, rest: seq<Json>, ids: set<string>)
    requires !BadId(item) && Clean(rest, ids).Success?
    ensures Clean([item] + rest, ids) == Success(KeptOf(item, ids) + Clean(rest, ids).value)
  {
    assert ([item] + rest)[0] == item && ([item] + rest)[1..] == rest;
  }

  /** The ids of the request's balloons. */
  function BalloonIds(bs: seq<Balloon>): (ids: set<string>)
    ensures forall i | 0 <= i < |bs| :: bs[i].id in ids
  {
    if bs == [] then {} else {bs[0].id} + BalloonIds(bs[1..])
  }

  /** The ids of the kept translations. */
  function KeptIds(ts: seq<Translation>): (ids: set<string>)
    ensures forall j | 0 <= j < |ts| :: ts[j].id in ids
  {
    if ts == [] then {} else {ts[0].id} + KeptIds(ts[1..])
  }

  /** Every kept id is the id of some kept translation. */
  lemma {:induction false} KeptIdsWitness(ts: seq<Translation>, x: string)
    requires x in KeptIds(ts)
    ensures exists j | 0 <= j < |ts| :: ts[j].id == x
    decreases |ts|
  {
    if ts[0].id != x {
      KeptIdsWitness(ts[1..], x);
      var j :| 0 <= j < |ts[1..]| && ts[1..][j].id == x;
      assert ts[j + 1].id == x;
    }
  }

  /** Every id in the set is some balloon's id, so the set is exactly the balloons' ids. */
  lemma {:induction false} BalloonIdsWitness(bs: seq<Balloon>, x: string)
    requires x in BalloonIds(bs)
    ensures exists i | 0 <= i < |bs| :: bs[i].id == x
    decreases |bs|
  {
    if bs[0].id != x {
      BalloonIdsWitness(bs[1..], x);
      var i :| 0 <= i < |bs[1..]| && bs[1..][i].id == x;
      assert bs[i + 1].id == x;
    }
  }

  /** The request's balloon ids without a kept translation, in request order. */
  function MissingIds(bs: seq<Balloon>, ts: seq<Translation>): (r: seq<string>)
    ensures forall x :: x in r <==> x in BalloonIds(bs) && x !in KeptIds(ts)
  {
    if bs == [] then []
    else
      var rest := MissingIds(bs[1..], ts);
      if bs[0].id in KeptIds(ts) then rest else [bs[0].id] + rest
  }

  const MissingPrefix := "Missing translations for balloons: "

  /**
    The completeness check: the kept translations, or a 502 naming the
    missing ids once each, sorted.
   */
  function Complete(bs: seq<Balloon>, ts: seq<Translation>): (r: Result<seq<Translation>, Fault>)
    ensures r.Success? <==> BalloonIds(bs) <= KeptIds(ts)
    ensures r.Success? ==> r.value == ts
    ensures r.Failure? ==> r.error.Raise? && r.error.error.status == 502
    ensures r.Failure? ==> exists s ::
      && Ascending(s) && Elems(s) == BalloonIds(bs) - KeptIds(ts)
      && r.error.error.detail == MissingPrefix + PyListRepr(s)
  {
    var missing := MissingIds(bs, ts);
    if missing == [] then Success(ts)
    else
      var s := SortedDistinct(missing);
      assert Elems(s) == BalloonIds(bs) - KeptIds(ts);
      Failure(Raise(HttpError(502, MissingPrefix + PyListRepr(s))))
  }

  /** The body of a successful answer. */
  function Answer(model: string, ts: seq<Translation>): Json
  {
    JObj(map["model" := JStr(model), "translations" := JArr(TranslationsJson(ts))])
  }

  /** A kept translation as the answer lists it: a requested id and a stripped text. */
  predicate GoodItem(item: Json, ids: set<string>)
  {
    && item.JObj? && "id" in item.fields && "text" in item.fields
    && item.fields["id"].JStr? && item.fields["id"].s in ids
    && item.fields["text"].JStr? && Stripped(item.fields["text"].s)
  }

  /** Some item of the answer carries `id`. */
  predicate Covered(id: string, items: seq<Json>)
  {
    exists j | 0 <= j < |items| :: items[j].JObj? && "id" in items[j].fields && items[j].fields["id"] == JStr(id)
  }

  /**
    What a successful answer promises about request `m`: the model tag used,
    and translations that are stripped, each of a requested balloon, with
    every requested balloon translated at least once.
   */
  predicate Answers(out: Json, m: MtIn, defaultModel: string)
  {
    && out.JObj? && "model" in out.fields && "translations" in out.fields
    && out.fields["model"] == JStr(ModelName(m, defaultModel))
    && out.fields["translations"].JArr?
    && (forall j | 0 <= j < |out.fields["translations"].items| ::
          GoodItem(out.fields["translations"].items[j], BalloonIds(m.balloons)))
    && (forall i | 0 <= i < |m.balloons| :: Covered(m.balloons[i].id, out.fields["translations"].items))
  }

  /** The cleaning and completeness steps of `translate` on the answer's `translations`. */
  function Finish(m: MtIn, defaultModel: string, translations: Json): (r: Result<Json, Fault>)
    ensures r.Success? ==> Answers(r.value, m, defaultModel)
    ensures !translations.JArr? && !translations.JObj? && !translations.JStr? ==> r.Failure? && r.error.Unhandled?
  {
    var items := Iterated(translations);
    if items.Failure? then Failure(Unhandled(items.error))
    else
      var ids := BalloonIds(m.balloons);
      var kept := Clean(items.value, ids);
      if kept.Failure? then Failure(Unhandled(kept.error))
      else
        var ts := Complete(m.balloons, kept.value);
        if ts.Failure? then Failure(ts.error)
        else
          AnswerFacts(m, defaultModel, items.value, ts.value);
          Success(Answer(ModelName(m, defaultModel), ts.value))
  }

  lemma AnswerFacts(m: MtIn, defaultModel: string, items: seq<Json>, ts: seq<Translation>)
    requires Clean(items, BalloonIds(m.balloons)) == Success(ts)
    requires BalloonIds(m.balloons) <= KeptIds(ts)
    ensures Answers(Answer(ModelName(m, defaultModel), ts), m, defaultModel)
  {
    AnswerItemsGood(items, BalloonIds(m.balloons), ts);
    AnswerCovers(m.balloons, ts);
  }

  lemma AnswerItemsGood(items: seq<Json>, ids: set<string>, ts: seq<Translation>)
    requires Clean(items, ids) == Success(ts)
    ensures forall j | 0 <= j < |ts| :: GoodItem(TranslationsJson(ts)[j], ids)
  {
    CleanSound(items, ids);
    forall j | 0 <= j < |ts| ensures GoodItem(TranslationsJson(ts)[j], ids) {
      GoodWhenKept(ts[j], items, ids);
    }
  }

  lemma GoodWhenKept(t: Translation, items: seq<Json>, ids: set<string>)
    requires KeptFrom(t, items, ids)
    ensures GoodItem(TranslationJson(t), ids)
  {
    var i :| 0 <= i < |items| && Keeps(items[i], ids) && t == Kept(items[i]);
  }

  lemma AnswerCovers(bs: seq<Balloon>, ts: seq<Translation>)
    requires BalloonIds(bs) <= KeptIds(ts)
    ensures forall i | 0 <= i < |bs| :: Covered(bs[i].id, TranslationsJson(ts))
  {
    forall i | 0 <= i < |bs| ensures Covered(bs[i].id, TranslationsJson(ts)) {
      CoveredBy(bs[i].id, ts);
    }
  }

  lemma CoveredBy(x: string, ts: seq<Translation>)
    requires x in KeptIds(ts)
    ensures Covered(x, TranslationsJson(ts))
  {
    KeptIdsWitness(ts, x);
    var j :| 0 <= j < |ts| && ts[j].id == x;
    assert TranslationsJson(ts)[j] == TranslationJson(ts[j]);
  }

  /**
    `translate` on a validated request: the retry loop with the request's
    model tag and prompt, then cleaning and the completeness check.
   */
  function Translated(m: MtIn, defaultModel: string, chat: Chat, loads: Loads): (r: Result<Json, Fault>)
    ensures r.Success? ==> Answers(r.value, m, defaultModel)
  {
    var a := TranslateWithRetries(ModelName(m, defaultModel), BuildPrompt(m), chat, loads);
    if a.result.Failure? then Failure(Raise(a.result.error))
    else Finish(m, defaultModel, a.result.value)
  }

  /** The `/mt/translate` endpoint: a body that fails validation never reaches the model. */
  function MtTranslate(body: Json, defaultModel: string, chat: Chat, loads: Loads): (r: Result<Json, Fault>)
    ensures DecodeRequest(body).Failure? ==> r == Failure(DecodeRequest(body).error)
    ensures r.Success? ==> DecodeRequest(body).Success? && Answers(r.value, DecodeRequest(body).value, defaultModel)
  {
    match DecodeRequest(body)
    case Failure(e) => Failure(e)
    case Success(m) => Translated(m, defaultModel, chat, loads)
  }

  /**
    On translations that iterate and clean to `ts`, the answer is exactly the
    cleaned translations when they cover every balloon, and otherwise the
    completeness check's 502 naming the missing ids.
   */
  lemma FinishCleaned(m: MtIn, defaultModel: string, v: Json, ts: seq<Translation>)
    requires Iterated(v).Success? && Clean(Iterated(v).value, BalloonIds(m.balloons)) == Success(ts)
    ensures Finish(m, defaultModel, v).Success? <==> BalloonIds(m.balloons) <= KeptIds(ts)
    ensures Finish(m, defaultModel, v).Success? ==>
      Finish(m, defaultModel, v) == Success(Answer(ModelName(m, defaultModel), ts))
    ensures Finish(m, defaultModel, v).Failure? ==>
      Finish(m, defaultModel, v) == Failure(Complete(m.balloons, ts).error)
  {
  }

  /** A translation whose answer cannot be cleaned fails with that item's unhashable-id `TypeError`, a plain 500. */
  lemma FinishUnclean(m: MtIn, defaultModel: string, v: Json)
    requires Iterated(v).Success? && Clean(Iterated(v).value, BalloonIds(m.balloons)).Failure?
    ensures Finish(m, defaultModel, v) == Failure(Unhandled(Clean(Iterated(v).value, BalloonIds(m.balloons)).error))
  {
  }

  /** A successful answer is `Finish` on the `translations` the retry loop accepted. */
  lemma TranslatedFinishes(m: MtIn, defaultModel: string, chat: Chat, loads: Loads)
    ensures var a := TranslateWithRetries(ModelName(m, defaultModel), BuildPrompt(m), chat, loads);
      a.result.Success? ==> Translated(m, defaultModel, chat, loads) == Finish(m, defaultModel, a.result.value)
  {
  }

  /** A validated body's answer is `Translated` on the validated request. */
  lemma MtTranslateValidated(body: Json, defaultModel: string, chat: Chat, loads: Loads)
    requires DecodeRequest(body).Success?
    ensures MtTranslate(body, defaultModel, chat, loads) == Translated(DecodeRequest(body).value, defaultModel, chat, loads)
  {
  }

  /** When the retry loop fails, its error is the endpoint's answer. */
  lemma RetriesFailed(m: MtIn, defaultModel: string, chat: Chat, loads: Loads)
    requires TranslateWithRetries(ModelName(m, defaultModel), BuildPrompt(m), chat, loads).result.Failure?
    ensures Translated(m, defaultModel, chat, loads) == Failure(Raise(TranslateWithRetries(ModelName(m, defaultModel), BuildPrompt(m), chat, loads).result.error))
  {
  }

  /** The answer a chat reply carries when its body is `{"message": {"content": content}}`. */
  function ChatContent(content: string): Parse
  {
    Parsed(JObj(map["message" := JObj(map["content" := JStr(content)])]))
  }

  /** An answer whose content decodes to an object with `translations` is accepted at once. */
  lemma AttemptAccepted(reply: ChatReply, loads: Loads, text: string, content: string, translations: Json)
    requires reply == ChatAnswer(200, text, ChatContent(content)) && content != []
    requires loads(Snippet(content)) == Parsed(JObj(map["translations" := translations]))
    ensures Attempt(reply, loads) == Success(translations)
  {
    assert CallOllama(reply) == Success(JStr(content));
  }

  /**
    Clean translations covering every balloon pass the cleaning loop and the
    completeness check unchanged.
   */
  lemma CleanAndComplete(bs: seq<Balloon>, ts: seq<Translation>)
    requires forall j | 0 <= j < |ts| :: ts[j].id in BalloonIds(bs) && Stripped(ts[j].text)
    requires BalloonIds(bs) <= KeptIds(ts)
    ensures Clean(TranslationsJson(ts), BalloonIds(bs)) == Success(ts)
    ensures Complete(bs, ts) == Success(ts)
  {
    CleanIdentity(ts, BalloonIds(bs));
    CompleteWhenCovered(bs, ts);
  }

  /** Nothing is missing when the kept ids cover the balloons. */
  lemma CompleteWhenCovered(bs: seq<Balloon>, ts: seq<Translation>)
    requires BalloonIds(bs) <= KeptIds(ts)
    ensures Complete(bs, ts) == Success(ts)
  {
    var missing := MissingIds(bs, ts);
    if missing != [] {
      assert missing[0] in missing;
    }
  }
}

=== FILE: mt_prompt.dfy ===
/**
  The validated request of the machine-translation gateway and the prompt
  `_build_prompt` makes of it: the fixed instructions, the target language
  and tier, one line per panel summary, and one numbered line per balloon.
 */
module MtPrompt {
  import opened Common
  import opened Text

  /** One balloon to translate; the text is stored stripped. */
  datatype Balloon = Balloon(id: string, text: string)

  /** `panel_id: str | int | None`. */
  datatype PanelId = Unnamed | Named(name: string) | Numbered(n: int)

  /** One panel summary given as context. */
  datatype PanelCtx = PanelCtx(panelId: PanelId, text: string)

  /** The validated body of `/mt/translate`. */
  datatype MtIn = MtIn(balloons: seq<Balloon>, context: seq<PanelCtx>, lang: string, tier: string, model: Option<string>)

  /** What the balloon validator leaves: stripped, non-empty text. */
  predicate GoodBalloon(b: Balloon)
  {
    b.text != [] && Stripped(b.text)
  }

  /** A request that validation can produce: at least one balloon, every one of them good. */
  predicate GoodRequest(m: MtIn)
  {
    && |m.balloons| > 0
    && forall i | 0 <= i < |m.balloons| :: GoodBalloon(m.balloons[i])
  }

  // ---------------------------------------------------------------------------
  // The prompt

  /** The fixed instructions that open every prompt, in short pieces. */
  const PreambleParts: seq<string> := [
    "You are an expert manga translator. ",
    "Translate each balloon faithfully, ",
    "keeping tone, honorifics, ",
    "and cultural nuance. ",
    "Return STRICT JSON with the schema: ",
    "{\"translations\": ",
    "[{\"id\": string, \"text\": string}]} ",
    "and no surrounding prose. ",
    "Use double quotes, ",
    "escape characters properly, ",
    "and never include extra keys."]

  /** The first line of every prompt. */
  const Preamble := Concat(PreambleParts)

  const NoContext := "- No panel summaries available."
  const ContextHeading := "Panel context:"
  const BalloonHeading := "Balloon texts to translate:"
  const Closing := "Respond only with the JSON object."

  /** `f"{ctx.panel_id}"`. */
  function PanelIdText(id: PanelId): string
    requires !id.Unnamed?
  {
    match id
    case Named(s) => s
    case Numbered(n) => IntToString(n)
  }

  /** One line of the context block. */
  function PanelLine(c: PanelCtx): (line: string)
    ensures c.panelId.Unnamed? ==> line == "- Panel: " + Strip(c.text)
    ensures c.panelId.Named? ==> line == "- Panel " + c.panelId.name + ": " + Strip(c.text)
    ensures c.panelId.Numbered? ==> line == "- Panel " + IntToString(c.panelId.n) + ": " + Strip(c.text)
  {
    if c.panelId.Unnamed? then "- Panel: " + Strip(c.text)
    else "- Panel " + PanelIdText(c.panelId) + ": " + Strip(c.text)
  }

  /** The context block's lines: one per panel summary, or a placeholder when there is none. */
  function ContextLines(ctx: seq<PanelCtx>): (lines: seq<string>)
    ensures |lines| == if ctx == [] then 1 else |ctx|
    ensures ctx == [] ==> lines == [NoContext]
    ensures forall i | 0 <= i < |ctx| :: lines[i] == PanelLine(ctx[i])
  {
    if ctx == [] then [NoContext]
    else seq(|ctx|, i requires 0 <= i < |ctx| => PanelLine(ctx[i]))
  }

  /** Balloon number `n` (counting from 1). */
  function BalloonLine(n: nat, b: Balloon): string
  {
    IntToString(n) + ". (id=" + b.id + ") " + b.text
  }

  function BalloonLines(bs: seq<Balloon>): (lines: seq<string>)
    ensures |lines| == |bs|
    ensures forall i | 0 <= i < |bs| :: lines[i] == IntToString(i + 1) + ". (id=" + bs[i].id + ") " + bs[i].text
  {
    seq(|bs|, i requires 0 <= i < |bs| => BalloonLine(i + 1, bs[i]))
  }

  function TargetLine(m: MtIn): string
  {
    "Target language: " + m.lang + ". Tier: " + m.tier + "."
  }

  /**
    The pieces of the prompt: each literal of the source that ends in a line
    break is one piece, and so is each of the two blocks.
   */
  function PromptPieces(m: MtIn): seq<string>
  {
    [Preamble, TargetLine(m), ContextHeading, Join("\n", ContextLines(m.context)),
     "", BalloonHeading, Join("\n", BalloonLines(m.balloons)), Closing]
  }

  /**
    `_build_prompt`: the pieces, each followed by a line break except the last.
    The prompt closes with the numbered balloon lines and then the request to
    answer with the JSON object only.
   */
  function BuildPrompt(m: MtIn): (prompt: string)
    ensures EndsWith(prompt, "\n" + Join("\n", BalloonLines(m.balloons)) + "\n" + Closing)
  {
    var pieces := PromptPieces(m);
    JoinEnds("\n", pieces);
    Join("\n", pieces)
  }

  /** Whatever the request, the prompt opens with the instructions on a line of their own. */
  lemma PromptOpens(m: MtIn)
    ensures Preamble + "\n" <= BuildPrompt(m)
  {
    JoinOpens("\n", PromptPieces(m));
  }

  /** The lines of the prompt, in order. */
  function PromptLines(m: MtIn): seq<string>
  {
    [Preamble] + [TargetLine(m)] + [ContextHeading]
      + ContextLines(m.context)
      + [""] + [BalloonHeading]
      + BalloonLines(m.balloons)
      + [Closing]
  }

  /** No field that ends up in the prompt holds a line break. */
  predicate SingleLineFields(m: MtIn)
  {
    && '\n' !in m.lang && '\n' !in m.tier
    && (forall i | 0 <= i < |m.balloons| :: '\n' !in m.balloons[i].id && '\n' !in m.balloons[i].text)
    && (forall i | 0 <= i < |m.context| :: '\n' !in m.context[i].text)
    && (forall i | 0 <= i < |m.context| :: m.context[i].panelId.Named? ==> '\n' !in m.context[i].panelId.name)
  }

  /**
    When no field holds a line break, the prompt's lines are exactly the
    instructions, the target line, one line per panel summary (or the
    placeholder), and one line per balloon numbered from 1 in request order.
   */
  lemma PromptLayout(m: MtIn)
    requires m.balloons != [] && SingleLineFields(m)
    ensures SplitChar(BuildPrompt(m), '\n') == PromptLines(m)
  {
    var ctx := ContextLines(m.context);
    var bl := BalloonLines(m.balloons);
    ContextSingle(m.context);
    BalloonsSingle(m.balloons);
    PreambleOneLine();
    TargetLineSingle(m);
    HeadingOneLine();
    BalloonHeadingOneLine();
    ClosingOneLine();
    SplitPieces(Preamble, TargetLine(m), ContextHeading, ctx, "", BalloonHeading, bl, Closing);
  }

  lemma ContextSingle(ctx: seq<PanelCtx>)
    requires forall i | 0 <= i < |ctx| :: '\n' !in ctx[i].text
    requires forall i | 0 <= i < |ctx| :: ctx[i].panelId.Named? ==> '\n' !in ctx[i].panelId.name
    ensures forall i | 0 <= i < |ContextLines(ctx)| :: '\n' !in ContextLines(ctx)[i]
  {
    var lines := ContextLines(ctx);
    if ctx == [] {
      NoContextOneLine();
    } else {
      forall i | 0 <= i < |lines| ensures '\n' !in lines[i] {
        PanelLineSingle(ctx[i]);
      }
    }
  }

  lemma BalloonsSingle(bs: seq<Balloon>)
    requires forall i | 0 <= i < |bs| :: '\n' !in bs[i].id && '\n' !in bs[i].text
    ensures forall i | 0 <= i < |BalloonLines(bs)| :: '\n' !in BalloonLines(bs)[i]
  {
    var lines := BalloonLines(bs);
    forall i | 0 <= i < |lines| ensures '\n' !in lines[i] {
      BalloonLineSingle(i + 1, bs[i]);
    }
  }

  /**
    Eight pieces joined by line breaks, two of them blocks of lines joined by
    line breaks themselves, split back into the pieces' lines.
   */
  lemma SplitPieces(a: string, b: string, c: string, ctx: seq<string>, d: string, e: string, bl: seq<string>, f: string)
    requires '\n' !in a && '\n' !in b && '\n' !in c && '\n' !in d && '\n' !in e && '\n' !in f
    requires ctx != [] && forall i | 0 <= i < |ctx| :: '\n' !in ctx[i]
    requires bl != [] && forall i | 0 <= i < |bl| :: '\n' !in bl[i]
    ensures SplitChar(Join("\n", [a, b, c, Join("\n", ctx), d, e, Join("\n", bl), f]), '\n')
      == [a] + [b] + [c] + ctx + [d] + [e] + bl + [f]
  {
    var pieces := [a, b, c, Join("\n", ctx), d, e, Join("\n", bl), f];
    SplitJoinEach(pieces, '\n');
    var parts := SplitEach(pieces, '\n');
    SplitNoSeparator(a, '\n');
    SplitNoSeparator(b, '\n');
    SplitNoSeparator(c, '\n');
    SplitJoin(ctx, '\n');
    SplitNoSeparator(d, '\n');
    SplitNoSeparator(e, '\n');
    SplitJoin(bl, '\n');
    SplitNoSeparator(f, '\n');
    assert parts == [[a], [b], [c], ctx, [d], [e], bl, [f]];
    FlattenEight([a], [b], [c], ctx, [d], [e], bl, [f]);
  }

  lemma FlattenEight(a: seq<string>, b: seq<string>, c: seq<string>, d: seq<string>,
                     e: seq<string>, f: seq<string>, g: seq<string>, h: seq<string>)
    ensures Flatten([a, b, c, d, e, f, g, h]) == a + b + c + d + e + f + g + h
  {
    assert Flatten([a]) == a + Flatten([]);
    FlattenSnoc([a], b);
    assert [a] + [b] == [a, b];
    FlattenSnoc([a, b], c);
    assert [a, b] + [c] == [a, b, c];
    FlattenSnoc([a, b, c], d);
    assert [a, b, c] + [d] == [a, b, c, d];
    FlattenSnoc([a, b, c, d], e);
    assert [a, b, c, d] + [e] == [a, b, c, d, e];
    FlattenSnoc([a, b, c, d, e], f);
    assert [a, b, c, d, e] + [f] == [a, b, c, d, e, f];
    FlattenSnoc([a, b, c, d, e, f], g);
    assert [a, b, c, d, e, f] + [g] == [a, b, c, d, e, f, g];
    FlattenSnoc([a, b, c, d, e, f, g], h);
    assert [a, b, c, d, e, f, g] + [h] == [a, b, c, d, e, f, g, h];
  }

  lemma TargetLineSingle(m: MtIn)
    requires '\n' !in m.lang && '\n' !in m.tier
    ensures '\n' !in TargetLine(m)
  {
  }

  lemma NoContextOneLine() ensures '\n' !in NoContext {}
  lemma HeadingOneLine() ensures '\n' !in ContextHeading {}
  lemma BalloonHeadingOneLine() ensures '\n' !in BalloonHeading {}
  lemma ClosingOneLine() ensures '\n' !in Closing {}

  /** The instructions hold no line break. */
  lemma PreambleOneLine()
    ensures '\n' !in Preamble
  {
    PartsOneLineA();
    PartsOneLineB();
    PartsOneLineC();
    PartsOneLineD();
    ConcatAvoids(PreambleParts, '\n');
  }

  lemma PartsOneLineA()
    ensures forall i | 0 <= i < 3 :: '\n' !in PreambleParts[i]
  {
    assert '\n' !in PreambleParts[0];
    assert '\n' !in PreambleParts[1];
    assert '\n' !in PreambleParts[2];
  }

  lemma PartsOneLineB()
    ensures forall i | 3 <= i < 6 :: '\n' !in PreambleParts[i]
  {
    assert '\n' !in PreambleParts[3];
    assert '\n' !in PreambleParts[4];
    assert '\n' !in PreambleParts[5];
  }

  lemma PartsOneLineC()
    ensures forall i | 6 <= i < 9 :: '\n' !in PreambleParts[i]
  {
    assert '\n' !in PreambleParts[6];
    assert '\n' !in PreambleParts[7];
    assert '\n' !in PreambleParts[8];
  }

  lemma PartsOneLineD()
    ensures forall i | 9 <= i < |PreambleParts| :: '\n' !in PreambleParts[i]
  {
    assert '\n' !in PreambleParts[9];
    assert '\n' !in PreambleParts[10];
  }

  lemma PanelLineSingle(p: PanelCtx)
    requires '\n' !in p.text && (p.panelId.Named? ==> '\n' !in p.panelId.name)
    ensures '\n' !in PanelLine(p)
  {
    StripWithin(p.text, '\n');
    if p.panelId.Numbered? {
      IntToStringChars(p.panelId.n, '\n');
    }
  }

  lemma BalloonLineSingle(n: nat, b: Balloon)
    requires '\n' !in b.id && '\n' !in b.text
    ensures '\n' !in BalloonLine(n, b)
  {
    IntToStringChars(n, '\n');
  }
}

=== FILE: ocr_trans.dfy ===
/**
  The OCR and typesetting stub: `/ocr/run` answers one fixed span, and
  `/typeset/layout` lays out one line per container whose text is the
  translation for balloon `b1`, or a fixed greeting.
 */
module OcrTrans {
  import opened Common
  import opened Json
  import opened Http

  // ---------------------------------------------------------------------------
  // OCR

  const Engine := "manga_ocr@stub"
  const SpanId := "b1"

  /** The stub's recognised text, "konnichiwa" in hiragana. */
  const SpanText := "\U{3053}\U{3093}\U{306b}\U{3061}\U{306f}"

  const SpanJson: Json := JObj(map["id" := JStr(SpanId), "text" := JStr(SpanText), "conf" := JFloat(0.92)])

  /** `/ocr/run`: the upload is not looked at; the answer is one span with id `b1`. */
  function OcrRun(image: Bytes): (out: Json)
    ensures out.JObj? && "spans" in out.fields && out.fields["spans"] == JArr([SpanJson])
    ensures "engine" in out.fields && out.fields["engine"] == JStr(Engine)
  {
    JObj(map["engine" := JStr(Engine), "spans" := JArr([SpanJson])])
  }

  // ---------------------------------------------------------------------------
  // Typesetting

  /** The text of the `TypeError` raised by `v["id"]` when `v` is not a dict. */
  function SubscriptError(v: Json): string
  {
    match v
    case JArr(_) => "list indices must be integers or slices, not str"
    case JStr(_) => "string indices must be integers, not 'str'"
    case _ => "'" + TypeName(v) + "' object is not subscriptable"
  }

  /**
    What a comprehension over `v` hands to `item["id"]`: a list's items; a
    dict or a string yields strings, so a non-empty one fails on its first
    element, and any other value cannot be iterated.
   */
  function Records(v: Json): (r: Result<seq<Json>, string>)
    ensures v.JArr? ==> r == Success(v.items)
    ensures r.Success? && !v.JArr? ==> r.value == []
    ensures r.Failure? <==> ((v.JObj? || v.JStr?) && Truthy(v)) || !(v.JArr? || v.JObj? || v.JStr?)
  {
    match v
    case JArr(items) => Success(items)
    case JObj(m) => if m == map[] then Success([]) else Failure(SubscriptError(JStr("")))
    case JStr(s) => if s == [] then Success([]) else Failure(SubscriptError(JStr("")))
    case _ => Failure(NotIterable(v))
  }

  /** `item["id"]` succeeds, and the id can be a dict key if it is used as one (`hashed`). */
  predicate HasId(item: Json, hashed: bool)
  {
    item.JObj? && "id" in item.fields && (hashed ==> Hashable(item.fields["id"]))
  }

  /** Why `item["id"]` fails on an item, if it does. */
  function IdError(item: Json, hashed: bool): (e: Option<string>)
    ensures e.None? <==> HasId(item, hashed)
  {
    if !item.JObj? then Some(SubscriptError(item))
    else if "id" !in item.fields then Some("'id'")
    else if hashed && !Hashable(item.fields["id"]) then Some(Unhashable(item.fields["id"]))
    else None
  }

  /** The first failing `item["id"]` of a comprehension, which ends it. */
  function FirstIdError(items: seq<Json>, hashed: bool): (e: Option<string>)
    ensures e.None? <==> forall i | 0 <= i < |items| :: HasId(items[i], hashed)
  {
    if items == [] then None
    else if IdError(items[0], hashed).Some? then IdError(items[0], hashed)
    else
      var rest := FirstIdError(items[1..], hashed);
      assert forall i | 1 <= i < |items| :: items[i] == items[1..][i - 1];
      rest
  }

  /** Items whose id can be read and used as a key. */
  predicate Keyed(items: seq<Json>)
  {
    forall i | 0 <= i < |items| :: HasId(items[i], true)
  }

  /** `t.get("text", "")` on a translation item. */
  function TextOf(t: Json): Json
    requires t.JObj?
  {
    if "text" in t.fields then t.fields["text"] else JStr("")
  }

  /**
    The `translations` dict, restricted to string ids (the only ids a
    string key can find): item by item, so a later item with the same id
    replaces an earlier one.
   */
  function Table(items: seq<Json>): (table: map<string, Json>)
    requires Keyed(items)
    ensures forall k | k in table :: exists i | 0 <= i < |items| :: items[i].fields["id"] == JStr(k)
    decreases |items|
  {
    if items == [] then map[]
    else
      var t := items[|items| - 1];
      var rest := Table(items[..|items| - 1]);
      assert forall i | 0 <= i < |items| - 1 :: items[..|items| - 1][i] == items[i];
      if t.fields["id"].JStr? then rest[t.fields["id"].s := TextOf(t)] else rest
  }

  /** The last item with a given string id decides its entry; a missing text is "". */
  lemma {:induction false} TableLastWins(items: seq<Json>, i: nat)
    requires Keyed(items) && i < |items| && items[i].fields["id"].JStr?
    requires forall j | i < j < |items| :: items[j].fields["id"] != items[i].fields["id"]
    ensures items[i].fields["id"].s in Table(items)
    ensures Table(items)[items[i].fields["id"].s] == TextOf(items[i])
    decreases |items|
  {
    if i < |items| - 1 {
      var front := items[..|items| - 1];
      assert front[i] == items[i];
      assert forall j | i < j < |front| :: front[j] == items[j];
      TableLastWins(front, i);
    }
  }

  /** A string id that no item carries has no entry. */
  lemma TableAbsent(items: seq<Json>, k: string)
    requires Keyed(items) && forall i | 0 <= i < |items| :: items[i].fields["id"] != JStr(k)
    ensures k !in Table(items)
  {
  }

  /** `translations.get("b1", "Hello!")`. */
  function LineText(table: map<string, Json>): Json
  {
    if SpanId in table then table[SpanId] else JStr("Hello!")
  }

  function LineJson(id: Json, text: Json): Json
  {
    JObj(map["container_id" := id, "bboxes" := JArr([JArr([JInt(16), JInt(16), JInt(112), JInt(32)])]), "text" := text])
  }

  /** One line per container, in the containers' order, each with the same text. */
  function Lines(containers: seq<Json>, text: Json): (lines: seq<Json>)
    requires forall i | 0 <= i < |containers| :: HasId(containers[i], false)
    ensures |lines| == |containers|
    ensures forall i | 0 <= i < |containers| && HasId(containers[i], false) ::
      lines[i] == LineJson(containers[i].fields["id"], text)
  {
    if containers == [] then []
    else
      assert HasId(containers[0], false);
      assert forall i | 1 <= i < |containers| :: containers[i] == containers[1..][i - 1];
      [LineJson(containers[0].fields["id"], text)] + Lines(containers[1..], text)
  }

  /** `body.get(key, [])`. */
  function Listed(body: map<string, Json>, key: string): Json
  {
    if key in body then body[key] else EmptyList
  }

  /**
    `/typeset/layout`: the translation dict is built first, then one line per
    container; any exception on the way is a plain 500.
   */
  function TypesetLayout(body: map<string, Json>): (r: Result<Json, Fault>)
    ensures r.Failure? ==> r.error.Unhandled?
    ensures r.Success? <==>
      && Records(Listed(body, "translations")).Success?
      && FirstIdError(Records(Listed(body, "translations")).value, true).None?
      && Records(Listed(body, "containers")).Success?
      && FirstIdError(Records(Listed(body, "containers")).value, false).None?
    ensures r.Success? ==>
      var cs := Records(Listed(body, "containers")).value;
      var table := Table(Records(Listed(body, "translations")).value);
      && r.value.JObj? && "lines" in r.value.fields && r.value.fields["lines"].JArr?
      && |r.value.fields["lines"].items| == |cs|
      && forall i | 0 <= i < |cs| :: r.value.fields["lines"].items[i] == LineJson(cs[i].fields["id"], LineText(table))
  {
    var ts := Records(Listed(body, "translations"));
    if ts.Failure? then Failure(Unhandled(ts.error))
    else if FirstIdError(ts.value, true).Some? then Failure(Unhandled(FirstIdError(ts.value, true).value))
    else
      var table := Table(ts.value);
      var cs := Records(Listed(body, "containers"));
      if cs.Failure? then Failure(Unhandled(cs.error))
      else if FirstIdError(cs.value, false).Some? then Failure(Unhandled(FirstIdError(cs.value, false).value))
      else Success(JObj(map["lines" := JArr(Lines(cs.value, LineText(table)))]))
  }

  /** The endpoint: FastAPI first requires the body to be a JSON object. */
  function Typeset(body: Json): (r: Result<Json, Fault>)
    ensures !body.JObj? ==> r == Invalid(NotADict)
    ensures body.JObj? ==> r == TypesetLayout(body.fields)
  {
    if body.JObj? then TypesetLayout(body.fields) else Invalid(NotADict)
  }

  /** Without containers there are no lines. */
  lemma NoContainersNoLines(body: map<string, Json>)
    requires "containers" !in body && TypesetLayout(body).Success?
    ensures TypesetLayout(body).value.fields["lines"] == JArr([])
  {
  }

  /** Laying out the OCR stub's own spans as translations writes its text on every line. */
  lemma TypesetOcrSpans(image: Bytes, containers: seq<Json>)
    requires forall i | 0 <= i < |containers| :: HasId(containers[i], false)
    ensures var body := map["translations" := OcrRun(image).fields["spans"], "containers" := JArr(containers)];
      && TypesetLayout(body).Success?
      && forall i | 0 <= i < |containers| ::
        TypesetLayout(body).value.fields["lines"].items[i].fields["text"] == JStr(SpanText)
  {
    var body := map["translations" := OcrRun(image).fields["spans"], "containers" := JArr(containers)];
    TableLastWins([SpanJson], 0);
  }
}

=== FILE: scenario.dfy ===
/**
  An end-to-end run of the gateway in which the OCR, panel-description and
  typesetting stages are the stub services themselves, answering through
  FastAPI's rendering and the gateway's `.json()`, and every other stage is
  any service that answers with a dict.
 */
module Scenario {
  import opened Common
  import opened Json
  import opened Http
  import opened Gateway
  import OcrTrans
  import VlPanels

  /** The gateway's view of a stub endpoint's outcome. */
  function Via(r: Result<Json, Fault>): Reply
  {
    Received(Render(r))
  }

  /** The stub services at the OCR, VL and typeset stages, and `others` everywhere else. */
  function Stubs(others: Services): Services
  {
    (s: Stage, p: Payload) =>
      if s == Ocr && p.Upload? then Via(Success(OcrTrans.OcrRun(p.image)))
      else if s == Vl && p.Body? then Via(VlPanels.Describe(p.json))
      else if s == Typeset && p.Body? then Via(OcrTrans.Typeset(p.json))
      else others(s, p)
  }

  /** A service that answers every request with a dict, whatever its status. */
  ghost predicate AnswersDicts(svc: Services)
  {
    forall s, p :: svc(s, p).Responded? && svc(s, p).body.JObj?
  }

  /** A list whose items are dicts with an id, hashable if `hashed`. */
  ghost predicate KeyedList(v: Json, hashed: bool)
  {
    v.JArr? && forall i | 0 <= i < |v.items| :: OcrTrans.HasId(v.items[i], hashed)
  }

  /**
    The fusion stage always answers a list of containers with ids, and MT a
    list of translations with hashable ids (a missing key reads as `[]`).
   */
  ghost predicate Layable(others: Services)
  {
    && AnswersDicts(others)
    && (forall p :: KeyedList(Lookup(others(FuseContainers, p).body, "containers"), false))
    && (forall p :: KeyedList(Lookup(others(Mt, p).body, "translations"), true))
  }

  /** An endpoint that never raises anything but an `HTTPException` reaches the gateway as a dict. */
  lemma ViaDict(r: Result<Json, Fault>)
    requires r.Success? ==> r.value.JObj?
    requires r.Failure? ==> r.error.Raise?
    ensures Via(r).Responded? && Via(r).body.JObj?
  {
  }

  /** The OCR and VL stubs always answer a dict. */
  lemma StubAnswers(others: Services, s: Stage, p: Payload)
    requires AnswersDicts(others) && s != Typeset
    ensures Stubs(others)(s, p).Responded? && Stubs(others)(s, p).body.JObj?
  {
    if s == Ocr && p.Upload? {
      ViaDict(Success(OcrTrans.OcrRun(p.image)));
    } else if s == Vl && p.Body? {
      ViaDict(VlPanels.Describe(p.json));
    }
  }

  /** The typeset stub lays out any request whose containers and translations are keyed lists. */
  lemma TypesetAnswers(others: Services, p: Payload)
    requires AnswersDicts(others) && p.Body? && p.json.JObj?
    requires "containers" in p.json.fields && KeyedList(p.json.fields["containers"], false)
    requires "translations" in p.json.fields && KeyedList(p.json.fields["translations"], true)
    ensures Stubs(others)(Typeset, p).Responded? && Stubs(others)(Typeset, p).body.JObj?
  {
    var f := p.json.fields;
    assert OcrTrans.Listed(f, "containers") == f["containers"];
    assert OcrTrans.Listed(f, "translations") == f["translations"];
    ViaDict(OcrTrans.Typeset(p.json));
  }

  /**
    With the stubs in place, a job completes whenever the other stages
    answer dicts and fusion and MT answer keyed lists: it reaches COMPOSITE
    and records no error.
   */
  lemma StubsComplete(jobs: Jobs, jobId: string, image: Bytes, lang: string, tier: string, others: Services)
    requires Layable(others)
    ensures var o := Translate(jobs, jobId, image, lang, tier, Stubs(others));
      o.jobs[jobId].error.None? && o.jobs[jobId].stage == Composite
  {
    var svc := Stubs(others);
    var o := Translate(jobs, jobId, image, lang, tier, svc);
    TranslateHalts(jobs, jobId, image, lang, tier, svc);
    TranslateWiring(jobs, jobId, image, lang, tier, svc);
    TranslateStages(jobs, jobId, image, lang, tier, svc);
    if o.jobs[jobId].error.Some? {
      NeverStopped(others, o.calls, o.jobs[jobId].stage, o.jobs[jobId].error.value, image, lang, tier);
    }
  }

  /** No stage stops a run whose calls are wired as the gateway wires them. */
  lemma NeverStopped(others: Services, calls: seq<Call>, s: Stage, err: string, image: Bytes, lang: string, tier: string)
    requires Layable(others) && AllWired(Stubs(others), calls, image, lang, tier)
    ensures !Stopped(Stubs(others), calls, s, err)
  {
    var svc := Stubs(others);
    if Stopped(svc, calls, s, err) {
      if |calls| == s as int {
        AnsweredAt(others, calls, s, image, lang, tier);
      } else {
        var w :| w in Joins(s) && StoppedBlocked(svc, calls, s, err, w);
        StubAnswers(others, w.from, calls[w.from - 1].payload);
      }
    }
  }

  /** The call of the stage a stopped run stopped at did not raise. */
  lemma AnsweredAt(others: Services, calls: seq<Call>, s: Stage, image: Bytes, lang: string, tier: string)
    requires Layable(others)
    requires Queued < s < Composite && |calls| == s as int
    requires forall k | 0 <= k < |calls| :: calls[k].stage as int == k + 1
    requires forall k | 0 <= k < s as int - 1 :: ReplyTo(Stubs(others), calls[k]).Responded?
    requires AllWired(Stubs(others), calls, image, lang, tier)
    ensures ReplyTo(Stubs(others), calls[s - 1]).Responded?
  {
    var c := calls[s - 1];
    if s == Typeset {
      assert WiredCall(Stubs(others), calls, s as int - 1, image, lang, tier);
      assert calls[FuseContainers - 1].stage == FuseContainers && calls[Mt - 1].stage == Mt;
      assert Wire("containers", FuseContainers, "containers") in Joins(Typeset);
      assert Wire("translations", Mt, "translations") in Joins(Typeset);
      TypesetAnswers(others, c.payload);
    } else {
      StubAnswers(others, s, c.payload);
    }
  }

  /** The calls of a complete run: one per stage from DETECT_DBNET to TYPESET, each answered. */
  ghost predicate Completed(svc: Services, calls: seq<Call>)
  {
    && |calls| == Composite as int - 1
    && forall k | 0 <= k < |calls| :: calls[k].stage as int == k + 1 && ReplyTo(svc, calls[k]).Responded?
  }

  /** With the stubs in place the run completes, wired as the gateway wires it. */
  lemma StubsRun(jobs: Jobs, jobId: string, image: Bytes, lang: string, tier: string, others: Services)
    requires Layable(others)
    ensures var o := Translate(jobs, jobId, image, lang, tier, Stubs(others));
      && Completed(Stubs(others), o.calls)
      && AllWired(Stubs(others), o.calls, image, lang, tier)
      && o.response == JsonResponse(200, DoneBody(jobId,
           BodyOf(Stubs(others), o.calls, Ocr), BodyOf(Stubs(others), o.calls, Mt), BodyOf(Stubs(others), o.calls, Typeset)))
  {
    var svc := Stubs(others);
    StubsComplete(jobs, jobId, image, lang, tier, others);
    TranslateStages(jobs, jobId, image, lang, tier, svc);
    TranslateWiring(jobs, jobId, image, lang, tier, svc);
  }

  /** The "done" answer's `ocr` output is the OCR stub's answer for the job's image. */
  lemma OcrOutput(others: Services, calls: seq<Call>, image: Bytes, lang: string, tier: string)
    requires Layable(others)
    requires Completed(Stubs(others), calls) && AllWired(Stubs(others), calls, image, lang, tier)
    ensures BodyOf(Stubs(others), calls, Ocr) == OcrTrans.OcrRun(image)
  {
    assert WiredCall(Stubs(others), calls, Ocr as int - 1, image, lang, tier);
    var c := calls[Ocr - 1];
    assert c.stage == Ocr;
    assert Joins(Ocr) == [];
    assert c.payload.Upload? && c.payload.image == image;
    assert ReplyTo(Stubs(others), c) == Via(Success(OcrTrans.OcrRun(image)));
  }

  /**
    The "done" answer's `layout` output has one line per container that
    fusion answered, in its order, each with the text MT gave balloon `b1`
    (or the greeting).
   */
  lemma LayoutOutput(others: Services, calls: seq<Call>, image: Bytes, lang: string, tier: string)
    requires Layable(others)
    requires Completed(Stubs(others), calls) && AllWired(Stubs(others), calls, image, lang, tier)
    ensures var cs := Lookup(BodyOf(Stubs(others), calls, FuseContainers), "containers");
      var ts := Lookup(BodyOf(Stubs(others), calls, Mt), "translations");
      && cs.JArr? && ts.JArr? && OcrTrans.Keyed(ts.items)
      && (forall i | 0 <= i < |cs.items| :: OcrTrans.HasId(cs.items[i], false))
      && BodyOf(Stubs(others), calls, Typeset)
         == JObj(map["lines" := JArr(OcrTrans.Lines(cs.items, OcrTrans.LineText(OcrTrans.Table(ts.items))))])
  {
    var svc := Stubs(others);
    assert WiredCall(svc, calls, Typeset as int - 1, image, lang, tier);
    assert Wire("containers", FuseContainers, "containers") in Joins(Typeset);
    assert Wire("translations", Mt, "translations") in Joins(Typeset);
    var c := calls[Typeset - 1];
    assert calls[FuseContainers - 1].stage == FuseContainers && calls[Mt - 1].stage == Mt;
    var f := c.payload.json.fields;
    var cs, ts := f["containers"], f["translations"];
    assert KeyedList(cs, false) && KeyedList(ts, true);
    assert OcrTrans.Listed(f, "containers") == cs && OcrTrans.Records(cs) == Success(cs.items);
    assert OcrTrans.Listed(f, "translations") == ts && OcrTrans.Records(ts) == Success(ts.items);
    assert ReplyTo(svc, c) == Via(OcrTrans.Typeset(c.payload.json));
  }
}

=== FILE: text.dfy ===
/**
  The Python string operations the services use: `str.strip()`,
  `str.startswith`, `str.split(sep)`, `sep.join(xs)`, f-string formatting of
  integers, the ordering `sorted()` uses on strings, and `repr()` of a string.
 */
module Text {
  import opened Common

  /** Python's `str.isspace()` on one character. */
  predicate IsSpace(c: char)
  {
    || c == ' '
    || ('\t' <= c <= '\r')                 // \t \n \v \f \r
    || ('\U{1C}' <= c <= '\U{1F}')         // file, group, record and unit separators
    || c == '\U{85}' || c == '\U{A0}' || c == '\U{1680}'
    || ('\U{2000}' <= c <= '\U{200A}')
    || c == '\U{2028}' || c == '\U{2029}' || c == '\U{202F}' || c == '\U{205F}' || c == '\U{3000}'
  }

  predicate AllSpace(s: string)
  {
    forall m | 0 <= m < |s| :: IsSpace(s[m])
  }

  /** Neither end of `s` is whitespace: what `strip()` returns. */
  predicate Stripped(s: string)
  {
    s == [] || (!IsSpace(s[0]) && !IsSpace(s[|s| - 1]))
  }

  /** `s[i..j]` is what remains once all leading and trailing whitespace is removed. */
  ghost predicate StripBounds(s: string, i: nat, j: nat)
  {
    && i <= j <= |s|
    && (forall m | 0 <= m < i :: IsSpace(s[m]))
    && (forall m | j <= m < |s| :: IsSpace(s[m]))
    && (i < j ==> !IsSpace(s[i]) && !IsSpace(s[j - 1]))
  }

  /** The first index at or after `i` that is not whitespace (or `|s|`). */
  function SkipLeading(s: string, i: nat): (k: nat)
    requires i <= |s|
    ensures i <= k <= |s|
    ensures forall m | i <= m < k :: IsSpace(s[m])
    ensures k < |s| ==> !IsSpace(s[k])
    decreases |s| - i
  {
    if i < |s| && IsSpace(s[i]) then SkipLeading(s, i + 1) else i
  }

  /** The end of `s[lo..j]` once trailing whitespace is dropped. */
  function SkipTrailing(s: string, lo: nat, j: nat): (k: nat)
    requires lo <= j <= |s|
    ensures lo <= k <= j
    ensures forall m | k <= m < j :: IsSpace(s[m])
    ensures lo < k ==> !IsSpace(s[k - 1])
    decreases j
  {
    if lo < j && IsSpace(s[j - 1]) then SkipTrailing(s, lo, j - 1) else j
  }

  /** `s.strip()`. */
  function Strip(s: string): (r: string)
    ensures Stripped(r)
    ensures r == [] <==> AllSpace(s)
    ensures |r| <= |s|
  {
    var i := SkipLeading(s, 0);
    var j := SkipTrailing(s, i, |s|);
    s[i..j]
  }

  /** Whatever bounds satisfy the definition of stripping, `Strip` returns exactly that infix. */
  lemma StripSpec(s: string, i: nat, j: nat)
    requires StripBounds(s, i, j)
    ensures Strip(s) == s[i..j]
  {
    var i0 := SkipLeading(s, 0);
    var j0 := SkipTrailing(s, i0, |s|);
    if i < j {
      assert i0 == i;
      assert j0 == j;
    } else {
      assert AllSpace(s) by {
        forall m | 0 <= m < |s| ensures IsSpace(s[m]) {
          if m >= i { assert m >= j; }
        }
      }
    }
  }

  /** Stripping adds no character. */
  lemma StripWithin(s: string, c: char)
    requires c !in s
    ensures c !in Strip(s)
  {
    var i := SkipLeading(s, 0);
    var j := SkipTrailing(s, i, |s|);
    assert forall m | 0 <= m < j - i :: s[i..j][m] == s[i + m];
  }

  /** Stripping twice is stripping once. */
  lemma StripIdempotent(s: string)
    ensures Strip(Strip(s)) == Strip(s)
  {
    var r := Strip(s);
    StripSpec(r, 0, |r|);
  }

  /** A string without surrounding whitespace is left alone. */
  lemma StripKeepsStripped(s: string)
    requires Stripped(s)
    ensures Strip(s) == s
  {
    StripSpec(s, 0, |s|);
  }

  // ---------------------------------------------------------------------------
  // Splitting and joining

  /** `s.endswith(t)`. */
  predicate EndsWith(s: string, t: string)
  {
    |t| <= |s| && s[|s| - |t|..] == t
  }

  /** A join of two or more pieces opens with the first, followed by the separator. */
  lemma JoinOpens(sep: string, xs: seq<string>)
    requires |xs| >= 2
    ensures xs[0] + sep <= Join(sep, xs)
  {
    JoinCons(sep, xs[0], xs[1..]);
    HeadTail(xs);
  }

  /** A join of two or more pieces closes with the last two, separated and preceded by the separator. */
  lemma JoinEnds(sep: string, xs: seq<string>)
    requires |xs| >= 3
    ensures EndsWith(Join(sep, xs), sep + xs[|xs| - 2] + sep + xs[|xs| - 1])
  {
    var n := |xs|;
    JoinAppend(sep, xs[..n - 2], xs[n - 2..]);
    assert xs == xs[..n - 2] + xs[n - 2..];
    assert Join(sep, xs[n - 2..]) == xs[n - 2] + sep + xs[n - 1];
  }

  /**
    `s.split(sep)` for a non-empty separator: scanning from the left, each
    occurrence of `sep` closes the current piece, and occurrences do not overlap.
   */
  function SplitOn(s: string, sep: string): (parts: seq<string>)
    requires |sep| > 0
    ensures |parts| >= 1
    decreases |s|
  {
    if s == [] then [""]
    else if sep <= s then [""] + SplitOn(s[|sep|..], sep)
    else
      var rest := SplitOn(s[1..], sep);
      [[s[0]] + rest[0]] + rest[1..]
  }

  /** `sep.join(xs)`. */
  function Join(sep: string, xs: seq<string>): string
  {
    if xs == [] then ""
    else if |xs| == 1 then xs[0]
    else xs[0] + sep + Join(sep, xs[1..])
  }

  lemma JoinCons(sep: string, x: string, xs: seq<string>)
    requires |xs| > 0
    ensures Join(sep, [x] + xs) == x + sep + Join(sep, xs)
  {
    assert ([x] + xs)[1..] == xs;
  }

  lemma JoinExtendHead(sep: string, c: char, xs: seq<string>)
    requires |xs| > 0
    ensures Join(sep, [[c] + xs[0]] + xs[1..]) == [c] + Join(sep, xs)
  {
    if |xs| > 1 {
      JoinCons(sep, [c] + xs[0], xs[1..]);
      JoinCons(sep, xs[0], xs[1..]);
      assert xs == [xs[0]] + xs[1..];
    }
  }

  /** `"".join(xs)`. */
  function Concat(xs: seq<string>): string
  {
    if xs == [] then "" else xs[0] + Concat(xs[1..])
  }

  /** A character in none of the pieces is not in their concatenation. */
  lemma {:induction false} ConcatAvoids(xs: seq<string>, c: char)
    requires forall i | 0 <= i < |xs| :: c !in xs[i]
    ensures c !in Concat(xs)
    decreases |xs|
  {
    if xs != [] {
      ConcatAvoids(xs[1..], c);
    }
  }

  /** `s.split(c)` for each of `xs`. */
  function SplitEach(xs: seq<string>, c: char): (r: seq<seq<string>>)
    ensures |r| == |xs|
    ensures forall i | 0 <= i < |xs| :: r[i] == SplitChar(xs[i], c)
  {
    if xs == [] then [] else [SplitChar(xs[0], c)] + SplitEach(xs[1..], c)
  }

  /** The lists of `xss`, one after the other. */
  function Flatten(xss: seq<seq<string>>): seq<string>
  {
    if xss == [] then [] else xss[0] + Flatten(xss[1..])
  }

  /** Splitting off the head of a non-empty sequence, before and after appending. */
  lemma HeadSnoc<T>(s: seq<T>, x: T)
    requires s != []
    ensures s == [s[0]] + s[1..]
    ensures s + [x] == [s[0]] + (s[1..] + [x])
  {
  }

  /** Flattening one more list appends it. */
  lemma {:induction false} FlattenSnoc(xss: seq<seq<string>>, ys: seq<string>)
    ensures Flatten(xss + [ys]) == Flatten(xss) + ys
    decreases |xss|
  {
    if xss == [] {
      assert Flatten([ys]) == ys + Flatten([]);
    } else {
      assert (xss + [ys])[1..] == xss[1..] + [ys];
      FlattenSnoc(xss[1..], ys);
    }
  }

  /**
    Splitting a join on its own separator splits each joined piece: a piece
    holding the separator contributes several parts, any other exactly one.
   */
  lemma {:induction false} SplitJoinEach(xs: seq<string>, c: char)
    requires |xs| > 0
    ensures SplitChar(Join([c], xs), c) == Flatten(SplitEach(xs, c))
    decreases |xs|
  {
    if |xs| == 1 {
      assert Flatten(SplitEach(xs, c)) == SplitChar(xs[0], c) + Flatten([]);
    } else {
      SplitJoinEach(xs[1..], c);
      SplitAppend(xs[0], c, Join([c], xs[1..]));
      assert SplitEach(xs, c)[1..] == SplitEach(xs[1..], c);
    }
  }

  /** Joining two non-empty lists is joining each and putting the separator between. */
  lemma {:induction false} JoinAppend(sep: string, xs: seq<string>, ys: seq<string>)
    requires |xs| > 0 && |ys| > 0
    ensures Join(sep, xs + ys) == Join(sep, xs) + sep + Join(sep, ys)
    decreases |xs|
  {
    if |xs| == 1 {
      assert xs + ys == [xs[0]] + ys;
      JoinCons(sep, xs[0], ys);
    } else {
      JoinAppend(sep, xs[1..], ys);
      assert xs + ys == [xs[0]] + (xs[1..] + ys);
      JoinCons(sep, xs[0], xs[1..] + ys);
      JoinCons(sep, xs[0], xs[1..]);
      assert xs == [xs[0]] + xs[1..];
    }
  }

  /** Joining the pieces of a split gives back the original text. */
  lemma {:induction false} JoinSplit(s: string, sep: string)
    requires |sep| > 0
    ensures Join(sep, SplitOn(s, sep)) == s
    decreases |s|
  {
    if s == [] {
    } else if sep <= s {
      JoinSplit(s[|sep|..], sep);
      JoinSplitCut(s, sep);
    } else {
      JoinSplit(s[1..], sep);
      JoinSplitScan(s, sep);
    }
  }

  lemma JoinSplitCut(s: string, sep: string)
    requires |sep| > 0 && s != [] && sep <= s
    requires Join(sep, SplitOn(s[|sep|..], sep)) == s[|sep|..]
    ensures Join(sep, SplitOn(s, sep)) == s
  {
    var rest := s[|sep|..];
    var parts := SplitOn(rest, sep);
    SplitCut(s, sep);
    assert SplitOn(s, sep) == [""] + parts;
    JoinCons(sep, "", parts);
    assert "" + sep == sep;
    PrefixRest(sep, s);
  }

  /** A sequence that starts with `p` is `p` followed by the rest. */
  lemma PrefixRest<T>(p: seq<T>, s: seq<T>)
    requires p <= s
    ensures p + s[|p|..] == s
  {
  }

  lemma JoinSplitScan(s: string, sep: string)
    requires |sep| > 0 && s != [] && !(sep <= s)
    requires Join(sep, SplitOn(s[1..], sep)) == s[1..]
    ensures Join(sep, SplitOn(s, sep)) == s
  {
    var rest := SplitOn(s[1..], sep);
    SplitScan(s, sep);
    JoinExtendHead(sep, s[0], rest);
    HeadTail(s);
  }

  /** A non-empty sequence is its head followed by its tail. */
  lemma HeadTail<T>(s: seq<T>)
    requires s != []
    ensures [s[0]] + s[1..] == s
  {
  }

  /** An occurrence of the separator at the front cuts an empty first piece. */
  lemma SplitCut(s: string, sep: string)
    requires |sep| > 0 && s != [] && sep <= s
    ensures SplitOn(s, sep) == [""] + SplitOn(s[|sep|..], sep)
  {
  }

  /** Any other first character joins the first piece. */
  lemma SplitScan(s: string, sep: string)
    requires |sep| > 0 && s != [] && !(sep <= s)
    ensures SplitOn(s, sep) == [[s[0]] + SplitOn(s[1..], sep)[0]] + SplitOn(s[1..], sep)[1..]
    ensures SplitOn(s, sep)[0] == [s[0]] + SplitOn(s[1..], sep)[0]
    ensures SplitOn(s, sep)[1..] == SplitOn(s[1..], sep)[1..]
  {
  }

  /** An occurrence of `sep` starts at index `m` of `s`. */
  predicate StartsAt(s: string, sep: string, m: nat)
  {
    m <= |s| && sep <= s[m..]
  }

  /** Where the first occurrence of `sep` in `s` starts, or `|s|` when there is none. */
  function FirstAt(s: string, sep: string): (n: nat)
    requires |sep| > 0
    ensures n <= |s|
    ensures forall m | 0 <= m < n :: !StartsAt(s, sep, m)
    ensures n == |s| || StartsAt(s, sep, n)
    decreases |s|
  {
    if s == [] || sep <= s then 0
    else
      var k := FirstAt(s[1..], sep);
      FirstShift(s, sep, k);
      k + 1
  }

  /** The first occurrence in the tail, one position later, is the first one in `s`. */
  lemma FirstShift(s: string, sep: string, k: nat)
    requires s != [] && !(sep <= s) && k <= |s[1..]|
    requires forall m | 0 <= m < k :: !StartsAt(s[1..], sep, m)
    requires k == |s[1..]| || StartsAt(s[1..], sep, k)
    ensures forall m | 0 <= m < k + 1 :: !StartsAt(s, sep, m)
    ensures k + 1 == |s| || StartsAt(s, sep, k + 1)
  {
    forall m | 0 <= m < k + 1 ensures !StartsAt(s, sep, m) {
      if m > 0 { StartsAtShift(s, sep, m - 1); } else { assert s[0..] == s; }
    }
    if k < |s[1..]| { StartsAtShift(s, sep, k); }
  }

  lemma StartsAtShift(s: string, sep: string, m: nat)
    requires s != []
    ensures StartsAt(s[1..], sep, m) <==> StartsAt(s, sep, m + 1)
  {
    if m < |s| {
      assert s[1..][m..] == s[m + 1..];
    }
  }

  /**
    When the first occurrence of `sep` in `s` starts at `n` (or there is none
    and `n` is the end), the first piece is `s[..n]` and the other pieces are
    the split of what follows that occurrence.
   */
  lemma {:induction false} SplitFirstPiece(s: string, sep: string, n: nat)
    requires |sep| > 0 && n <= |s|
    requires forall m | 0 <= m < n :: !StartsAt(s, sep, m)
    requires n == |s| || StartsAt(s, sep, n)
    ensures SplitOn(s, sep)[0] == s[..n]
    ensures n < |s| ==> SplitOn(s, sep)[1..] == SplitOn(s[n + |sep|..], sep)
    decreases n
  {
    assert s[0..] == s;
    if n == 0 {
      if s != [] {
        SplitCut(s, sep);
        var rest := SplitOn(s[|sep|..], sep);
        assert ([""] + rest)[1..] == rest;
      }
    } else {
      var t := s[1..];
      NoStartShift(s, sep, n);
      SplitFirstPiece(t, sep, n - 1);
      SplitFirstStep(s, sep, n);
    }
  }

  /** The hypotheses of `SplitFirstPiece` for `s` hold for its tail, one position earlier. */
  lemma NoStartShift(s: string, sep: string, n: nat)
    requires |sep| > 0 && 0 < n <= |s|
    requires forall m | 0 <= m < n :: !StartsAt(s, sep, m)
    requires n == |s| || StartsAt(s, sep, n)
    ensures forall m | 0 <= m < n - 1 :: !StartsAt(s[1..], sep, m)
    ensures n - 1 == |s[1..]| || StartsAt(s[1..], sep, n - 1)
  {
    forall m | 0 <= m < n - 1 ensures !StartsAt(s[1..], sep, m) {
      StartsAtShift(s, sep, m);
    }
    StartsAtShift(s, sep, n - 1);
  }

  /** The step of `SplitFirstPiece`: a first character that starts no separator joins the first piece. */
  lemma SplitFirstStep(s: string, sep: string, n: nat)
    requires |sep| > 0 && 0 < n <= |s| && !StartsAt(s, sep, 0)
    requires n == |s| || (StartsAt(s, sep, n) && StartsAt(s[1..], sep, n - 1))
    requires SplitOn(s[1..], sep)[0] == s[1..][..n - 1]
    requires n < |s| ==> SplitOn(s[1..], sep)[1..] == SplitOn(s[1..][n - 1 + |sep|..], sep)
    ensures SplitOn(s, sep)[0] == s[..n]
    ensures n < |s| ==> SplitOn(s, sep)[1..] == SplitOn(s[n + |sep|..], sep)
  {
    assert s[0..] == s;
    SplitScan(s, sep);
    assert s[..n] == [s[0]] + s[1..][..n - 1];
    if n < |s| {
      assert s[1..][n - 1 + |sep|..] == s[n + |sep|..];
    }
  }

  /**
    `s.split(c)` for a one-character separator, as used to cut text into
    lines; `SplitCharAgrees` shows it is `SplitOn(s, [c])`.
   */
  function SplitChar(s: string, c: char): (parts: seq<string>)
    ensures |parts| >= 1
  {
    if s == [] then [""]
    else
      var rest := SplitChar(s[1..], c);
      if s[0] == c then [""] + rest else [[s[0]] + rest[0]] + rest[1..]
  }

  /** The one-character split is the general split with a one-character separator. */
  lemma {:induction false} SplitCharAgrees(s: string, c: char)
    ensures SplitChar(s, c) == SplitOn(s, [c])
    decreases |s|
  {
    if s != [] {
      SplitCharAgrees(s[1..], c);
      if s[0] == c {
        assert [c] <= s;
        SplitCut(s, [c]);
      } else {
        assert !([c] <= s);
        SplitScan(s, [c]);
      }
    }
  }

  /** A text without the separator character splits into itself alone. */
  lemma {:induction false} SplitNoSeparator(a: string, c: char)
    requires c !in a
    ensures SplitChar(a, c) == [a]
    decreases |a|
  {
    if a != [] {
      SplitNoSeparator(a[1..], c);
      assert a == [a[0]] + a[1..];
    }
  }

  /** Splitting on one character distributes over an occurrence of it. */
  lemma {:induction false} SplitAppend(a: string, c: char, b: string)
    ensures SplitChar(a + [c] + b, c) == SplitChar(a, c) + SplitChar(b, c)
    decreases |a|
  {
    var s := a + [c] + b;
    if a == [] {
      assert s[1..] == b;
    } else {
      assert s[1..] == a[1..] + [c] + b;
      SplitAppend(a[1..], c, b);
      if a[0] != c {
        SplitExtendHead(a[0], SplitChar(a[1..], c), SplitChar(b, c));
      }
    }
  }

  /** Growing the first piece commutes with appending further pieces. */
  lemma SplitExtendHead(x: char, ra: seq<string>, rb: seq<string>)
    requires |ra| >= 1
    ensures [[x] + (ra + rb)[0]] + (ra + rb)[1..] == ([[x] + ra[0]] + ra[1..]) + rb
  {
    assert (ra + rb)[0] == ra[0];
    assert (ra + rb)[1..] == ra[1..] + rb;
  }

  /** Lines joined with a character none of them contains split back into the same lines. */
  lemma {:induction false} SplitJoin(xs: seq<string>, c: char)
    requires |xs| > 0
    requires forall i | 0 <= i < |xs| :: c !in xs[i]
    ensures SplitChar(Join([c], xs), c) == xs
    decreases |xs|
  {
    if |xs| == 1 {
      SplitNoSeparator(xs[0], c);
    } else {
      SplitJoin(xs[1..], c);
      SplitAppend(xs[0], c, Join([c], xs[1..]));
      SplitNoSeparator(xs[0], c);
      assert xs == [xs[0]] + xs[1..];
    }
  }

  // ---------------------------------------------------------------------------
  // Decimal formatting of integers (`f"{n}"`)

  predicate IsDigit(c: char)
  {
    '0' <= c <= '9'
  }

  function DigitChar(d: nat): (c: char)
    requires d < 10
    ensures IsDigit(c)
  {
    ('0' as int + d) as char
  }

  /** `str(n)` for a natural number. */
  function NatToString(n: nat): (r: string)
    ensures |r| >= 1
    ensures forall i | 0 <= i < |r| :: IsDigit(r[i])
    ensures r[0] == '0' ==> r == "0"
    decreases n
  {
    if n < 10 then [DigitChar(n)] else NatToString(n / 10) + [DigitChar(n % 10)]
  }

  /** The value of a string of decimal digits. */
  function DigitsValue(s: string): nat
    requires forall i | 0 <= i < |s| :: IsDigit(s[i])
  {
    if s == [] then 0
    else
      assert IsDigit(s[|s| - 1]);
      DigitsValue(s[..|s| - 1]) * 10 + (s[|s| - 1] as int - '0' as int)
  }

  /** Reading back the decimal text of `n` gives `n`, so the formatting loses nothing. */
  lemma {:induction false} NatToStringRoundTrip(n: nat)
    ensures DigitsValue(NatToString(n)) == n
    decreases n
  {
    if n >= 10 {
      NatToStringRoundTrip(n / 10);
      var r := NatToString(n);
      assert r[..|r| - 1] == NatToString(n / 10);
    }
  }

  /** `str(i)` for any integer. */
  function IntToString(i: int): (r: string)
    ensures i >= 0 ==> r == NatToString(i)
    ensures i < 0 ==> |r| >= 2 && r[0] == '-' && r[1..] == NatToString(-i)
  {
    if i < 0 then "-" + NatToString(-i) else NatToString(i)
  }

  /** The text of an integer holds only digits and a leading minus sign. */
  lemma IntToStringChars(i: int, c: char)
    requires !IsDigit(c) && c != '-'
    ensures c !in IntToString(i)
  {
    var r := IntToString(i);
    if i < 0 {
      assert forall m | 1 <= m < |r| :: r[m] == r[1..][m - 1];
    }
  }

  // ---------------------------------------------------------------------------
  // Python's ordering of strings (code point by code point) and `sorted(set)`

  /** `a < b` on Python strings. */
  predicate Below(a: string, b: string)
    decreases |a|
  {
    if a == [] then b != []
    else if b == [] then false
    else if a[0] != b[0] then a[0] < b[0]
    else Below(a[1..], b[1..])
  }

  lemma {:induction false} BelowIrreflexive(a: string)
    ensures !Below(a, a)
    decreases |a|
  {
    if a != [] {
      BelowIrreflexive(a[1..]);
    }
  }

  lemma {:induction false} BelowTransitive(a: string, b: string, c: string)
    requires Below(a, b) && Below(b, c)
    ensures Below(a, c)
    decreases |a|
  {
    if a != [] && b != [] && c != [] && a[0] == b[0] && b[0] == c[0] {
      BelowTransitive(a[1..], b[1..], c[1..]);
    }
  }

  lemma {:induction false} BelowTotal(a: string, b: string)
    requires a != b
    ensures Below(a, b) || Below(b, a)
    decreases |a|
  {
    if a != [] && b != [] && a[0] == b[0] {
      BelowTotal(a[1..], b[1..]);
    }
  }

  predicate Ascending(xs: seq<string>)
  {
    forall i, j | 0 <= i < j < |xs| :: Below(xs[i], xs[j])
  }

  function Elems(xs: seq<string>): set<string>
  {
    set x | x in xs
  }

  lemma ElemsHead(b: seq<string>)
    ensures b != [] ==> b[0] in Elems(b)
  {
  }

  lemma ElemsCons(y: string, ys: seq<string>)
    ensures Elems([y] + ys) == {y} + Elems(ys)
  {
    assert forall z :: z in [y] + ys <==> z == y || z in ys;
  }

  /** Insert `x` into an ascending list, keeping it ascending and free of duplicates. */
  function Insert(x: string, xs: seq<string>): (r: seq<string>)
    requires Ascending(xs)
    ensures Ascending(r)
    ensures Elems(r) == Elems(xs) + {x}
  {
    if xs == [] then [x]
    else if x == xs[0] then xs
    else if Below(x, xs[0]) then
      BelowAll(x, xs);
      AscendingCons(x, xs);
      ElemsCons(x, xs);
      [x] + xs
    else
      BelowTotal(x, xs[0]);
      var tail := Insert(x, xs[1..]);
      HeadBelowTail(xs, x, tail);
      AscendingCons(xs[0], tail);
      ElemsCons(xs[0], xs[1..]);
      ElemsCons(xs[0], tail);
      [xs[0]] + tail
  }

  /** Below the head of an ascending list is below all of it. */
  lemma BelowAll(x: string, xs: seq<string>)
    requires Ascending(xs) && xs != [] && Below(x, xs[0])
    ensures forall j | 0 <= j < |xs| :: Below(x, xs[j])
  {
    forall j | 0 <= j < |xs| ensures Below(x, xs[j]) {
      if j > 0 { BelowTransitive(x, xs[0], xs[j]); }
    }
  }

  lemma AscendingCons(x: string, xs: seq<string>)
    requires Ascending(xs) && forall j | 0 <= j < |xs| :: Below(x, xs[j])
    ensures Ascending([x] + xs)
  {
    var r := [x] + xs;
    forall i, j | 0 <= i < j < |r| ensures Below(r[i], r[j]) {
      assert r[j] == xs[j - 1];
      if i > 0 { assert r[i] == xs[i - 1]; }
    }
  }

  /** The head of an ascending list is below whatever inserting a larger `x` into its tail gives. */
  lemma HeadBelowTail(xs: seq<string>, x: string, tail: seq<string>)
    requires Ascending(xs) && xs != [] && Below(xs[0], x)
    requires Elems(tail) == Elems(xs[1..]) + {x}
    ensures forall j | 0 <= j < |tail| :: Below(xs[0], tail[j])
  {
    forall j | 0 <= j < |tail| ensures Below(xs[0], tail[j]) {
      assert tail[j] in Elems(xs[1..]) + {x};
      if tail[j] != x {
        var m :| 0 <= m < |xs[1..]| && xs[1..][m] == tail[j];
        assert xs[1..][m] == xs[m + 1];
      }
    }
  }

  /** `sorted(set(xs))`: the distinct elements of `xs` in ascending order. */
  function SortedDistinct(xs: seq<string>): (r: seq<string>)
    ensures Ascending(r)
    ensures Elems(r) == Elems(xs)
  {
    if xs == [] then []
    else
      var r := Insert(xs[0], SortedDistinct(xs[1..]));
      assert Elems(xs) == Elems(xs[1..]) + {xs[0]};
      r
  }

  /** An ascending list is determined by its elements: `sorted` of a set has one answer. */
  lemma {:induction false} AscendingUnique(a: seq<string>, b: seq<string>)
    requires Ascending(a) && Ascending(b)
    requires Elems(a) == Elems(b)
    ensures a == b
    decreases |a|
  {
    if a == [] {
      ElemsHead(b);
    } else {
      assert a[0] in Elems(b);
      assert b != [];
      assert b[0] in Elems(a);
      assert a[0] == b[0] by {
        if a[0] != b[0] {
          var i :| 0 <= i < |a| && a[i] == b[0];
          var j :| 0 <= j < |b| && b[j] == a[0];
          assert Below(a[0], b[0]);
          assert Below(b[0], a[0]);
          BelowTransitive(a[0], b[0], a[0]);
          BelowIrreflexive(a[0]);
        }
      }
      assert Elems(a[1..]) == Elems(a) - {a[0]} by {
        forall i | 1 <= i < |a| ensures a[i] != a[0] {
          BelowIrreflexive(a[0]);
        }
        assert forall x :: x in a[1..] <==> x in a && x != a[0];
      }
      assert Elems(b[1..]) == Elems(b) - {b[0]} by {
        forall i | 1 <= i < |b| ensures b[i] != b[0] {
          BelowIrreflexive(b[0]);
        }
        assert forall x :: x in b[1..] <==> x in b && x != b[0];
      }
      AscendingUnique(a[1..], b[1..]);
      assert a == [a[0]] + a[1..];
      assert b == [b[0]] + b[1..];
    }
  }

  // ---------------------------------------------------------------------------
  // repr() of strings and of a list of strings

  /** The body of `repr(s)` between the quotes `q`. */
  function EscapeBody(s: string, q: char): string
  {
    if s == [] then ""
    else
      var c := s[0];
      var e :=
        if c == '\\' then "\\\\"
        else if c == q then ['\\', q]
        else if c == '\n' then "\\n"
        else if c == '\r' then "\\r"
        else if c == '\t' then "\\t"
        else [c];
      e + EscapeBody(s[1..], q)
  }

  /** `repr(s)`: single quotes unless the text holds a single quote and no double quote. */
  function PyRepr(s: string): (r: string)
    ensures |r| >= 2 && r[0] == r[|r| - 1] && (r[0] == '\'' || r[0] == '"')
    ensures r[0] == '"' <==> '\'' in s && '"' !in s
    ensures Unescape(r[1..|r| - 1]) == s
    ensures (forall i | 0 <= i < |s| :: PlainChar(s[i])) ==> r == "'" + s + "'"
  {
    var q := if '\'' in s && '"' !in s then '"' else '\'';
    var r := [q] + EscapeBody(s, q) + [q];
    assert r[1..|r| - 1] == EscapeBody(s, q);
    UnescapeBody(s, q);
    EscapePlain(s, q);
    r
  }

  /** A character `repr` writes as it is, whichever quote it picks. */
  predicate PlainChar(c: char)
  {
    c != '\\' && c != '\'' && c != '"' && c != '\n' && c != '\r' && c != '\t'
  }

  /** Reading an escaped body back: a backslash and the next character stand for one character. */
  function Unescape(t: string): (s: string)
    ensures |s| <= |t|
  {
    if t == [] then ""
    else if t[0] == '\\' && |t| >= 2 then
      var c := t[1];
      var d := if c == 'n' then '\n' else if c == 'r' then '\r' else if c == 't' then '\t' else c;
      [d] + Unescape(t[2..])
    else [t[0]] + Unescape(t[1..])
  }

  /** Unescaping undoes the escaping of a body quoted with `q`. */
  lemma {:induction false} UnescapeBody(s: string, q: char)
    requires q == '\'' || q == '"'
    ensures Unescape(EscapeBody(s, q)) == s
  {
    if s != [] {
      var c := s[0];
      var e :=
        if c == '\\' then "\\\\"
        else if c == q then ['\\', q]
        else if c == '\n' then "\\n"
        else if c == '\r' then "\\r"
        else if c == '\t' then "\\t"
        else [c];
      var tail := EscapeBody(s[1..], q);
      assert EscapeBody(s, q) == e + tail;
      UnescapeBody(s[1..], q);
      if |e| == 2 {
        assert (e + tail)[2..] == tail;
      } else {
        assert (e + tail)[1..] == tail;
      }
      assert s == [c] + s[1..];
    }
  }

  /** A body of plain characters is written unchanged. */
  lemma {:induction false} EscapePlain(s: string, q: char)
    requires q == '\'' || q == '"'
    ensures (forall i | 0 <= i < |s| :: PlainChar(s[i])) ==> EscapeBody(s, q) == s
  {
    if s != [] && forall i | 0 <= i < |s| :: PlainChar(s[i]) {
      assert PlainChar(s[0]);
      EscapePlain(s[1..], q);
      assert s == [s[0]] + s[1..];
    }
  }

  function Reprs(xs: seq<string>): (r: seq<string>)
    ensures |r| == |xs|
    ensures forall i | 0 <= i < |xs| :: r[i] == PyRepr(xs[i])
  {
    if xs == [] then [] else [PyRepr(xs[0])] + Reprs(xs[1..])
  }

  /** `str(xs)` for a list of strings. */
  function PyListRepr(xs: seq<string>): string
  {
    "[" + Join(", ", Reprs(xs)) + "]"
  }
}

=== FILE: vl_panels.dfy ===
/**
  The panel-description stub: `/describe` validates its body as `DescribeIn`
  (a list of dicts, empty by default) and answers one fixed summary per
  panel, labelled with the panel's id.
 */
module VlPanels {
  import opened Common
  import opened Json
  import opened Http

  const Sentence := "Two characters talking in a room about a secret plan."
  const VlModel := "qwen3-vl-8b@stub"

  /** The label of a panel without an `id`. */
  const UnknownPanel := "p?"

  /** One item of `panels` must be a dict. */
  function DecodePanelDict(v: Json): (r: Result<map<string, Json>, string>)
    ensures r.Success? <==> v.JObj?
    ensures r.Success? ==> r.value == v.fields
  {
    if v.JObj? then Success(v.fields) else Failure(NotADict)
  }

  /** Validate the body as `DescribeIn`: `panels` defaults to the empty list. */
  function DecodeDescribe(body: Json): (r: Result<seq<map<string, Json>>, Fault>)
    ensures r.Success? <==>
      body.JObj? && ("panels" in body.fields ==>
        body.fields["panels"].JArr? && forall i | 0 <= i < |body.fields["panels"].items| :: body.fields["panels"].items[i].JObj?)
    ensures r.Success? && "panels" !in body.fields ==> r.value == []
    ensures r.Success? && "panels" in body.fields ==>
      var items := body.fields["panels"].items;
      |r.value| == |items| && forall i | 0 <= i < |items| :: r.value[i] == items[i].fields
    ensures r.Failure? ==> r.error.Raise? && r.error.error.status == 422
  {
    if !body.JObj? then Invalid(BodyNotADict)
    else if "panels" !in body.fields then Success([])
    else if !body.fields["panels"].JArr? then Invalid(NotAList)
    else
      var panels := DecodeAll(body.fields["panels"].items, DecodePanelDict);
      if panels.Failure? then Invalid(panels.error) else Success(panels.value)
  }

  /** `p.get("id", "p?")`: the panel's id, whatever its type, or the placeholder. */
  function PanelLabel(p: map<string, Json>): (tag: Json)
    ensures "id" in p ==> tag == p["id"]
    ensures "id" !in p ==> tag == JStr(UnknownPanel)
  {
    if "id" in p then p["id"] else JStr(UnknownPanel)
  }

  function SummaryJson(tag: Json): Json
  {
    JObj(map["panel_id" := tag, "text" := JStr(Sentence)])
  }

  /** The summaries, one per panel and in the panels' order. */
  function Summaries(panels: seq<map<string, Json>>): (sums: seq<Json>)
    ensures |sums| == |panels|
    ensures forall i | 0 <= i < |panels| :: sums[i] == SummaryJson(PanelLabel(panels[i]))
  {
    if panels == [] then [] else [SummaryJson(PanelLabel(panels[0]))] + Summaries(panels[1..])
  }

  /** A summary list is the summaries of its panels one after another. */
  lemma {:induction false} SummariesAppend(a: seq<map<string, Json>>, b: seq<map<string, Json>>)
    ensures Summaries(a + b) == Summaries(a) + Summaries(b)
    decreases |a|
  {
    if a != [] {
      assert (a + b)[1..] == a[1..] + b;
      SummariesAppend(a[1..], b);
    }
  }

  /** The answer of `describe`. */
  function DescribeJson(panels: seq<map<string, Json>>): (out: Json)
    ensures out.JObj? && "summaries" in out.fields && "model" in out.fields
    ensures out.fields["model"] == JStr(VlModel)
    ensures out.fields["summaries"] == JArr(Summaries(panels))
  {
    JObj(map["summaries" := JArr(Summaries(panels)), "model" := JStr(VlModel)])
  }

  /** The `/describe` endpoint: a body without panels gets no summaries. */
  function Describe(body: Json): (r: Result<Json, Fault>)
    ensures r.Success? <==> DecodeDescribe(body).Success?
    ensures r.Success? ==> r.value == DescribeJson(DecodeDescribe(body).value)
    ensures body.JObj? && "panels" !in body.fields ==> r == Success(DescribeJson([]))
    ensures r.Failure? ==> r.error.Raise? && r.error.error.status == 422
  {
    var panels := DecodeDescribe(body);
    if panels.Failure? then Failure(panels.error) else Success(DescribeJson(panels.value))
  }

  /**
    Each summary is labelled with the id of the panel at the same position,
    or with the placeholder, and carries the fixed sentence.
   */
  lemma DescribeLabels(body: Json, i: nat)
    requires body.JObj? && "panels" in body.fields && body.fields["panels"].JArr?
    requires Describe(body).Success? && i < |body.fields["panels"].items|
    ensures var sums := Describe(body).value.fields["summaries"].items;
      var p := body.fields["panels"].items[i];
      && |sums| == |body.fields["panels"].items|
      && sums[i].fields["panel_id"] == (if "id" in p.fields then p.fields["id"] else JStr(UnknownPanel))
      && sums[i].fields["text"] == JStr(Sentence)
  {
  }
}
